=== FILE: README.md ===
# Membership panel: a verified model of the server bookkeeping

This project models the server side of a membership panel, an Express/Mongoose application, in Dafny. The panel has several parts:

- People apply for membership, and administrators approve, edit and delete members.
- Every member has a login account, joined to it by email.
- Members are charged the price of a membership plan.
- Members submit donation payments with a screenshot.
- The public settings advertise the plans and the bank/UPI details.

The persistent state is one immutable value, `Models.State`. It holds:

- one finite map per collection (members, accounts, plans, payments), keyed by store id;
- the single admin-settings record;
- the `"member"` sequence counter;
- the store's id generator.

Each request handler is a pure function from the state and the request to a `Step`: the new state plus a `Reply`. A reply is either a JSON response (status and body) or an error passed to `next`. The error middleware turns such an error into a response (`Http.Deliver`). Contracts say which entries change and which do not, and what each error branch answers.

Modules follow the program:

- `Models`: the four schemas, the create-time validators, the state, and the store invariant `Consistent`.
- `Http`: bodies, errors, `errorHandler` and `notFound`.
- `Auth`: the token middleware and the role guards.
- `Upload`: the image filter and the stored file name.
- `RouteGuard`: the client's `ProtectedRoute`.
- `MemberIds`: `getNextMemberId`.
- `Plans`: `getMembershipPlan` and the plan handlers.
- `Members`: the filters, paging and updates the two member controllers share.
- `AdminMembers` and `PublicMembers`: the two member controllers.
- `Settings`, `Payments` and `Login`: the handlers of the same names.
- `Invariants`: every writing handler preserves `Consistent`, the create handler both as written and corrected.
- `Base`, `Text` and `Order` are helpers: options, string functions, and newest-first ordering with paging.

Modelling choices:

- Store ids are natural numbers drawn from `nextKey`. Newest first means `createdAt` descending, with ties broken by the larger id.
- A malformed id is `IdRef.Malformed`, which makes a lookup throw a CastError at path `_id`.
- An update writes each present field without running validators, and skips a field that is `undefined`. Validators run only when a document is created. Enumerated fields are therefore kept as text.
- `findOne({ email: undefined })` keeps the key, the driver sends the undefined value as `null`, and the filter matches no account, since every account has a required email (`Members.FindAccount`). This assumes the connection keeps the driver's default `ignoreUndefined: false`, as server/server.js:62 does.
- bcrypt is symbolic: `Digest(p)` is the hash of `p`, and `Compare(p, Digest(q))` holds iff `p == q`.
- A JWT is represented by its claims. Verification and payload decoding are function parameters.
- The clock, the year and random numbers are parameters.

## Model

| member | source | states |
|---|---|---|
| Models.PreSave | server/models/User.js:26-30 | an unmodified password keeps the stored hash; a newly assigned one is replaced by a hash that accepts it |
| Models.CompareAfterSave | server/models/User.js:26-30 | after the hook runs, the stored hash accepts exactly the password it was made from |
| Models.MemberErrors | server/models/Member.js:6-26 | a new member record passes validation iff the required text fields are non-empty, annualIncome is present, the type is "lifetime" or "one-time", and the status is one of the three statuses or left to its default |
| Models.BuildMember | server/models/Member.js:3-29 | the stored member has its email lowercased, its status defaulted to "pending", and satisfies the schema; member id, names, mobile, address, occupation, income, type, plan fee, plan name, plan id and profile image are the given ones; both timestamps are the creation time |
| Models.AccountErrors | server/models/User.js:4-21 | a new account passes validation iff the required fields are non-empty, the type is "lifetime" or "onetime", and the status and role are in their enumerations or left to their defaults |
| Models.BuildAccount | server/models/User.js:4-30 | the stored account has a lowercase email, a hash that accepts the given password, status "pending" and role "member" by default, the given name, phone, address and type, and satisfies the schema |
| Models.AccountByEmail | server/models/User.js:7 | the lookup by email finds an account with exactly that email iff one exists, and the first such in natural order |
| Members.FindAccount | server/controllers/authController.js:15 | the email is lowercased before the lookup and finds the account with that address iff one exists; with no email at all, no account matches |
| Http.ErrorHandler | server/middleware/errorHandler.js:6-48 | the body is always a failure and carries the stack iff in development; ValidationError gives 400 with the joined messages; code 11000 gives 409 "<field> already exists"; CastError gives 400 "Invalid <path>"; TokenExpiredError and JsonWebTokenError give 401; MulterError gives 400; a later check overrides an earlier one; anything else gets the base status and the error's own message |
| Http.Deliver | server/middleware/errorHandler.js:6-8 | a handler's own reply is sent as is; a thrown error goes to the error handler with the response status still at its default |
| Http.StatusOf | server/middleware/errorHandler.js:6-8 | the status of a reply does not depend on development mode, and a handler's own reply keeps its status |
| Http.DuplicateField | server/middleware/errorHandler.js:19 | the first key of keyValue names the duplicated field, and the fallback is "field" |
| Http.NotFound | server/middleware/errorHandler.js:1-8 | an unmatched route answers 404 with "Not Found - <url>" |
| Http.ValidationErrorIs400 | server/middleware/errorHandler.js:10-15 | a validation error reaches the client as 400 with its messages joined by ", " |
| Http.CastErrorIs400 | server/middleware/errorHandler.js:23-26 | a cast error reaches the client as 400 "Invalid <path>" |
| Http.DuplicateKeyIs409 | server/middleware/errorHandler.js:17-21 | a duplicate key reaches the client as 409 "<field> already exists" |
| Http.PlainErrorIs500 | server/middleware/errorHandler.js:7-8 | a plain error thrown with the response status untouched is 500 with its message |
| Auth.ExtractToken | server/middleware/auth.js:5-8 | the token is the header minus a leading "Bearer ", otherwise the whole header ("" when the header is absent) |
| Auth.BearerRoundTrip | server/middleware/auth.js:5-8 | "Bearer " + t yields t back |
| Auth.Authenticate | server/middleware/auth.js:4-19 | an empty token gives 401 "No token"; a token that fails verification gives 401 "Invalid token"; the request proceeds iff the token verifies, and then the claims become the user |
| Auth.RequireAdmin | server/middleware/auth.js:21-26 | proceeds iff the role is "admin", otherwise 403 "Admin only" |
| Auth.RequireMember | server/middleware/auth.js:28-33 | proceeds iff the role is "member", otherwise 403 "Member only" |
| Auth.GuardsExclusive | server/middleware/auth.js:21-33 | no caller passes both role guards |
| Auth.TokenClaims | server/controllers/authController.js:5-10 | a member token carries exactly the account's id and role |
| Upload.Extname | server/utils/upload.js:8 | the extension is a suffix of the name that starts at its last dot and contains no other dot, or is empty |
| Upload.ImageFileFilter | server/utils/upload.js:6-12 | a file is accepted iff its lowercased extension and its mimetype each contain one of jpeg, jpg, png, webp; otherwise the error is "Only image files are allowed" |
| Upload.StoredName | server/utils/upload.js:19-22 | the stored name ends with the original extension, lowercased |
| Upload.Accept | server/utils/upload.js:25-30 | an upload succeeds iff the filter accepts it and its size is at most 2 MiB; a rejected type yields the filter's error |
| Upload.RejectionStatuses | server/utils/upload.js:11 | a rejected type reaches the client as 500, and an oversized file as 400 |
| Upload.ExtensionCaseIgnored | server/utils/upload.js:8 | "photo.PNG" with mimetype "image/png" is accepted |
| Upload.MimeTypeCaseMatters | server/utils/upload.js:9 | mimetype "IMAGE/PNG" is refused even with a good extension |
| Upload.UnanchoredMatch | server/utils/upload.js:7-9 | the extension ".pngx" passes, because the test is a substring match |
| RouteGuard.PayloadSegment | client/src/components/ProtectedRoute.jsx:9 | the payload part exists iff the token contains a dot, and contains no dot itself |
| RouteGuard.PayloadSegmentOfJwt | client/src/components/ProtectedRoute.jsx:9 | a header.payload.signature token yields its payload part |
| RouteGuard.IsTokenExpired | client/src/components/ProtectedRoute.jsx:6-15 | an absent token, a missing payload part and an undecodable payload all count as expired; no exp means never expired; otherwise expired iff exp*1000 <= now |
| RouteGuard.ExpiryIsMonotone | client/src/components/ProtectedRoute.jsx:11 | once expired, a token stays expired at every later time |
| RouteGuard.ExpiryBoundary | client/src/components/ProtectedRoute.jsx:11 | the instant exp*1000 already counts as expired, and one millisecond earlier does not |
| RouteGuard.LoginPath | client/src/components/ProtectedRoute.jsx:36 | the login page is "/admin/login" iff the required role is admin, otherwise "/login" |
| RouteGuard.Guard | client/src/components/ProtectedRoute.jsx:17-44 | the spinner shows iff loading; a missing or expired token redirects to the login page; a role mismatch redirects to "/"; the children render iff the token is valid and the role matches or none is required |
| RouteGuard.ShouldLogout | client/src/components/ProtectedRoute.jsx:19-25 | logs out iff loading is over and a present token has expired |
| RouteGuard.LogoutRedirectsToLogin | client/src/components/ProtectedRoute.jsx:21-37 | whenever the guard logs out, it also redirects to the login page |
| RouteGuard.RoleMismatchNeverRenders | client/src/components/ProtectedRoute.jsx:39-41 | an admin page never renders for a member session, and a member page never renders for an admin session |
| MemberIds.FormatMemberId | server/controllers/adminController.js:91 | the id starts with "MBR-" and is never shorter than prefix + year + "-" + 5 digits |
| MemberIds.Allocate | server/controllers/adminController.js:84-92 | the counter goes up by exactly one and the id is rendered from the new value |
| MemberIds.MemberIdRoundTrip | server/controllers/adminController.js:91 | reading the rendered id gives back the year and the sequence number, so padding never truncates |
| MemberIds.MemberIdInjective | server/controllers/adminController.js:91 | distinct (year, sequence) pairs render distinct ids |
| MemberIds.AllocatedIdReadsBack | server/controllers/memberController.js:8-16 | an allocated id reads back as the year and the counter plus one |
| MemberIds.AllocationsDistinct | server/controllers/adminController.js:84-92 | allocations from different counter values never collide, whatever the years |
| MemberIds.AllocateRun | server/controllers/memberController.js:8-16 | a run of allocations moves the counter by the run's length, the i-th id comes from counter value counter+i, and all the ids are distinct |
| Plans.NewestPlan | server/controllers/adminController.js:105 | a newest plan exists iff some plan exists, and none is newer |
| Plans.SelectionOf | server/controllers/adminController.js:108-112 | the snapshot of a plan: its price, its id, and its name or "Membership Plan" when the name is empty |
| Plans.ResolvePlan | server/controllers/adminController.js:99-113 | the plan with the given id when it exists, else the newest plan, else fee 0 with name "Membership Plan" and no id; a malformed id throws a CastError |
| Plans.DefaultSelection | server/controllers/adminController.js:104-112 | with no id: the newest plan's snapshot, or no plan when there are none |
| Plans.ResolvedPlanIsStored | server/controllers/adminController.js:108-112 | a resolved plan id always names a stored plan whose price is the fee; no id means no plan exists |
| Plans.UnknownIdFallsBack | server/controllers/adminController.js:101-106 | an id that names no plan resolves like no id |
| Plans.NewestPlanWins | server/controllers/adminController.js:105 | a plan created after all others is the one selected |
| Plans.DisplayName | server/controllers/adminController.js:328 | a listed name is the trimmed name, or "Plan <price>" when that is empty |
| Plans.CreatePlan | server/controllers/adminController.js:337-354 | a blank name gives 400 "Plan name is required"; a missing price fails the cast; a negative price fails the minimum; a plan is created iff the name is non-blank and the price is at least 0, stored trimmed under the next id with nothing else changed |
| Plans.CreatedPlanBecomesDefault | server/controllers/adminController.js:99-113 | a plan created later than all others becomes the default selection |
| Plans.UpdatePlan | server/controllers/adminController.js:374-395 | a malformed id throws; an unknown id gives 404 "Price not found"; otherwise a present name is trimmed and written, a present price is written unvalidated, createdAt is kept, and only that plan changes |
| Plans.DeletePlan | server/controllers/adminController.js:397-405 | an unknown id gives 404; otherwise exactly that plan is removed, and members keep their snapshot |
| Plans.Listed | server/controllers/adminController.js:320-335 | every plan once, newest first, under its display name |
| Plans.ListPlans | server/controllers/adminController.js:320-335 | changes nothing; lists every plan exactly once, at its price and under its display name, newest first |
| Members.FiltersAgree | server/controllers/memberController.js:86-121 | without a type, the admin filter equals the member-controller filter; a public match is a status-"approved" match |
| Members.Mentions | server/controllers/adminController.js:124-130 | the definition of the case-insensitive search test of one field; its properties are stated by Members.SearchIgnoresCase and Members.SearchFindsLiteral |
| Members.SearchIgnoresCase | server/controllers/adminController.js:126-129 | the search gives the same answer when the text or the term is lowercased, and the empty term finds every text |
| Members.SearchFindsLiteral | server/controllers/adminController.js:126-129 | a term occurring literally in the text is found |
| Members.AdminMatch | server/controllers/adminController.js:119-131 | the definition of the admin listing's status, type and search filter; Members.FiltersAgree and Members.OneTimeFilterCoversBothSpellings relate it to the other filters |
| Members.ListMatch | server/controllers/memberController.js:88-98 | the definition of the member-controller listing's status and search filter; Members.FiltersAgree shows it equals the admin filter without a type |
| Members.PublicMatch | server/controllers/memberController.js:114-121 | the definition of the public filter (approved, and the search finds the name or the member id); Members.FiltersAgree shows every public match is an approved-status match |
| Members.SkipOf | server/controllers/adminController.js:133 | the skip is negative iff the page is below 1 and the limit is positive; the first page skips nothing |
| Members.OneTimeFilterCoversBothSpellings | server/controllers/adminController.js:121-123 | type "onetime" matches both spellings; "one-time" matches only the member spelling |
| Members.ListPage | server/controllers/adminController.js:133-139 | a negative skip is refused; otherwise the newest-first page at skip (page-1)*limit of at most limit items, with the total of matches and page and limit echoed back |
| Members.PageContents | server/controllers/adminController.js:133-139 | the page holds at most limit members (limit > 0), each a match with its stored content, distinct and newest first; the total counts all matches |
| Members.FirstPageHoldsAll | server/controllers/memberController.js:100-106 | when every match fits within the limit, the first page holds all of them |
| Members.ApplyPatch | server/controllers/adminController.js:239 | each of the fourteen fields is written when present (the email lowercased) and kept when absent; createdAt is kept and updatedAt becomes now |
| Members.PatchIdempotent | server/controllers/memberController.js:141 | applying the same update twice equals applying it once |
| Members.EmptyPatchTouchesOnlyTime | server/controllers/memberController.js:154-158 | an update with no fields changes only the update time |
| Members.PatchMember | server/models/Member.js:5 | an update fails with a duplicate memberId iff it moves the member id onto another member's; otherwise it is the patched record |
| Members.AccountType | server/controllers/adminController.js:248 | "one-time" becomes "onetime", and other values pass through |
| Members.NormalizeType | server/controllers/adminController.js:94-97 | "onetime" becomes "one-time", and other values pass through |
| Members.SpellingsRoundTrip | server/controllers/adminController.js:94-97 | the two spellings translate into each other, and translating back returns the original |
| Members.Mirror | server/controllers/adminController.js:244-250 | the account copies name, phone, address, status and the account spelling of the type; its email, password and role are kept |
| Members.MirrorInto | server/controllers/adminController.js:242-251 | only the account with the member's email changes; none changes when there is no such account |
| Members.StatusInto | server/controllers/adminController.js:265-268 | only that account's status changes, and nothing changes for an undefined status |
| Members.DeleteAccountByEmail | server/controllers/adminController.js:281 | exactly the account with that email is removed, if any |
| AdminMembers.AdminSummary | server/controllers/adminController.js:56-82 | the five counters are: all members, lifetime members, one-time members in either spelling, pending members, and pending payments |
| AdminMembers.SummaryIsBounded | server/controllers/adminController.js:65-68 | lifetime plus one-time members are at most the total, and so are the pending members |
| AdminMembers.AdminMatching | server/controllers/adminController.js:117-131 | a member is listed iff it matches the status, the type (with both spellings) and the search |
| AdminMembers.ListAdminMembers | server/controllers/adminController.js:115-143 | the reply is the page `Members.ListPage` computes over exactly the matching members: a negative skip is refused, otherwise the newest-first slice at (page-1)*limit of at most limit members, with the count of all matches; the state is unchanged |
| AdminMembers.NewAccountDraft | server/controllers/adminController.js:195-204 | the account gets the lowercased email, the password or else the mobile number, type "onetime", the status or else "approved", and role "member" |
| AdminMembers.NewMemberDraft | server/controllers/adminController.js:206-220 | the member gets the allocated id, the lowercased email, type "one-time", the status or else "approved", and the resolved plan's fee, name and id |
| AdminMembers.WriteBoth | server/controllers/adminController.js:195-222 | the account and the member are stored under the next two ids, and nothing else changes |
| AdminMembers.Rejection | server/controllers/adminController.js:195-220 | a pair is refused iff the account is invalid, the member is invalid, or the member id is taken |
| AdminMembers.RejectionReasons | server/controllers/adminController.js:195-220 | the first failing check decides the error: the account's validation, then the member's, then the duplicate member id |
| AdminMembers.WriteAsWritten | server/controllers/adminController.js:195-220 | as written: a valid account is stored even when the member is then refused |
| AdminMembers.WriteValidated | server/controllers/adminController.js:195-220 | corrected: a refused pair writes nothing |
| AdminMembers.Prepare | server/controllers/adminController.js:188-193 | a known email gives 400 "User already exists with this email" with nothing changed; otherwise the counter moves by one and both records are drafted; a malformed plan id throws after the counter moved |
| AdminMembers.CreateAsWritten | server/controllers/adminController.js:173-226 | the handler with the account written before the member is validated |
| AdminMembers.Create | server/controllers/adminController.js:188-191 | a known email gives 400 with nothing changed; a thrown error leaves everything but the counter unchanged |
| AdminMembers.CreateWithoutEmailIsRejected | server/controllers/adminController.js:188-198 | a request without an email passes the duplicate check, moves the counter, and then fails the account's required-email validation with a 400 ValidationError, storing nothing, in both write orders |
| AdminMembers.CreatedPairStored | server/controllers/adminController.js:195-222 | on 201, exactly one account and one member are added under the next two ids, and only the counter also moves |
| AdminMembers.CreatedPairAgrees | server/controllers/adminController.js:195-220 | the created account and member share the lowercased email and the status (default "approved"); the account accepts the password or else the mobile number; the member id is the allocated one; the account has role "member" and type "onetime"; the member is "one-time" with the resolved plan's fee, name and id |
| AdminMembers.CreateOrderingsAgree | server/controllers/adminController.js:173-226 | the two write orders give the same reply always, and the same state whenever the reply is JSON |
| AdminMembers.CreateLeavesOrphanAccount | server/controllers/adminController.js:195-220 | as written, a request without fatherName throws a ValidationError, yet its account is stored and a retry with the same email gets 400 |
| AdminMembers.CreateRejectsCleanly | server/controllers/adminController.js:195-220 | corrected, the same request stores no account, so the email stays free |
| AdminMembers.WithPlan | server/controllers/adminController.js:231-237 | a present plan id sets the fee, the plan name and type "one-time" from the resolved plan, and the plan id when a plan was found (with no plan at all the stored id is kept); every other field of the update is unchanged; without a plan id the update is unchanged |
| AdminMembers.UpdateMember | server/controllers/adminController.js:228-257 | a malformed id throws; an unknown member gives 404 with accounts untouched; otherwise the member is patched and the account with its email is mirrored |
| AdminMembers.UpdateKeepsAccountInStep | server/controllers/adminController.js:242-251 | after an update, the member's account carries its name, phone, address, status and account-spelled type |
| AdminMembers.UpdateMemberStatus | server/controllers/adminController.js:259-274 | an unknown member gives 404; otherwise only the member's status (and update time) and the status of the account with its email change |
| AdminMembers.ApprovalReachesAccount | server/controllers/adminController.js:262-268 | approving a member approves its account |
| AdminMembers.DeleteMember | server/controllers/adminController.js:276-286 | an unknown member gives 404; otherwise that member and the account with its email are removed, and nothing else changes |
| AdminMembers.DeleteRemovesLogin | server/controllers/adminController.js:278-281 | with unique emails, no account with the deleted member's email remains |
| PublicMembers.ApplicationDraft | server/controllers/memberController.js:46-61 | the record is one-time and pending, carries the plan snapshot, and has a profile image iff a file came |
| PublicMembers.LoginDraft | server/controllers/memberController.js:65-74 | the account has the lowercased email, the mobile number as password, type "onetime", status "pending" and role "member" |
| PublicMembers.LoginDraftValid | server/controllers/memberController.js:46-74 | whatever passes the member validators also passes the account's |
| PublicMembers.OpenLogin | server/controllers/memberController.js:63-75 | an account is created only when none has the lowercased email; an existing account is left unchanged |
| PublicMembers.Apply | server/controllers/memberController.js:18-84 | a malformed plan id throws before the counter moves; afterwards the counter has moved by one whatever follows; success is 201 |
| PublicMembers.ApplySucceedsIff | server/controllers/memberController.js:31-61 | an application succeeds iff the plan id is well formed, the record passes validation and the allocated id is free |
| PublicMembers.AppliedMember | server/controllers/memberController.js:31-61 | the stored member is pending and one-time, with the lowercased email, the resolved plan's fee, name and id, and the allocated member id; other members are unchanged |
| PublicMembers.ApplicationOpensLogin | server/controllers/memberController.js:63-75 | after success an account exists for the email; if it is new, it is a pending member account whose password is the mobile number |
| PublicMembers.SecondApplicationReusesLogin | server/controllers/memberController.js:46-75 | a second application with the same email adds a member but no account |
| PublicMembers.ListMatching | server/controllers/memberController.js:88-98 | a member is listed iff it matches the status and the four-field search |
| PublicMembers.ListMembers | server/controllers/memberController.js:86-110 | the page `Members.ListPage` computes over exactly the matching members: the newest-first slice at (page-1)*limit, with the count of all matches |
| PublicMembers.PublicMatching | server/controllers/memberController.js:114-121 | listed iff approved and the search finds the name or the member id |
| PublicMembers.ListPublicMembers | server/controllers/memberController.js:112-136 | the page `Members.ListPage` computes over exactly the public matches: the newest-first slice at (page-1)*limit, with the count of all matches |
| PublicMembers.PublicListingShowsApprovedOnly | server/controllers/memberController.js:115 | no member that is not approved is ever shown |
| PublicMembers.Stats | server/controllers/memberController.js:176-192 | the counts are: approved members, approved lifetime members, and approved members whose type is exactly "one-time" |
| PublicMembers.StatsAreBounded | server/controllers/memberController.js:178-186 | lifetime plus one-time counts are at most the approved count |
| PublicMembers.UpdateMember | server/controllers/memberController.js:138-149 | a malformed id throws and an unknown id gives 404; otherwise the member is patched with no plan logic, and no account changes |
| PublicMembers.UpdateStatus | server/controllers/memberController.js:151-164 | an unknown id gives 404; otherwise only the member's status and update time change |
| PublicMembers.DeleteMember | server/controllers/memberController.js:166-174 | an unknown id gives 404; otherwise only the member is removed, and its account stays |
| PublicMembers.MyProfile | server/controllers/memberController.js:219-230 | a missing account gives 404 "User not found"; no member with the account's lowercased email gives 404 "Member profile not found"; otherwise the first member with that email |
| PublicMembers.AppliedMemberHasProfile | server/controllers/memberController.js:18-84 | after a successful application, the account for its email finds a profile with that email, which is the new member when no member had that email before |
| Settings.PlanOptions | server/controllers/settingsController.js:35-39 | one option per listed plan, in listing order, with its display name and price |
| Settings.OptionsCoverPlans | server/controllers/settingsController.js:30-39 | every plan is offered exactly once, at its price and display name, newest first |
| Settings.View | server/controllers/settingsController.js:35-52 | both prices equal the first option's price (0 without options); the payment fields are those of the stored record or "" |
| Settings.GetSettings | server/controllers/settingsController.js:27-56 | changes nothing and answers 200 with the projection, whose two prices are the fee an application without a plan id is charged |
| Settings.NoRecordMeansBlankDetails | server/controllers/settingsController.js:46-51 | with no settings record, all six payment fields are "" |
| Settings.DefaultPriceIsDefaultFee | server/controllers/settingsController.js:40 | the advertised price is the fee an application without a plan id is charged |
| Settings.FallbackPrice | server/controllers/settingsController.js:61 | the lifetime price if given, else the one-time price, else 0 |
| Settings.DefaultPlanIds | server/controllers/settingsController.js:63 | the plans named exactly "Default Plan" |
| Settings.SetDefaultPlanPrice | server/controllers/settingsController.js:62-66 | the first "Default Plan" gets the price, or one is created; afterwards a "Default Plan" with that price exists and other plans are untouched |
| Settings.UpdatePrices | server/controllers/settingsController.js:58-72 | only the plans and the id generator change; afterwards a "Default Plan" carries the fallback price, and the reply is the refreshed projection |
| Settings.UpdatePricesShowsNewPrice | server/controllers/settingsController.js:58-68 | on a store without a "Default Plan", the advertised price becomes the new price |
| Settings.UpdatePricesMayNotShow | server/controllers/settingsController.js:58-68 | when an existing "Default Plan" is not the newest plan, the advertised price does not change |
| Settings.WithQr | server/controllers/settingsController.js:78-82 | the QR path "/uploads/qr/<file>" is written, and the record is created when missing |
| Settings.WithPaymentDetails | server/controllers/settingsController.js:92-110 | all five bank/UPI fields are overwritten, "" for omitted ones, and the QR image is kept |
| Settings.UpdatePaymentDetails | server/controllers/settingsController.js:90-116 | the reply's projection shows the five submitted fields ("" for omitted ones) and the previous QR image |
| Settings.UploadQr | server/controllers/settingsController.js:74-88 | no file gives 400 "QR image required" and no change; otherwise the QR write and the refreshed settings |
| Settings.GetAdminSettings | server/controllers/adminController.js:407-423 | the stored record, or all fields "" when none exists; it agrees with the public projection |
| Settings.AdminUploadQrCode | server/controllers/adminController.js:453-467 | no file gives 400; otherwise the same QR write, answered with the stored record |
| Settings.AdminUpdatePaymentDetails | server/controllers/adminController.js:425-451 | the same write, answered with the stored record: the five submitted fields ("" for omitted ones) and the previous QR image |
| Settings.PaymentDetailsRoundTrip | server/controllers/settingsController.js:90-116 | after saving, the projection shows the saved details; QR image, options and price are unchanged |
| Settings.QrRoundTrip | server/controllers/settingsController.js:74-88 | after the upload, the projection shows the QR path and keeps the bank details |
| Settings.ControllersAgree | server/controllers/adminController.js:425-467 | the admin and settings handlers make the same writes |
| Payments.PaymentErrors | server/models/Payment.js:5-10 | a payment passes validation iff it has an owner and its category is one of the four funds |
| Payments.AmountOf | server/controllers/paymentController.js:15 | a missing amount is stored as 0, a given one as itself |
| Payments.CategoryOf | server/controllers/paymentController.js:8 | the stored category is one of the four funds iff none was given or a fund was given |
| Payments.SubmitPayment | server/controllers/paymentController.js:3-23 | a non-member gets 403 "Member only", and a missing file gives 400; either way nothing is created; 201 iff both pass with a valid category, storing a pending payment with amount or 0, category or "blindDonation", the caller as owner, and the screenshot path |
| Payments.OwnedBy | server/controllers/paymentController.js:30 | a payment is selected iff its owner is the caller, or, for a token without an id, every payment |
| Payments.ListMyPayments | server/controllers/paymentController.js:25-35 | 403 iff the caller is not a member; otherwise exactly the payments the owner filter selects, each once, with stored content, newest first |
| Payments.ListAllPayments | server/controllers/paymentController.js:37-44 | every payment exactly once, newest first |
| Payments.AdminMatching | server/controllers/adminController.js:291 | the payments with the requested status, or all of them |
| Payments.ListAdminPayments | server/controllers/adminController.js:288-307 | a negative skip is refused; otherwise the newest-first page of matches with the total |
| Payments.AdminPageContents | server/controllers/adminController.js:292-303 | the page holds at most limit matching payments with stored content, distinct and newest first; the total counts all matches |
| Payments.UpdatePaymentStatus | server/controllers/adminController.js:309-318 | a malformed id throws and an unknown id gives 404 "Payment not found"; otherwise the status is written (unvalidated) and kept when undefined |
| Payments.SettlingTouchesOnlyStatus | server/controllers/adminController.js:312 | settling changes that payment's status and nothing else |
| Payments.SubmittedPaymentIsListed | server/controllers/paymentController.js:12-30 | a submitted payment appears in the submitter's list and among the pending payments |
| Login.CheckPassword | server/controllers/authController.js:20 | a missing password or unset hash throws "Illegal arguments"; otherwise the hash decides |
| Login.LoginUser | server/controllers/authController.js:12-29 | an unknown or missing email gives 400 "Invalid credentials"; 200 iff the account exists and the password matches, returning the account's role and a token with its id and role |
| Login.FailuresLookAlike | server/controllers/authController.js:16-21 | for a request carrying a password, an unknown email and a wrong password give the identical 400 reply |
| Login.MissingPasswordRevealsAccount | server/controllers/authController.js:15-20 | without a password, a known email reaches `bcrypt.compare(undefined, hash)`, which throws and is delivered as 500, while an unknown email gets 400, so the status reveals whether the address has an account |
| Login.LoginIgnoresCase | server/controllers/authController.js:15 | any spelling of an email logs in like its lowercase form |
| Login.ApplicantCanLogIn | server/controllers/memberController.js:63-75 | an applicant with a new email can log in with it and the mobile number, as a member |
| Login.CreatedMemberCanLogIn | server/controllers/adminController.js:195-204 | an admin-created member can log in with the given password (or the mobile number), and the token names the new account |
| Login.CurrentUser | server/controllers/authController.js:31-41 | 200 with name, email and role iff the token's account exists, otherwise 404 "User not found" |
| Login.LoginLeadsToSelf | server/controllers/authController.js:5-41 | the token a login issues leads back to the account that logged in |
| Login.AdminLoginAsWritten | server/controllers/adminController.js:34-54 | 200 iff email and password strictly equal the configured values, with an admin token holding the email; otherwise 401 "Invalid admin credentials" |
| Login.UnsetConfigAdmitsAnyone | server/controllers/adminController.js:37-41 | as written, with the variables unset, a body with neither field logs in as admin |
| Login.AdminLogin | server/controllers/adminController.js:37-50 | corrected: an unconfigured server answers 401 to everyone |
| Login.AdminLoginNeedsConfiguredPair | server/controllers/adminController.js:37-50 | 200 iff both variables are set and the submitted pair equals them; when configured, the corrected handler agrees with the code as written |
| Invariants.CreateKeepsConsistent | server/controllers/adminController.js:173-226 | the corrected create keeps account emails lowercase and unique, member ids unique, and ids issued |
| Invariants.CreateAsWrittenKeepsConsistent | server/controllers/adminController.js:173-226 | the create handler as written, orphaned account included, keeps the store consistent |
| Invariants.AdminUpdateKeepsConsistent | server/controllers/adminController.js:228-257 | the admin update keeps the store consistent |
| Invariants.AdminStatusKeepsConsistent | server/controllers/adminController.js:259-274 | the admin status change keeps the store consistent |
| Invariants.AdminDeleteKeepsConsistent | server/controllers/adminController.js:276-286 | the admin delete keeps the store consistent |
| Invariants.PublicDeleteKeepsConsistent | server/controllers/memberController.js:166-174 | the plain delete keeps the store consistent |
| Invariants.ApplyKeepsConsistent | server/controllers/memberController.js:18-84 | an application keeps the store consistent, including one account per email |
| Invariants.PublicUpdateKeepsConsistent | server/controllers/memberController.js:138-149 | the plain update keeps the store consistent |
| Invariants.PublicStatusKeepsConsistent | server/controllers/memberController.js:151-164 | the plain status change keeps the store consistent |
| Invariants.StatusHandlersDiffer | server/controllers/memberController.js:151-164 | the two status handlers give the same reply and the same members; only the admin one sets the status on the member's account, so the two states differ when that account's status was different |
| Invariants.DeleteHandlersDiffer | server/controllers/memberController.js:166-174 | the two delete handlers give the same reply and the same members; after the admin delete the email no longer logs in, after the plain one its account is still found |
| Invariants.PaymentsKeepConsistent | server/controllers/paymentController.js:3-23 | submitting and settling payments keep the store consistent |
| Invariants.UpdatePricesKeepsConsistent | server/controllers/settingsController.js:58-72 | the default-plan upsert keeps the store consistent |
| Invariants.SettingsWritesKeepConsistent | server/controllers/settingsController.js:74-116 | the QR upload and payment-details save, in both controllers, keep the store consistent |
| Invariants.CreatePlanKeepsConsistent | server/controllers/adminController.js:337-372 | creating a plan keeps the store consistent |
| Invariants.UpdatePlanKeepsConsistent | server/controllers/adminController.js:374-395 | updating a plan keeps the store consistent |
| Invariants.DeletePlanKeepsConsistent | server/controllers/adminController.js:397-405 | deleting a plan keeps the store consistent |

## Left out

- React pages, layouts and contexts other than `ProtectedRoute`, and the API client: they render UI and use browser storage.
- `server.js` and `server/routes/*.js`: start-up, I/O and Express wiring. Which guard protects which handler is not modelled as a composition.
- Members.FindAccount: a missing email matching no account assumes that Mongoose keeps an undefined filter value and the driver serialises it as `null` (its default `ignoreUndefined: false`); a connection configured to drop undefined values would instead match the first account.
- `ensureMembershipPriceIndexes` and the duplicate-key retry and 409 path of `createMembershipPrice` (adminController.js:13-32, 355-371): this is database index administration. The modelled plan store has no unique index, so code 11000 cannot arise there.
- `getAdminMemberById` and `exportCsv`: a populated read and CSV generation, which are formatting only.
- `Counter.js` is not part of this model: a missing counter reads as 0, so the first allocation is sequence 1.
- bcrypt and JWT: hashing is symbolic (`Digest`); signing is represented by the claims; verification and payload decoding are parameters.
- `Date`, `Date.now`, `getFullYear` and `Math.random` are parameters of the handlers.
- Concurrency: each handler is one sequential step. Interleavings of the non-transactional two-store writes, and the atomicity of the counter, are not modelled.
- Mongoose schema `trim` setters are not modelled. The explicit `.trim()` calls on plan names are.
- `Number()` coercion, NaN and floating point: prices, amounts, page and limit are integers. A NaN price on plan creation is `None`.
- Text.Lower: only ASCII letters are lowercased; `toLowerCase` also folds non-ASCII letters, so two emails that differ only in the case of a non-ASCII letter count as different here.
- Text.Trim: the white-space set is the ASCII white space plus no-break space and the byte-order mark; `trim` also strips the other Unicode space separators and the line and paragraph separators.
- Members.Mentions: the search term `q` is compiled as a regular expression; the model treats it as a literal, case-insensitive substring.
- Members.ListPage: a negative `limit` (which the database treats as a positive one with a single batch) is not modelled, because `limit` is a natural number.
- Order.SortedEntries: documents with equal `createdAt` are ordered by larger id first; the database leaves that order unspecified.
- Payments.ListAdminPayments: `populate("userId", ...)` is not modelled, so page items carry the owner id only.
- Login.CurrentUser: the `select` projection is represented by name, email and role; the document's `_id`, which `select` always includes, is not in the reply, and `memberId` is not an account field and is omitted.
- Upload.Extname: only base names (no '/') are modelled, as multer's `originalname` is.
- Models.CompareAfterSave: the hash is symbolic and injective, so a stored hash accepts only its own password; bcrypt compares only the first 72 bytes of a password, so it also accepts any password that shares those bytes. Only "a hash accepts the password it was made from" holds of bcrypt itself.
- Upload.Accept: multer's exact check order and the cleanup of partial files are not modelled; the filter runs before the size limit.

## Findings

| source | as written | input that shows it | evidently intended | confidence | as-written member | corrected member |
|---|---|---|---|---|---|---|
| server/controllers/adminController.js:195-220 | `User.create` runs before `Member.create` validates the member, so a member that fails validation leaves its account behind | a create request with fullName, email, mobile and address but no fatherName: the reply is a ValidationError, the account is stored, and every retry with that email gets 400 "User already exists with this email" | validate both records before writing either, so a refused request stores nothing | not executed | AdminMembers.CreateLeavesOrphanAccount | AdminMembers.CreateRejectsCleanly |
| server/controllers/adminController.js:37-41 | strict comparison against `ADMIN_EMAIL` and `ADMIN_PASSWORD`, which are `undefined` when unset | with both variables unset, a body with neither email nor password passes the check and gets an admin token | an unconfigured server admits no administrator | not executed | Login.UnsetConfigAdmitsAnyone | Login.AdminLoginNeedsConfiguredPair |

=== FILE: admin_members.dfy ===
/** The administrator's member handlers: the dashboard counters, the filtered
    listing, create, update, status change and delete. Every member has a
    login account joined to it by email, and these handlers write both. */
module AdminMembers {
  import opened Base
  import opened Text
  import opened Models
  import opened Http
  import opened Members
  import MemberIds
  import Plans

  const UserExists: string := "User already exists with this email"
  const MemberNotFound: string := "Member not found"

  // ---------------------------------------------------------------------------
  // Dashboard and listing
  // ---------------------------------------------------------------------------

  /** `adminSummary`: five counts over the whole store. */
  function AdminSummary(st: State): (r: Step)
    ensures r.st == st && r.reply.Json? && r.reply.status == 200 && r.reply.body.Summary?
    ensures var b := r.reply.body;
      && b.totalMembers == |st.members.Keys|
      && b.lifetimeMembers == |Where(st.members, IsLifetime)|
      && b.oneTimeMembers == |Where(st.members, IsEitherOneTime)|
      && b.pendingMembershipRequests == |Where(st.members, IsPending)|
      && b.pendingPaymentRequests == |PaymentsWithStatus(st.payments, Pending)|
  {
    Step(st, Json(200, Summary(
      |st.members.Keys|,
      |Where(st.members, IsLifetime)|,
      |Where(st.members, IsEitherOneTime)|,
      |Where(st.members, IsPending)|,
      |PaymentsWithStatus(st.payments, Pending)|)))
  }

  /** The type counts never exceed the total: no member is counted as both
      lifetime and one-time. */
  lemma SummaryIsBounded(st: State)
    ensures var b := AdminSummary(st).reply.body;
      && b.lifetimeMembers + b.oneTimeMembers <= b.totalMembers
      && b.pendingMembershipRequests <= b.totalMembers
  {
    var l := Where(st.members, IsLifetime);
    var o := Where(st.members, IsEitherOneTime);
    assert forall k :: k in l ==> k !in o;
    DisjointSubsets(l, o, st.members.Keys);
    SubsetSize(Where(st.members, IsPending), st.members.Keys);
  }

  /** The members `listAdminMembers` matches. */
  function AdminMatching(members: map<Key, Member>, q: Option<string>, status: Option<string>, memberType: Option<string>): (ks: set<Key>)
    ensures forall k :: k in ks <==> k in members && AdminMatch(members[k], q, status, memberType)
    ensures ks <= members.Keys
  {
    set k | k in members && AdminMatch(members[k], q, status, memberType)
  }

  /** `listAdminMembers`: a page of the members matching the status, type and
      search filters, newest first, with the number of matches. */
  function ListAdminMembers(st: State, q: Option<string>, status: Option<string>, memberType: Option<string>,
                            page: Option<int>, limit: Option<nat>): (r: Step)
    ensures r.st == st
    ensures IsPageOf(r.reply, st.members, AdminMatching(st.members, q, status, memberType), page, limit)
    ensures r.reply == ListPage(st.members, AdminMatching(st.members, q, status, memberType), page, limit)
  {
    var matching := AdminMatching(st.members, q, status, memberType);
    PageContents(st.members, matching, page, limit);
    Step(st, ListPage(st.members, matching, page, limit))
  }

  // ---------------------------------------------------------------------------
  // Create
  // ---------------------------------------------------------------------------

  /** The body of `createAdminMember`. */
  datatype CreateRequest = CreateRequest(app: Application, password: Option<string>, status: Option<string>)

  /** The account `createAdminMember` creates: the password defaults to the
      mobile number and the status to "approved". */
  function NewAccountDraft(req: CreateRequest): (d: AccountDraft)
    ensures d.email == LowerOpt(req.app.email) && d.password == Or(req.password, req.app.mobile)
    ensures d.membershipType == AccountOneTime && d.membershipStatus == OrText(req.status, Approved) && d.role == MemberRole
  {
    AccountDraft(req.app.fullName, LowerOpt(req.app.email), req.app.mobile, Or(req.password, req.app.mobile),
                 req.app.address, AccountOneTime, OrText(req.status, Approved), MemberRole)
  }

  /** The member `createAdminMember` creates: one-time, with the plan
      snapshot, the status defaulting to "approved". */
  function NewMemberDraft(req: CreateRequest, memberId: string, sel: Plans.Selection): (d: MemberDraft)
    ensures d.memberId == memberId && d.email == LowerOpt(req.app.email)
    ensures d.membershipType == OneTime && d.status == OrText(req.status, Approved)
    ensures d.membershipFee == sel.fee && d.membershipPlanName == sel.planName && d.membershipPlanId == sel.planId
  {
    MemberDraft(memberId, req.app.fullName, req.app.fatherName, req.app.mobile, LowerOpt(req.app.email),
                req.app.address, req.app.occupation, req.app.annualIncome, OneTime,
                sel.planId, sel.planName, sel.fee, None, OrText(req.status, Approved))
  }

  /** Both records written, account first (id `nextKey`), member second. */
  function WriteBoth(st: State, ad: AccountDraft, md: MemberDraft, now: int): (r: Step)
    requires AccountDraftValid(ad) && MemberDraftValid(md)
    ensures r.reply == Json(201, UserAndMember(Entry(st.nextKey, BuildAccount(ad, now)),
                                                Entry(st.nextKey + 1, BuildMember(md, now))))
    ensures r.st.accounts == st.accounts[st.nextKey := BuildAccount(ad, now)]
    ensures r.st.members == st.members[st.nextKey + 1 := BuildMember(md, now)]
    ensures r.st.nextKey == st.nextKey + 2 && r.st.memberSeq == st.memberSeq
    ensures r.st == st.(accounts := r.st.accounts, members := r.st.members, nextKey := r.st.nextKey)
  {
    var a := BuildAccount(ad, now);
    var m := BuildMember(md, now);
    Step(st.(accounts := st.accounts[st.nextKey := a], members := st.members[st.nextKey + 1 := m],
             nextKey := st.nextKey + 2),
         Json(201, UserAndMember(Entry(st.nextKey, a), Entry(st.nextKey + 1, m))))
  }

  /** Why the store refuses a drafted pair, in the order the checks fire:
      the account's validators, the member's validators, then the unique
      index on the member id. */
  function Rejection(ad: AccountDraft, md: MemberDraft, members: map<Key, Member>): (e: Option<Error>)
    ensures e.None? <==> AccountDraftValid(ad) && MemberDraftValid(md) && !MemberIdTaken(members, md.memberId)
  {
    if AccountErrors(ad) != [] then Some(ValidationError(AccountErrors(ad)))
    else if MemberErrors(md) != [] then Some(ValidationError(MemberErrors(md)))
    else if MemberIdTaken(members, md.memberId) then Some(DuplicateKey("memberId"))
    else None
  }

  /** The errors behind a rejection: a validation error listing the failing
      paths of the first invalid record, or the duplicate member id. */
  lemma RejectionReasons(ad: AccountDraft, md: MemberDraft, members: map<Key, Member>)
    ensures !AccountDraftValid(ad) ==> Rejection(ad, md, members) == Some(ValidationError(AccountErrors(ad)))
    ensures AccountDraftValid(ad) && !MemberDraftValid(md) ==>
      Rejection(ad, md, members) == Some(ValidationError(MemberErrors(md)))
    ensures AccountDraftValid(ad) && MemberDraftValid(md) && MemberIdTaken(members, md.memberId) ==>
      Rejection(ad, md, members) == Some(DuplicateKey("memberId"))
  {
  }

  /** `createAdminMember` as written: the account is created, and only then
      is the member validated, so a member that fails validation leaves its
      account behind. `st` is the state after the counter was bumped. */
  function WriteAsWritten(st: State, ad: AccountDraft, md: MemberDraft, now: int): (r: Step)
    ensures Rejection(ad, md, st.members).None? ==> r == WriteBoth(st, ad, md, now)
    ensures !AccountDraftValid(ad) ==> r == Step(st, Thrown(Rejection(ad, md, st.members).value))
    ensures AccountDraftValid(ad) && Rejection(ad, md, st.members).Some? ==>
      && r.reply == Thrown(Rejection(ad, md, st.members).value)
      && r.st == st.(accounts := st.accounts[st.nextKey := BuildAccount(ad, now)], nextKey := st.nextKey + 1)
  {
    if !AccountDraftValid(ad) then Step(st, Thrown(Rejection(ad, md, st.members).value))
    else
      match Rejection(ad, md, st.members)
      case Some(e) =>
        Step(st.(accounts := st.accounts[st.nextKey := BuildAccount(ad, now)], nextKey := st.nextKey + 1), Thrown(e))
      case None => WriteBoth(st, ad, md, now)
  }

  /** The same writes with both records validated first: a rejected request
      writes no account. */
  function WriteValidated(st: State, ad: AccountDraft, md: MemberDraft, now: int): (r: Step)
    ensures Rejection(ad, md, st.members).Some? ==> r == Step(st, Thrown(Rejection(ad, md, st.members).value))
    ensures Rejection(ad, md, st.members).None? ==> r == WriteBoth(st, ad, md, now)
  {
    match Rejection(ad, md, st.members)
    case Some(e) => Step(st, Thrown(e))
    case None => WriteBoth(st, ad, md, now)
  }

  /** Where a create request stands before its writes: refused up front, or
      ready with the counter bumped and both records drafted. */
  datatype Prepared = Refused(step: Step) | Ready(st1: State, ad: AccountDraft, md: MemberDraft)

  /** The steps before the writes: refuse a known email, allocate a member id
      (the counter moves from here on, whatever follows), resolve the plan. */
  function Prepare(st: State, req: CreateRequest, year: nat): (p: Prepared)
    ensures FindAccount(st.accounts, req.app.email).Some? ==> p == Refused(Step(st, Json(400, Msg(UserExists))))
    ensures FindAccount(st.accounts, req.app.email).None? && req.app.membershipPriceId.Malformed? ==>
      p == Refused(Step(st.(memberSeq := st.memberSeq + 1), Thrown(CastError("_id"))))
    ensures p.Ready? <==> FindAccount(st.accounts, req.app.email).None? && !req.app.membershipPriceId.Malformed?
    ensures p.Ready? ==>
      && p.st1 == st.(memberSeq := st.memberSeq + 1)
      && p.st1.accounts == st.accounts && p.st1.members == st.members
      && p.st1.nextKey == st.nextKey && p.st1.memberSeq == st.memberSeq + 1
      && p.ad == NewAccountDraft(req)
      && p.md == NewMemberDraft(req, MemberIds.Allocate(st.memberSeq, year).memberId,
                                Plans.ResolvePlan(st.plans, req.app.membershipPriceId).value)
  {
    if FindAccount(st.accounts, req.app.email).Some? then Refused(Step(st, Json(400, Msg(UserExists))))
    else
      var alloc := MemberIds.Allocate(st.memberSeq, year);
      var st1 := st.(memberSeq := alloc.counter);
      match Plans.ResolvePlan(st.plans, req.app.membershipPriceId)
      case Err(e) => Refused(Step(st1, Thrown(e)))
      case Ok(sel) => Ready(st1, NewAccountDraft(req), NewMemberDraft(req, alloc.memberId, sel))
  }

  /** `createAdminMember` exactly as the controller orders its writes. */
  function CreateAsWritten(st: State, req: CreateRequest, now: int, year: nat): (r: Step)
    ensures Prepare(st, req, year).Refused? ==> r == Prepare(st, req, year).step
    ensures Prepare(st, req, year).Ready? ==>
      var p := Prepare(st, req, year);
      r == WriteAsWritten(p.st1, p.ad, p.md, now)
  {
    match Prepare(st, req, year)
    case Refused(step) => step
    case Ready(st1, ad, md) => WriteAsWritten(st1, ad, md, now)
  }

  /** `createAdminMember` with the member validated before any write: a
      refused request changes nothing but the counter. */
  function Create(st: State, req: CreateRequest, now: int, year: nat): (r: Step)
    ensures FindAccount(st.accounts, req.app.email).Some? ==> r == Step(st, Json(400, Msg(UserExists)))
    ensures r.reply.Thrown? ==> r.st == st.(memberSeq := st.memberSeq + 1)
  {
    match Prepare(st, req, year)
    case Refused(step) => step
    case Ready(st1, ad, md) => WriteValidated(st1, ad, md, now)
  }

  /** A request without an email finds no existing account, so it passes the
      duplicate check and moves the counter; the account then fails its
      required-email validation, in both write orders, and nothing is stored. */
  lemma CreateWithoutEmailIsRejected(st: State, req: CreateRequest, now: int, year: nat)
    requires req.app.email.None? && !req.app.membershipPriceId.Malformed?
    ensures var r := CreateAsWritten(st, req, now, year);
      && r == Create(st, req, now, year)
      && r.st == st.(memberSeq := st.memberSeq + 1)
      && r.reply.Thrown? && r.reply.err.name == "ValidationError"
      && RequiredMessage("email") in r.reply.err.fieldMessages
      && StatusOf(r.reply) == 400
  {
    var p := Prepare(st, req, year);
    assert !AccountDraftValid(p.ad);
    var errs := AccountErrors(p.ad);
    assert errs == RequireText("name", p.ad.name) + [RequiredMessage("email")] + RequireText("phone", p.ad.phone)
      + RequireText("password", p.ad.password) + RequireText("address", p.ad.address)
      + CheckEnum("membershipType", p.ad.membershipType, AccountTypes, true)
      + CheckEnum("membershipStatus", p.ad.membershipStatus, Statuses, false)
      + CheckEnum("role", p.ad.role, Roles, false);
    ValidationErrorIs400(errs);
  }

  /** A reply that created an account and a member. */
  predicate CreatedPair(r: Step) {
    r.reply.Json? && r.reply.status == 201 && r.reply.body.UserAndMember?
  }

  /** The created account and member are stored under the next two ids and
      nothing else changes but the counter. */
  predicate StoredUnderNextIds(st: State, r: Step)
    requires CreatedPair(r)
  {
    && r.st.memberSeq == st.memberSeq + 1
    && r.st.accounts == st.accounts[st.nextKey := r.reply.body.user.doc]
    && r.st.members == st.members[st.nextKey + 1 := r.reply.body.member.doc]
    && r.st.nextKey == st.nextKey + 2
    && r.st.plans == st.plans && r.st.payments == st.payments && r.st.settings == st.settings
  }

  lemma CreatedPairStored(st: State, req: CreateRequest, now: int, year: nat)
    ensures var r := Create(st, req, now, year);
      r.reply.Json? && r.reply.status == 201 ==> CreatedPair(r) && StoredUnderNextIds(st, r)
  {
    var r := Create(st, req, now, year);
    if r.reply.Json? && r.reply.status == 201 {
      var p := Prepare(st, req, year);
      assert p.Ready? && Rejection(p.ad, p.md, p.st1.members).None?;
      WrittenPairStored(st, p.st1, p.ad, p.md, now);
    }
  }

  /** Writing both records on top of `st` with only the counter moved. */
  lemma WrittenPairStored(st: State, st1: State, ad: AccountDraft, md: MemberDraft, now: int)
    requires AccountDraftValid(ad) && MemberDraftValid(md)
    requires st1 == st.(memberSeq := st.memberSeq + 1)
    ensures CreatedPair(WriteBoth(st1, ad, md, now)) && StoredUnderNextIds(st, WriteBoth(st1, ad, md, now))
  {
  }

  /** A created member and its account share the lowercased email and the
      status, the account accepts the given password (else the mobile
      number), the member id is the one allocated from the counter, the
      account is a one-time member login, and the member is one-time with
      the fee, name and id of the resolved plan. */
  lemma CreatedPairAgrees(st: State, req: CreateRequest, now: int, year: nat)
    ensures var r := Create(st, req, now, year);
      r.reply.Json? && r.reply.status == 201 ==>
        && r.reply.body.UserAndMember?
        && var u := r.reply.body.user.doc;
        var m := r.reply.body.member.doc;
        && m.memberId == MemberIds.Allocate(st.memberSeq, year).memberId
        && u.email == m.email && Some(m.email) == LowerOpt(req.app.email)
        && Or(req.password, req.app.mobile).Some? && Compare(Or(req.password, req.app.mobile).value, u.password)
        && m.status == OrText(req.status, Approved) && u.membershipStatus == m.status
        && u.role == MemberRole && u.membershipType == AccountOneTime && m.membershipType == OneTime
        && var sel := Plans.ResolvePlan(st.plans, req.app.membershipPriceId).value;
        && m.membershipFee == sel.fee && m.membershipPlanName == sel.planName && m.membershipPlanId == sel.planId
  {
    var r := Create(st, req, now, year);
    if r.reply.Json? && r.reply.status == 201 {
      var p := Prepare(st, req, year);
      assert p.Ready? && Rejection(p.ad, p.md, p.st1.members).None?;
      assert r == WriteBoth(p.st1, p.ad, p.md, now);
      PairFields(p.ad, p.md, now, req, MemberIds.Allocate(st.memberSeq, year).memberId,
                 Plans.ResolvePlan(st.plans, req.app.membershipPriceId).value);
    }
  }

  /** The records built from the two drafts of one request. */
  lemma PairFields(ad: AccountDraft, md: MemberDraft, now: int, req: CreateRequest, memberId: string, sel: Plans.Selection)
    requires ad == NewAccountDraft(req) && md == NewMemberDraft(req, memberId, sel)
    requires AccountDraftValid(ad) && MemberDraftValid(md)
    ensures var u := BuildAccount(ad, now);
      var m := BuildMember(md, now);
      && m.memberId == memberId
      && u.email == m.email && Some(m.email) == LowerOpt(req.app.email)
      && Or(req.password, req.app.mobile).Some? && Compare(Or(req.password, req.app.mobile).value, u.password)
      && m.status == OrText(req.status, Approved) && u.membershipStatus == m.status
      && u.role == MemberRole && u.membershipType == AccountOneTime && m.membershipType == OneTime
      && m.membershipFee == sel.fee && m.membershipPlanName == sel.planName && m.membershipPlanId == sel.planId
  {
    LowerIdempotent(req.app.email.value);
  }

  /** The two orderings agree on every request that succeeds or is refused up
      front; they differ only in what a failed member validation leaves. */
  lemma CreateOrderingsAgree(st: State, req: CreateRequest, now: int, year: nat)
    ensures var a := CreateAsWritten(st, req, now, year);
      a.reply.Json? ==> Create(st, req, now, year) == a
    ensures Create(st, req, now, year).reply == CreateAsWritten(st, req, now, year).reply
  {
  }

  /** A complete create request whose member part fails validation (no
      father's name): as written it answers with a validation error yet
      stores the account, and every retry with the same email is refused. */
  lemma CreateLeavesOrphanAccount(st: State, req: CreateRequest, retry: CreateRequest, now: int, year: nat)
    requires Truthy(req.app.fullName) && Truthy(req.app.email) && Truthy(req.app.mobile) && Truthy(req.app.address)
    requires req.password.None? && req.status.None? && !req.app.membershipPriceId.Malformed?
    requires req.app.fatherName.None?
    requires FindAccount(st.accounts, req.app.email).None?
    requires retry.app.email == req.app.email
    ensures var r := CreateAsWritten(st, req, now, year);
      && r.reply.Thrown? && r.reply.err.name == "ValidationError"
      && FindAccount(r.st.accounts, req.app.email).Some?
      && CreateAsWritten(r.st, retry, now, year).reply == Json(400, Msg(UserExists))
  {
    var p := Prepare(st, req, year);
    assert AccountDraftValid(p.ad);
    var a := BuildAccount(p.ad, now);
    assert a.email == Lower(req.app.email.value);
    var r := CreateAsWritten(st, req, now, year);
    assert r.st.accounts == st.accounts[st.nextKey := a];
    assert r.st.accounts[st.nextKey].email == Lower(req.app.email.value);
  }

  /** The corrected ordering on the same request stores no account, so the
      retry goes through once the form is complete. */
  lemma CreateRejectsCleanly(st: State, req: CreateRequest, retry: CreateRequest, now: int, year: nat)
    requires req.app.fatherName.None?
    requires FindAccount(st.accounts, req.app.email).None?
    requires retry.app.email == req.app.email
    ensures var r := Create(st, req, now, year);
      && r.reply.Thrown? && r.st.accounts == st.accounts
      && FindAccount(r.st.accounts, retry.app.email).None?
  {
    assert !MemberDraftValid(NewMemberDraft(req, "", Plans.NoPlan));
  }

  // ---------------------------------------------------------------------------
  // Update, status, delete
  // ---------------------------------------------------------------------------

  /** The update after plan resolution: a present plan id replaces the fee,
      plan name and plan id (an undefined plan id is dropped, keeping the
      stored one) and sets the type to one-time. */
  function WithPlan(p: MemberPatch, priceId: IdRef, plans: map<Key, Plan>): (p': MemberPatch)
    requires !priceId.Malformed?
    ensures priceId.Absent? ==> p' == p
    ensures priceId.Id? ==>
      var sel := Plans.ResolvePlan(plans, priceId).value;
      p' == p.(membershipFee := Some(sel.fee), membershipPlanName := Some(sel.planName),
               membershipPlanId := sel.planId, membershipType := Some(OneTime))
  {
    match priceId
    case Absent => p
    case Id(_) =>
      var sel := Plans.ResolvePlan(plans, priceId).value;
      p.(membershipFee := Some(sel.fee), membershipPlanName := Some(sel.planName),
         membershipPlanId := sel.planId, membershipType := Some(OneTime))
  }

  /** `updateAdminMember`: a present plan id is resolved first (a malformed
      one throws), then the member is updated and the account with the
      member's (new) email mirrors its name, phone, address, type and status. */
  function UpdateMember(st: State, id: IdRef, p: MemberPatch, priceId: IdRef, now: int): (r: Step)
    ensures priceId.Malformed? || id.Malformed? ==> r == Step(st, Thrown(CastError("_id")))
    ensures !priceId.Malformed? && !id.Malformed? && !(id.Id? && id.key in st.members) ==>
      r == Step(st, Json(404, Msg(MemberNotFound)))
    ensures !priceId.Malformed? && id.Id? && id.key in st.members ==>
      var pr := PatchMember(st, id.key, WithPlan(p, priceId, st.plans), now);
      && (pr.Err? ==> r == Step(st, Thrown(pr.error)))
      && (pr.Ok? ==>
            && r.st == st.(members := st.members[id.key := pr.value], accounts := MirrorInto(st.accounts, pr.value))
            && r.reply == Json(200, MemberDoc(Entry(id.key, pr.value))))
  {
    if priceId.Malformed? then Step(st, Thrown(CastError("_id")))
    else match id
      case Malformed(_) => Step(st, Thrown(CastError("_id")))
      case Absent => Step(st, Json(404, Msg(MemberNotFound)))
      case Id(k) =>
        if k !in st.members then Step(st, Json(404, Msg(MemberNotFound)))
        else match PatchMember(st, k, WithPlan(p, priceId, st.plans), now)
          case Err(e) => Step(st, Thrown(e))
          case Ok(m') =>
            Step(st.(members := st.members[k := m'], accounts := MirrorInto(st.accounts, m')),
                 Json(200, MemberDoc(Entry(k, m'))))
  }

  /** After an update the member's account (found by the member's email)
      carries the member's name, phone, address and status, and the account
      spelling of its type. */
  lemma UpdateKeepsAccountInStep(st: State, id: IdRef, p: MemberPatch, priceId: IdRef, now: int)
    ensures var r := UpdateMember(st, id, p, priceId, now);
      r.reply.Json? && r.reply.status == 200 ==>
        var m := r.reply.body.member.doc;
        && r.st.members[r.reply.body.member.id] == m
        && (AccountByEmail(r.st.accounts, m.email).Some? ==>
              var a := r.st.accounts[AccountByEmail(r.st.accounts, m.email).value];
              a.name == m.fullName && a.phone == m.mobile && a.address == m.address
              && a.membershipStatus == m.status && a.membershipType == AccountType(m.membershipType))
  {
    var r := UpdateMember(st, id, p, priceId, now);
    if r.reply.Json? && r.reply.status == 200 {
      var m := r.reply.body.member.doc;
      match AccountByEmail(st.accounts, m.email)
      case None =>
      case Some(k) =>
        var a' := Mirror(st.accounts[k], m);
        assert r.st.accounts == st.accounts[k := a'];
        assert a'.email == m.email;
        assert AccountByEmail(r.st.accounts, m.email) == Some(k);
    }
  }

  /** `updateAdminMemberStatus`: the status is written (an undefined status
      leaves it, only the update time moves) and copied to the account with
      the member's email. */
  function UpdateMemberStatus(st: State, id: IdRef, status: Option<string>, now: int): (r: Step)
    ensures id.Malformed? ==> r == Step(st, Thrown(CastError("_id")))
    ensures !id.Malformed? && !(id.Id? && id.key in st.members) ==> r == Step(st, Json(404, Msg(MemberNotFound)))
    ensures id.Id? && id.key in st.members ==>
      var m := st.members[id.key];
      var m' := m.(status := status.GetOr(m.status), updatedAt := now);
      && r.st == st.(members := st.members[id.key := m'], accounts := StatusInto(st.accounts, m.email, status))
      && r.reply == Json(200, MemberDoc(Entry(id.key, m')))
  {
    match id
    case Malformed(_) => Step(st, Thrown(CastError("_id")))
    case Absent => Step(st, Json(404, Msg(MemberNotFound)))
    case Id(k) =>
      if k !in st.members then Step(st, Json(404, Msg(MemberNotFound)))
      else
        var m := st.members[k];
        var m' := ApplyPatch(m, EmptyPatch.(status := status), now);
        Step(st.(members := st.members[k := m'], accounts := StatusInto(st.accounts, m.email, status)),
             Json(200, MemberDoc(Entry(k, m'))))
  }

  /** Approving a member also approves the account that logs in for it. */
  lemma ApprovalReachesAccount(st: State, k: Key, now: int)
    requires k in st.members && AccountByEmail(st.accounts, st.members[k].email).Some?
    ensures var r := UpdateMemberStatus(st, Id(k), Some(Approved), now);
      var a := AccountByEmail(st.accounts, st.members[k].email).value;
      r.st.members[k].status == Approved && r.st.accounts[a].membershipStatus == Approved
  {
  }

  /** `deleteAdminMember`: the member and the account with its email go. */
  function DeleteMember(st: State, id: IdRef): (r: Step)
    ensures id.Malformed? ==> r == Step(st, Thrown(CastError("_id")))
    ensures !id.Malformed? && !(id.Id? && id.key in st.members) ==> r == Step(st, Json(404, Msg(MemberNotFound)))
    ensures id.Id? && id.key in st.members ==>
      && r.reply == Json(200, Message("Member deleted"))
      && r.st.members == st.members - {id.key}
      && r.st.accounts == DeleteAccountByEmail(st.accounts, st.members[id.key].email)
      && r.st == st.(members := r.st.members, accounts := r.st.accounts)
  {
    match id
    case Malformed(_) => Step(st, Thrown(CastError("_id")))
    case Absent => Step(st, Json(404, Msg(MemberNotFound)))
    case Id(k) =>
      if k !in st.members then Step(st, Json(404, Msg(MemberNotFound)))
      else
        var m := st.members[k];
        Step(st.(members := st.members - {k}, accounts := DeleteAccountByEmail(st.accounts, m.email)),
             Json(200, Message("Member deleted")))
  }

  /** With unique account emails, deleting a member leaves no account that
      logs in with its email. */
  lemma DeleteRemovesLogin(st: State, k: Key)
    requires k in st.members && EmailsUnique(st.accounts)
    ensures var r := DeleteMember(st, Id(k));
      AccountByEmail(r.st.accounts, st.members[k].email).None?
  {
    var e := st.members[k].email;
    var r := DeleteMember(st, Id(k));
    match AccountByEmail(st.accounts, e)
    case None =>
    case Some(a) =>
      forall j | j in r.st.accounts
        ensures r.st.accounts[j].email != e
      {
        assert j != a && j in st.accounts;
      }
  }
}

=== FILE: auth.dfy ===
/** The authentication middleware (bearer token extraction and verification)
    and the two role guards. JWT verification is a parameter: any function
    from token text to the claims it carries, or `None` when verification
    fails for whatever reason (bad signature, expiry, malformed text). */
module Auth {
  import opened Base
  import opened Text
  import opened Models
  import opened Http

  const BearerPrefix: string := "Bearer "

  /** The token in an `Authorization` header: the text after "Bearer " when
      the header starts with it, else the whole header ("" when absent). */
  function ExtractToken(header: Option<string>): (token: string)
    ensures var h := OrText(header, "");
      && (StartsWith(h, BearerPrefix) ==> h == BearerPrefix + token)
      && (!StartsWith(h, BearerPrefix) ==> token == h)
  {
    var h := OrText(header, "");
    if StartsWith(h, BearerPrefix) then h[|BearerPrefix|..] else h
  }

  lemma BearerRoundTrip(token: string)
    ensures ExtractToken(Some(BearerPrefix + token)) == token
  {
    assert (BearerPrefix + token)[|BearerPrefix|..] == token;
  }

  /** What a middleware does with a request: let it through (for `auth`,
      with the decoded claims as `req.user`) or answer it. */
  datatype Gate = Next(user: Claims) | Stop(response: Response)

  /** `auth`: no token is 401 "No token"; a token that does not verify is 401
      "Invalid token"; otherwise the decoded claims become `req.user`. */
  function Authenticate(header: Option<string>, verify: string -> Option<Claims>): (g: Gate)
    ensures ExtractToken(header) == "" <==> g == Stop(Response(401, Msg("No token")))
    ensures ExtractToken(header) != "" && verify(ExtractToken(header)).None?
      <==> g == Stop(Response(401, Msg("Invalid token")))
    ensures g.Next? <==> ExtractToken(header) != "" && verify(ExtractToken(header)).Some?
    ensures g.Next? ==> g.user == verify(ExtractToken(header)).value
  {
    var token := ExtractToken(header);
    if token == "" then Stop(Response(401, Msg("No token")))
    else match verify(token)
      case None => Stop(Response(401, Msg("Invalid token")))
      case Some(claims) => Next(claims)
  }

  /** `requireAdmin`: proceeds iff the caller's role is "admin". */
  function RequireAdmin(user: Option<Claims>): (g: Option<Response>)
    ensures g.None? <==> (user.Some? && user.value.role == AdminRole)
    ensures g.Some? ==> g.value == Response(403, Msg("Admin only"))
  {
    if user.Some? && user.value.role == AdminRole then None else Some(Response(403, Msg("Admin only")))
  }

  /** `requireMember`: proceeds iff the caller's role is "member". */
  function RequireMember(user: Option<Claims>): (g: Option<Response>)
    ensures g.None? <==> (user.Some? && user.value.role == MemberRole)
    ensures g.Some? ==> g.value == Response(403, Msg("Member only"))
  {
    if user.Some? && user.value.role == MemberRole then None else Some(Response(403, Msg("Member only")))
  }

  /** No caller passes both guards. */
  lemma GuardsExclusive(user: Option<Claims>)
    ensures RequireAdmin(user).Some? || RequireMember(user).Some?
  {
  }

  /** The claims `buildToken` signs for an account: its id and role, and
      nothing else. */
  function TokenClaims(id: Key, account: Account): (c: Claims)
    ensures c.id == Some(id) && c.role == account.role && c.email.None?
  {
    Claims(Some(id), account.role, None)
  }
}

=== FILE: base.dfy ===
/** Shared vocabulary: optional values and store-generated document ids. */
module Base {

  /** A JavaScript value that may be `undefined`. */
  datatype Option<+T> = None | Some(value: T) {

    /** The value, or `default` when absent (JavaScript `??`). */
    function GetOr(default: T): T {
      match this
      case Some(v) => v
      case None => default
    }
  }

  /** Outcome of a step that may throw. */
  datatype Result<+T, +E> = Ok(value: T) | Err(error: E)

  /** Store-generated document id (a MongoDB ObjectId). Ids are handed out in
      increasing order, so ascending key order is the collection's natural order. */
  type Key = nat

  /** A stored document together with its store id, as returned to clients. */
  datatype Entry<+T> = Entry(id: Key, doc: T)

  /** An id taken from a request (body field or route parameter): missing or
      empty, present but not a well-formed ObjectId (looking it up throws a
      CastError), or a well-formed id. */
  datatype IdRef = Absent | Malformed(text: string) | Id(key: Key)

  /** JavaScript truthiness of an optional string: present and non-empty. */
  predicate Truthy(o: Option<string>) {
    o.Some? && o.value != ""
  }

  /** JavaScript `a || b` on optional strings. */
  function Or(a: Option<string>, b: Option<string>): (r: Option<string>)
    ensures Truthy(a) ==> r == a
    ensures !Truthy(a) ==> r == b
  {
    if Truthy(a) then a else b
  }

  /** JavaScript `a || fallback` where the fallback is a string literal. */
  function OrText(a: Option<string>, fallback: string): (r: string)
    ensures Truthy(a) ==> r == a.value
    ensures !Truthy(a) ==> r == fallback
  {
    if Truthy(a) then a.value else fallback
  }
}

=== FILE: http.dfy ===
/** Request outcomes: response bodies, thrown errors, and the two middlewares
    that turn errors into responses (`notFound` and `errorHandler`). */
module Http {
  import opened Base
  import opened Text
  import opened Models

  /** A thrown JavaScript error, with the properties `errorHandler` reads:
      `statusCode`, `name`, `message`, `code`, the messages of
      `errors` (validation), the keys of `keyValue` (duplicate key), `path`
      (cast failure) and `stack`. */
  datatype Error = Error(
    name: string,
    message: string,
    statusCode: Option<int>,
    code: Option<int>,
    fieldMessages: seq<string>,
    keyValue: Option<seq<string>>,
    path: string,
    stack: string)

  /** `new Error(message)`. */
  function PlainError(message: string): Error {
    Error("Error", message, None, None, [], None, "", "Error: " + message)
  }

  /** A Mongoose ValidationError carrying one message per failing path. */
  function ValidationError(messages: seq<string>): Error {
    Error("ValidationError", "Validation failed", None, None, messages, None, "", "ValidationError")
  }

  /** A Mongoose CastError, e.g. a malformed ObjectId at path `_id`. */
  function CastError(path: string): Error {
    Error("CastError", "Cast to ObjectId failed", None, None, [], None, path, "CastError")
  }

  /** A MongoDB E11000 duplicate-key error on one unique field. */
  function DuplicateKey(field: string): Error {
    Error("MongoServerError", "E11000 duplicate key error", None, Some(11000), [], Some([field]), "", "MongoServerError")
  }

  function MulterError(message: string): Error {
    Error("MulterError", message, None, None, [], None, "", "MulterError: " + message)
  }

  /** The application-settings payload (`getSettings`). */
  datatype PlanOption = PlanOption(id: Key, name: string, price: int)

  datatype SettingsView = SettingsView(
    lifetimePrice: int,
    oneTimePrice: int,
    membershipOptions: seq<PlanOption>,
    paymentQrImage: string,
    bankName: string,
    accountHolderName: string,
    accountNumber: string,
    ifscCode: string,
    upiId: string)

  /** JSON bodies the handlers send. */
  datatype Body =
    | Msg(msg: string)
    | Message(message: string)
    | Failure(message: string, stack: Option<string>)
    | MemberDoc(member: Entry<Member>)
    | UserAndMember(user: Entry<Account>, member: Entry<Member>)
    | Submitted(message: string, member: Entry<Member>)
    | MemberPage(items: seq<Entry<Member>>, total: nat, page: int, limit: nat)
    | MemberCounts(totalMembers: nat, lifetimeMembers: nat, oneTimeMembers: nat)
    | Summary(totalMembers: nat, lifetimeMembers: nat, oneTimeMembers: nat,
              pendingMembershipRequests: nat, pendingPaymentRequests: nat)
    | SettingsDoc(view: SettingsView)
    | AdminSettingsDoc(settings: AdminSettings)
    | PlanDoc(plan: Entry<Plan>)
    | PlanList(plans: seq<Entry<Plan>>)
    | PaymentDoc(payment: Entry<Payment>)
    | PaymentSubmitted(message: string, payment: Entry<Payment>)
    | PaymentList(payments: seq<Entry<Payment>>)
    | PaymentPage(paymentItems: seq<Entry<Payment>>, paymentTotal: nat, paymentPage: int, paymentLimit: nat)
    | TokenIssued(claims: Claims, role: string)
    | UserDoc(name: string, email: string, userRole: string)

  datatype Response = Response(status: int, body: Body)

  /** What a handler does: answer with a status and body, or pass an error
      to `next`. */
  datatype Reply = Json(status: int, body: Body) | Thrown(err: Error)

  /** One handler invocation: the state after it and its reply. */
  datatype Step = Step(st: State, reply: Reply)

  // ---------------------------------------------------------------------------
  // errorHandler
  // ---------------------------------------------------------------------------

  /** `Object.keys(err.keyValue || {})[0] || "field"`. */
  function DuplicateField(keyValue: Option<seq<string>>): (f: string)
    ensures f != ""
    ensures keyValue.Some? && |keyValue.value| > 0 && keyValue.value[0] != "" ==> f == keyValue.value[0]
    ensures !(keyValue.Some? && |keyValue.value| > 0 && keyValue.value[0] != "") ==> f == "field"
  {
    if keyValue.Some? && |keyValue.value| > 0 && keyValue.value[0] != "" then keyValue.value[0] else "field"
  }

  /** Status before the error is classified: the error's own status code, else
      the status already set on the response unless it is the default 200,
      else 500. */
  function BaseStatus(err: Error, resStatus: int): int {
    if err.statusCode.Some? && err.statusCode.value != 0 then err.statusCode.value
    else if resStatus != 0 && resStatus != 200 then resStatus
    else 500
  }

  /** The Express error middleware. The checks run in sequence and a later
      match overrides an earlier one; the body is always a failure, with the
      stack only in development mode. */
  function ErrorHandler(err: Error, resStatus: int, development: bool): (r: Response)
    ensures r.body.Failure?
    ensures r.body.stack.Some? <==> development
    ensures development ==> r.body.stack == Some(err.stack)
    // MulterError: 400 with the error's own message
    ensures err.name == "MulterError" ==> r.status == 400 && r.body.message == err.message
    ensures err.name == "JsonWebTokenError" ==> r.status == 401 && r.body.message == "Invalid token"
    ensures err.name == "TokenExpiredError" ==> r.status == 401 && r.body.message == "Token expired"
    ensures err.name == "CastError" ==> r.status == 400 && r.body.message == "Invalid " + err.path
    // a duplicate key yields 409 unless one of the later name checks matched
    ensures err.code == Some(11000) && !LaterNamed(err)
      ==> r.status == 409 && r.body.message == DuplicateField(err.keyValue) + " already exists"
    ensures err.name == "ValidationError" && err.code != Some(11000)
      ==> r.status == 400 && r.body.message == Join(err.fieldMessages, ", ")
    // nothing recognised: the base status and the error's message
    ensures err.name != "ValidationError" && err.code != Some(11000) && !LaterNamed(err)
      ==> r.status == BaseStatus(err, resStatus)
          && r.body.message == (if err.message != "" then err.message else "Server error")
  {
    var status0 := BaseStatus(err, resStatus);
    var message0 := if err.message != "" then err.message else "Server error";
    var (status1, message1) :=
      if err.name == "ValidationError" then (400, Join(err.fieldMessages, ", ")) else (status0, message0);
    var (status2, message2) :=
      if err.code == Some(11000) then (409, DuplicateField(err.keyValue) + " already exists") else (status1, message1);
    var (status3, message3) :=
      if err.name == "CastError" then (400, "Invalid " + err.path) else (status2, message2);
    var (status4, message4) :=
      if err.name == "TokenExpiredError" then (401, "Token expired") else (status3, message3);
    var (status5, message5) :=
      if err.name == "JsonWebTokenError" then (401, "Invalid token") else (status4, message4);
    var (status6, message6) :=
      if err.name == "MulterError" then (400, err.message) else (status5, message5);
    Response(status6, Failure(message6, if development then Some(err.stack) else None))
  }

  /** The error names checked after the duplicate-key test. */
  predicate LaterNamed(err: Error) {
    err.name in {"CastError", "TokenExpiredError", "JsonWebTokenError", "MulterError"}
  }

  /** `notFound` followed by `errorHandler`: an unmatched route answers 404
      with the URL in the message. */
  function NotFound(originalUrl: string, development: bool): (r: Response)
    ensures r.status == 404
    ensures r.body.Failure? && r.body.message == "Not Found - " + originalUrl
    ensures r.body.stack.Some? <==> development
  {
    var err := PlainError("Not Found - " + originalUrl);
    assert err.message[0] == 'N' && !LaterNamed(err);
    ErrorHandler(err, 404, development)
  }

  /** The response the client finally sees for a handler's reply. */
  function Deliver(reply: Reply, development: bool): (r: Response)
    ensures reply.Json? ==> r == Response(reply.status, reply.body)
    ensures reply.Thrown? ==> r == ErrorHandler(reply.err, 200, development)
  {
    match reply
    case Json(status, body) => Response(status, body)
    case Thrown(err) => ErrorHandler(err, 200, development)
  }

  /** The HTTP status of a reply (independent of development mode). */
  function StatusOf(reply: Reply): (s: int)
    ensures reply.Json? ==> s == reply.status
    ensures s == Deliver(reply, true).status
  {
    Deliver(reply, false).status
  }

  lemma ValidationErrorIs400(messages: seq<string>)
    ensures StatusOf(Thrown(ValidationError(messages))) == 400
    ensures Deliver(Thrown(ValidationError(messages)), false).body.message == Join(messages, ", ")
  {
  }

  lemma CastErrorIs400(path: string)
    ensures Deliver(Thrown(CastError(path)), false) == Response(400, Failure("Invalid " + path, None))
  {
  }

  lemma DuplicateKeyIs409(field: string)
    requires field != ""
    ensures Deliver(Thrown(DuplicateKey(field)), false) == Response(409, Failure(field + " already exists", None))
  {
  }

  /** An error a handler throws without touching the response status is a
      500 unless it is one of the recognised kinds. */
  lemma PlainErrorIs500(message: string)
    requires message != ""
    ensures Deliver(Thrown(PlainError(message)), false) == Response(500, Failure(message, None))
  {
  }
}

=== FILE: invariants.dfy ===
/** The store's guarantees between requests (`Models.Consistent`: issued ids,
    lowercase unique account emails, unique member ids) survive every
    handler that writes. Each handler's lemma reduces to a few facts about
    one collection, proved once here. */
module Invariants {
  import opened Base
  import opened Text
  import opened Models
  import opened Http
  import opened Members
  import AdminMembers
  import PublicMembers
  import Payments
  import Plans
  import Settings
  import MemberIds

  /** The unique, lowercasing index on account emails. */
  predicate EmailIndex(accounts: map<Key, Account>) {
    && (forall k :: k in accounts ==> Lower(accounts[k].email) == accounts[k].email)
    && EmailsUnique(accounts)
  }

  /** Inserting an account whose lowercase email no account holds keeps the
      index. */
  lemma {:induction false} NewAccountKeepsIndex(accounts: map<Key, Account>, k: Key, a: Account)
    requires EmailIndex(accounts) && Lower(a.email) == a.email
    requires forall j :: j in accounts ==> accounts[j].email != a.email
    ensures EmailIndex(accounts[k := a])
  {
    var r := accounts[k := a];
    forall k1, k2 | k1 in r && k2 in r && r[k1].email == r[k2].email
      ensures k1 == k2
    {
      if k1 != k && k2 != k {
        assert accounts[k1].email == accounts[k2].email;
      }
    }
  }

  /** Any rewrite that keeps or drops accounts but never changes an email
      keeps the index. */
  lemma {:induction false} SameEmailsKeepIndex(accounts: map<Key, Account>, r: map<Key, Account>)
    requires EmailIndex(accounts)
    requires r.Keys <= accounts.Keys
    requires forall k :: k in r ==> r[k].email == accounts[k].email
    ensures EmailIndex(r)
  {
    forall k1, k2 | k1 in r && k2 in r && r[k1].email == r[k2].email
      ensures k1 == k2
    {
      assert accounts[k1].email == accounts[k2].email;
    }
  }

  /** Inserting a member whose member id no member holds keeps the index on
      member ids. */
  lemma {:induction false} NewMemberKeepsIds(members: map<Key, Member>, k: Key, m: Member)
    requires MemberIdsUnique(members)
    requires !MemberIdTaken(members, m.memberId)
    ensures MemberIdsUnique(members[k := m])
  {
    var r := members[k := m];
    forall k1, k2 | k1 in r && k2 in r && r[k1].memberId == r[k2].memberId
      ensures k1 == k2
    {
      if k1 != k && k2 != k {
        assert members[k1].memberId == members[k2].memberId;
      }
    }
  }

  /** Any rewrite that keeps or drops members but never changes a member id
      keeps member ids unique. */
  lemma {:induction false} SameIdsKeepIds(members: map<Key, Member>, r: map<Key, Member>)
    requires MemberIdsUnique(members)
    requires r.Keys <= members.Keys
    requires forall k :: k in r ==> r[k].memberId == members[k].memberId
    ensures MemberIdsUnique(r)
  {
    forall k1, k2 | k1 in r && k2 in r && r[k1].memberId == r[k2].memberId
      ensures k1 == k2
    {
      assert members[k1].memberId == members[k2].memberId;
    }
  }

  /** A patch that passed the duplicate check keeps member ids unique. */
  lemma {:induction false} PatchKeepsIds(st: State, k: Key, p: MemberPatch, now: int)
    requires MemberIdsUnique(st.members) && k in st.members
    requires PatchMember(st, k, p, now).Ok?
    ensures MemberIdsUnique(st.members[k := PatchMember(st, k, p, now).value])
  {
    var m' := PatchMember(st, k, p, now).value;
    var r := st.members[k := m'];
    forall k1, k2 | k1 in r && k2 in r && r[k1].memberId == r[k2].memberId
      ensures k1 == k2
    {
      if k1 != k && k2 != k {
        assert st.members[k1].memberId == st.members[k2].memberId;
      } else if p.memberId.Some? {
        assert !MemberIdClash(st.members, k, p.memberId.value);
      } else {
        assert m'.memberId == st.members[k].memberId;
      }
    }
  }

  /** `createAdminMember` (corrected) keeps the store consistent. */
  lemma CreateKeepsConsistent(st: State, req: AdminMembers.CreateRequest, now: int, year: nat)
    requires Consistent(st)
    ensures Consistent(AdminMembers.Create(st, req, now, year).st)
  {
    var r := AdminMembers.Create(st, req, now, year);
    var p := AdminMembers.Prepare(st, req, year);
    if p.Ready? && AdminMembers.Rejection(p.ad, p.md, p.st1.members).None? {
      CreatedWrites(st, p.st1, p.ad, p.md, now, r);
    }
  }

  /** `createAdminMember` exactly as written keeps the store consistent as
      well: the orphaned account it may leave behind has a fresh, lowercase
      email, so it breaks neither index. */
  lemma CreateAsWrittenKeepsConsistent(st: State, req: AdminMembers.CreateRequest, now: int, year: nat)
    requires Consistent(st)
    ensures Consistent(AdminMembers.CreateAsWritten(st, req, now, year).st)
  {
    var r := AdminMembers.CreateAsWritten(st, req, now, year);
    var p := AdminMembers.Prepare(st, req, year);
    if p.Ready? && AccountDraftValid(p.ad) {
      if AdminMembers.Rejection(p.ad, p.md, p.st1.members).None? {
        CreatedWrites(st, p.st1, p.ad, p.md, now, r);
      } else {
        var a := BuildAccount(p.ad, now);
        LowerIdempotent(p.ad.email.value);
        assert forall k :: k in st.accounts ==> st.accounts[k].email != a.email;
        NewAccountKeepsIndex(st.accounts, st.nextKey, a);
      }
    }
  }

  /** The two writes of a created pair keep each index. */
  lemma CreatedWrites(st: State, st1: State, ad: AccountDraft, md: MemberDraft, now: int, r: Step)
    requires Consistent(st)
    requires st1 == st.(memberSeq := st.memberSeq + 1)
    requires AccountDraftValid(ad) && MemberDraftValid(md) && !MemberIdTaken(st.members, md.memberId)
    requires forall k :: k in st.accounts ==> st.accounts[k].email != Lower(ad.email.value)
    requires r == AdminMembers.WriteBoth(st1, ad, md, now)
    ensures Consistent(r.st)
  {
    var a := BuildAccount(ad, now);
    LowerIdempotent(ad.email.value);
    NewAccountKeepsIndex(st.accounts, st.nextKey, a);
    NewMemberKeepsIds(st.members, st.nextKey + 1, BuildMember(md, now));
  }

  /** `updateAdminMember` keeps the store consistent. */
  lemma AdminUpdateKeepsConsistent(st: State, id: IdRef, p: MemberPatch, priceId: IdRef, now: int)
    requires Consistent(st)
    ensures Consistent(AdminMembers.UpdateMember(st, id, p, priceId, now).st)
  {
    if !priceId.Malformed? && id.Id? && id.key in st.members {
      var q := AdminMembers.WithPlan(p, priceId, st.plans);
      if PatchMember(st, id.key, q, now).Ok? {
        var m' := PatchMember(st, id.key, q, now).value;
        PatchKeepsIds(st, id.key, q, now);
        SameEmailsKeepIndex(st.accounts, MirrorInto(st.accounts, m'));
      }
    }
  }

  /** `updateAdminMemberStatus` keeps the store consistent. */
  lemma AdminStatusKeepsConsistent(st: State, id: IdRef, status: Option<string>, now: int)
    requires Consistent(st)
    ensures Consistent(AdminMembers.UpdateMemberStatus(st, id, status, now).st)
  {
    if id.Id? && id.key in st.members {
      var m := st.members[id.key];
      SameIdsKeepIds(st.members, st.members[id.key := m.(status := status.GetOr(m.status), updatedAt := now)]);
      SameEmailsKeepIndex(st.accounts, StatusInto(st.accounts, m.email, status));
    }
  }

  /** `deleteAdminMember` keeps the store consistent. */
  lemma AdminDeleteKeepsConsistent(st: State, id: IdRef)
    requires Consistent(st)
    ensures Consistent(AdminMembers.DeleteMember(st, id).st)
  {
    if id.Id? && id.key in st.members {
      SameEmailsKeepIndex(st.accounts, DeleteAccountByEmail(st.accounts, st.members[id.key].email));
    }
  }

  /** `deleteMember` (member controller) keeps the store consistent. */
  lemma PublicDeleteKeepsConsistent(st: State, id: IdRef)
    requires Consistent(st)
    ensures Consistent(PublicMembers.DeleteMember(st, id).st)
  {
    if id.Id? && id.key in st.members {
      SameIdsKeepIds(st.members, st.members - {id.key});
    }
  }

  /** The two status handlers write the same member, but only the
      administrator's carries the new status to the member's login account;
      the member controller's leaves every account as it was. */
  lemma StatusHandlersDiffer(st: State, k: Key, status: string, now: int)
    requires k in st.members
    ensures var pub := PublicMembers.UpdateStatus(st, Id(k), Some(status), now);
      var adm := AdminMembers.UpdateMemberStatus(st, Id(k), Some(status), now);
      && pub.reply == adm.reply && pub.st.members == adm.st.members
      && pub.st.accounts == st.accounts
      && (AccountByEmail(st.accounts, st.members[k].email).Some? ==>
            var a := AccountByEmail(st.accounts, st.members[k].email).value;
            && adm.st.accounts[a].membershipStatus == status
            && (st.accounts[a].membershipStatus != status ==> pub.st.accounts != adm.st.accounts))
  {
  }

  /** The two delete handlers remove the same member, but only the
      administrator's removes its login account: after the member
      controller's delete the old email still logs in. */
  lemma DeleteHandlersDiffer(st: State, k: Key)
    requires k in st.members && EmailsUnique(st.accounts)
    ensures var pub := PublicMembers.DeleteMember(st, Id(k));
      var adm := AdminMembers.DeleteMember(st, Id(k));
      var e := st.members[k].email;
      && pub.reply == adm.reply && pub.st.members == adm.st.members
      && AccountByEmail(pub.st.accounts, e) == AccountByEmail(st.accounts, e)
      && AccountByEmail(adm.st.accounts, e).None?
  {
    AdminMembers.DeleteRemovesLogin(st, k);
  }

  /** `applyMembership` keeps the store consistent. */
  lemma ApplyKeepsConsistent(st: State, app: Application, photo: Option<string>, now: int, year: nat)
    requires Consistent(st)
    ensures Consistent(PublicMembers.Apply(st, app, photo, now, year).st)
  {
    var r := PublicMembers.Apply(st, app, photo, now, year);
    if r.reply.Json? {
      var sel := Plans.ResolvePlan(st.plans, app.membershipPriceId).value;
      var md := PublicMembers.ApplicationDraft(app, MemberIds.Allocate(st.memberSeq, year).memberId, sel, photo);
      PublicMembers.ApplySucceedsIff(st, app, photo, now, year);
      PublicMembers.StoredApplication(st, app, photo, now, year, sel, md);
      AppliedWrites(st, app, BuildMember(md, now), now, r);
    }
  }

  /** The member write and the account write of an application keep each
      index. */
  lemma AppliedWrites(st: State, app: Application, m: Member, now: int, r: Step)
    requires Consistent(st)
    requires Truthy(app.email) && Truthy(app.fullName) && Truthy(app.mobile) && Truthy(app.address)
    requires !MemberIdTaken(st.members, m.memberId)
    requires r.st == PublicMembers.OpenLogin(PublicMembers.WithMember(st.(memberSeq := st.memberSeq + 1), m), app, now)
    ensures Consistent(r.st)
  {
    var st2 := PublicMembers.WithMember(st.(memberSeq := st.memberSeq + 1), m);
    NewMemberKeepsIds(st.members, st.nextKey, m);
    var e := Lower(app.email.value);
    if AccountByEmail(st2.accounts, e).None? {
      var a := BuildAccount(PublicMembers.LoginDraft(app), now);
      LowerIdempotent(app.email.value);
      assert a.email == e;
      NewAccountKeepsIndex(st2.accounts, st2.nextKey, a);
    }
  }

  /** `updateMember` (member controller) keeps the store consistent. */
  lemma PublicUpdateKeepsConsistent(st: State, id: IdRef, p: MemberPatch, now: int)
    requires Consistent(st)
    ensures Consistent(PublicMembers.UpdateMember(st, id, p, now).st)
  {
    if id.Id? && id.key in st.members && PatchMember(st, id.key, p, now).Ok? {
      PatchKeepsIds(st, id.key, p, now);
    }
  }

  /** `updateStatus` (member controller) keeps the store consistent. */
  lemma PublicStatusKeepsConsistent(st: State, id: IdRef, status: Option<string>, now: int)
    requires Consistent(st)
    ensures Consistent(PublicMembers.UpdateStatus(st, id, status, now).st)
  {
    if id.Id? && id.key in st.members {
      var m := st.members[id.key];
      SameIdsKeepIds(st.members, st.members[id.key := m.(status := status.GetOr(m.status), updatedAt := now)]);
    }
  }

  /** `submitPayment` and `updatePaymentStatus` keep the store consistent. */
  lemma PaymentsKeepConsistent(st: State, user: Claims, form: Payments.PaymentForm, filename: Option<string>,
                               now: int, id: IdRef, status: Option<string>)
    requires Consistent(st)
    ensures Consistent(Payments.SubmitPayment(st, user, form, filename, now).st)
    ensures Consistent(Payments.UpdatePaymentStatus(st, id, status).st)
  {
  }

  /** `updatePrices` keeps the store consistent. */
  lemma UpdatePricesKeepsConsistent(st: State, lifetimePrice: Option<int>, oneTimePrice: Option<int>, now: int)
    requires Consistent(st)
    ensures Consistent(Settings.UpdatePrices(st, lifetimePrice, oneTimePrice, now).st)
  {
    RepriceKeepsConsistent(st, Settings.FallbackPrice(lifetimePrice, oneTimePrice), now);
  }

  /** The QR upload and the payment-details save of both controllers write
      the settings record only, so they keep the store consistent. */
  lemma SettingsWritesKeepConsistent(st: State, file: Option<string>, d: Settings.PaymentDetails)
    requires Consistent(st)
    ensures Consistent(Settings.UploadQr(st, file).st)
    ensures Consistent(Settings.AdminUploadQrCode(st, file).st)
    ensures Consistent(Settings.UpdatePaymentDetails(st, d).st)
    ensures Consistent(Settings.AdminUpdatePaymentDetails(st, d).st)
  {
  }

  /** The default plan's upsert touches plans only. */
  lemma RepriceKeepsConsistent(st: State, price: int, now: int)
    requires Consistent(st)
    ensures Consistent(Settings.SetDefaultPlanPrice(st, price, now))
  {
    var st' := Settings.SetDefaultPlanPrice(st, price, now);
    assert st'.accounts == st.accounts && st'.members == st.members;
    assert st'.plans.Keys <= st.plans.Keys + {st.nextKey} && st'.nextKey >= st.nextKey;
    assert st'.nextKey == st.nextKey || st'.nextKey == st.nextKey + 1;
  }

  /** A write to the plans alone, with ids still issued, keeps the store
      consistent. */
  lemma PlansOnlyKeepConsistent(st: State, plans: map<Key, Plan>, nextKey: nat)
    requires Consistent(st)
    requires nextKey >= st.nextKey && forall k :: k in plans ==> k < nextKey
    ensures Consistent(st.(plans := plans, nextKey := nextKey))
  {
  }

  /** `createMembershipPrice` keeps the store consistent. */
  lemma CreatePlanKeepsConsistent(st: State, name: Option<string>, price: Option<int>, now: int)
    requires Consistent(st)
    ensures Consistent(Plans.CreatePlan(st, name, price, now).st)
  {
    var r := Plans.CreatePlan(st, name, price, now);
    if r.reply.Json? && r.reply.status == 201 {
      PlansOnlyKeepConsistent(st, r.st.plans, st.nextKey + 1);
    }
  }

  /** `updateMembershipPrice` keeps the store consistent. */
  lemma UpdatePlanKeepsConsistent(st: State, id: IdRef, name: Option<string>, price: Option<int>, now: int)
    requires Consistent(st)
    ensures Consistent(Plans.UpdatePlan(st, id, name, price, now).st)
  {
    var r := Plans.UpdatePlan(st, id, name, price, now);
    if id.Id? && id.key in st.plans {
      PlansOnlyKeepConsistent(st, r.st.plans, st.nextKey);
    }
  }

  /** `deleteMembershipPrice` keeps the store consistent. */
  lemma DeletePlanKeepsConsistent(st: State, id: IdRef)
    requires Consistent(st)
    ensures Consistent(Plans.DeletePlan(st, id).st)
  {
    var r := Plans.DeletePlan(st, id);
    if id.Id? && id.key in st.plans {
      assert r.st == st.(plans := r.st.plans, nextKey := st.nextKey);
      PlansOnlyKeepConsistent(st, r.st.plans, st.nextKey);
    }
  }
}

=== FILE: login.dfy ===
/** Signing in: member login against the stored accounts, the current-user
    lookup, and the administrator's login against the configured
    credentials. Token signing is symbolic: a reply carries the claims the
    token would hold. */
module Login {
  import opened Base
  import opened Text
  import opened Models
  import opened Http
  import opened Members
  import Auth
  import PublicMembers
  import AdminMembers

  const InvalidCredentials: string := "Invalid credentials"
  const InvalidAdminCredentials: string := "Invalid admin credentials"
  const UserNotFound: string := "User not found"

  /** `typeof` of a `bcrypt.compare` argument. */
  function TypeOfPassword(p: Option<string>): string {
    if p.Some? then "string" else "undefined"
  }

  function TypeOfSecret(s: Secret): string {
    if s.Digest? then "string" else "undefined"
  }

  /** `bcrypt.compare(password, stored)`: a non-string argument is rejected
      with the types named in the message, else the hash decides. */
  function CheckPassword(password: Option<string>, stored: Secret): (r: Result<bool, Error>)
    ensures r.Err? <==> password.None? || stored.Unset?
    ensures r.Err? ==> r.error == PlainError("Illegal arguments: " + TypeOfPassword(password) + ", " + TypeOfSecret(stored))
    ensures r.Ok? ==> (r.value <==> Compare(password.value, stored))
  {
    if password.None? || stored.Unset? then
      Err(PlainError("Illegal arguments: " + TypeOfPassword(password) + ", " + TypeOfSecret(stored)))
    else Ok(Compare(password.value, stored))
  }

  /** `loginUser`: the account with the lowercased email (none when the email
      is missing), then the password check; success signs the account's id
      and role. */
  function LoginUser(accounts: map<Key, Account>, email: Option<string>, password: Option<string>): (r: Reply)
    ensures FindAccount(accounts, email).None? ==> r == Json(400, Msg(InvalidCredentials))
    ensures email.None? ==> r == Json(400, Msg(InvalidCredentials))
    ensures r.Json? && r.status == 200 <==>
      && FindAccount(accounts, email).Some?
      && password.Some? && Compare(password.value, accounts[FindAccount(accounts, email).value].password)
    ensures r.Json? && r.status == 200 ==>
      var k := FindAccount(accounts, email).value;
      r.body == TokenIssued(Auth.TokenClaims(k, accounts[k]), accounts[k].role)
    ensures r.Json? ==> r.status in {200, 400}
  {
    match FindAccount(accounts, email)
    case None => Json(400, Msg(InvalidCredentials))
    case Some(k) =>
      match CheckPassword(password, accounts[k].password)
      case Err(e) => Thrown(e)
      case Ok(ok) =>
        if !ok then Json(400, Msg(InvalidCredentials))
        else Json(200, TokenIssued(Auth.TokenClaims(k, accounts[k]), accounts[k].role))
  }

  /** For a request that carries a password, an unknown email and a wrong
      password get the same answer, so such a failed login does not reveal
      whether the address has an account. Without a password it does: see
      `MissingPasswordRevealsAccount`. */
  lemma FailuresLookAlike(accounts: map<Key, Account>, unknown: string, known: string, wrong: string)
    requires forall k :: k in accounts ==> accounts[k].email != Lower(unknown)
    requires AccountByEmail(accounts, Lower(known)).Some?
    requires !Compare(wrong, accounts[AccountByEmail(accounts, Lower(known)).value].password)
    requires accounts[AccountByEmail(accounts, Lower(known)).value].password.Digest?
    ensures LoginUser(accounts, Some(unknown), Some(wrong)) == LoginUser(accounts, Some(known), Some(wrong))
    ensures LoginUser(accounts, Some(unknown), Some(wrong)) == Json(400, Msg(InvalidCredentials))
  {
  }

  /** A request without a password tells a known address from an unknown
      one: a known address reaches `bcrypt.compare(undefined, hash)`, which
      throws and is delivered as 500, while an unknown one gets 400. */
  lemma MissingPasswordRevealsAccount(accounts: map<Key, Account>, unknown: string, known: string)
    requires forall k :: k in accounts ==> accounts[k].email != Lower(unknown)
    requires AccountByEmail(accounts, Lower(known)).Some?
    ensures StatusOf(LoginUser(accounts, Some(unknown), None)) == 400
    ensures LoginUser(accounts, Some(known), None).Thrown?
    ensures StatusOf(LoginUser(accounts, Some(known), None)) == 500
  {
    var k := AccountByEmail(accounts, Lower(known)).value;
    PlainErrorIs500("Illegal arguments: undefined, " + TypeOfSecret(accounts[k].password));
  }

  /** Email matching ignores case: any spelling of the address finds the
      same account. */
  lemma LoginIgnoresCase(accounts: map<Key, Account>, email: string, password: Option<string>)
    ensures LoginUser(accounts, Some(email), password) == LoginUser(accounts, Some(Lower(email)), password)
  {
    LowerIdempotent(email);
  }

  /** An applicant whose email was new can sign in with that email and their
      mobile number, as a member. */
  lemma ApplicantCanLogIn(st: State, app: Application, photo: Option<string>, now: int, year: nat)
    requires KeysIssued(st)
    ensures var r := PublicMembers.Apply(st, app, photo, now, year);
      r.reply.Json? && AccountByEmail(st.accounts, Lower(app.email.value)).None? ==>
        var login := LoginUser(r.st.accounts, app.email, app.mobile);
        login.Json? && login.status == 200 && login.body.role == MemberRole
  {
    PublicMembers.ApplicationOpensLogin(st, app, photo, now, year);
  }

  /** A member the administrator created can sign in with the given password
      (the mobile number when none was given), and the token names the new
      account. */
  lemma CreatedMemberCanLogIn(st: State, req: AdminMembers.CreateRequest, now: int, year: nat)
    ensures var r := AdminMembers.Create(st, req, now, year);
      r.reply.Json? && r.reply.status == 201 ==>
        var login := LoginUser(r.st.accounts, req.app.email, Or(req.password, req.app.mobile));
        login.Json? && login.status == 200 && login.body.claims.id == Some(st.nextKey)
  {
    var r := AdminMembers.Create(st, req, now, year);
    if r.reply.Json? && r.reply.status == 201 {
      AdminMembers.CreatedPairStored(st, req, now, year);
      AdminMembers.CreatedPairAgrees(st, req, now, year);
      CreatedAccountFound(st, req, r, now, year);
    }
  }

  lemma CreatedAccountFound(st: State, req: AdminMembers.CreateRequest, r: Step, now: int, year: nat)
    requires r == AdminMembers.Create(st, req, now, year)
    requires AdminMembers.CreatedPair(r) && AdminMembers.StoredUnderNextIds(st, r)
    requires Some(r.reply.body.member.doc.email) == LowerOpt(req.app.email)
    requires r.reply.body.user.doc.email == r.reply.body.member.doc.email
    ensures FindAccount(r.st.accounts, req.app.email) == Some(st.nextKey)
  {
    var e := Lower(req.app.email.value);
    assert FindAccount(st.accounts, req.app.email).None?;
    assert r.st.accounts == st.accounts[st.nextKey := r.reply.body.user.doc];
    assert r.st.accounts[st.nextKey].email == e;
    assert forall k :: k in r.st.accounts && r.st.accounts[k].email == e ==> k == st.nextKey;
  }

  /** `getCurrentUser`: the account the token names (an administrator's token
      names none), reduced to its public fields. */
  function CurrentUser(accounts: map<Key, Account>, user: Claims): (r: Reply)
    ensures r.Json? && r.status == 200 <==> user.id.Some? && user.id.value in accounts
    ensures r.Json? && r.status == 200 ==>
      var a := accounts[user.id.value];
      r.body == UserDoc(a.name, a.email, a.role)
    ensures !(r.Json? && r.status == 200) ==> r == Json(404, Msg(UserNotFound))
  {
    if user.id.Some? && user.id.value in accounts then
      var a := accounts[user.id.value];
      Json(200, UserDoc(a.name, a.email, a.role))
    else Json(404, Msg(UserNotFound))
  }

  /** The signed-in member's own record: the token a login issues leads back
      to the account that logged in. */
  lemma LoginLeadsToSelf(accounts: map<Key, Account>, email: Option<string>, password: Option<string>)
    ensures var r := LoginUser(accounts, email, password);
      r.Json? && r.status == 200 ==>
        var k := FindAccount(accounts, email).value;
        CurrentUser(accounts, r.body.claims) == Json(200, UserDoc(accounts[k].name, accounts[k].email, accounts[k].role))
  {
  }

  /** The administrator's configured address and password
      (`ADMIN_EMAIL`, `ADMIN_PASSWORD`); either may be unset. */
  datatype AdminConfig = AdminConfig(email: Option<string>, password: Option<string>)

  /** `adminLogin` as written: strict comparison of the submitted fields with
      the configuration, so an unset variable matches a missing field. */
  function AdminLoginAsWritten(config: AdminConfig, email: Option<string>, password: Option<string>): (r: Reply)
    ensures r.Json?
    ensures r.status == 200 <==> email == config.email && password == config.password
    ensures r.status == 200 ==> r.body == TokenIssued(Claims(None, AdminRole, email), AdminRole)
    ensures r.status != 200 ==> r == Json(401, Msg(InvalidAdminCredentials))
  {
    if email != config.email || password != config.password then Json(401, Msg(InvalidAdminCredentials))
    else Json(200, TokenIssued(Claims(None, AdminRole, email), AdminRole))
  }

  /** With the variables unset, a request naming neither field is signed in as
      the administrator. */
  lemma UnsetConfigAdmitsAnyone()
    ensures AdminLoginAsWritten(AdminConfig(None, None), None, None).status == 200
    ensures AdminLoginAsWritten(AdminConfig(None, None), None, None).body.role == AdminRole
  {
  }

  /** `adminLogin` as intended: only the configured credentials, and nothing
      when they are not configured. */
  function AdminLogin(config: AdminConfig, email: Option<string>, password: Option<string>): (r: Reply)
    ensures r.Json?
    ensures r.status == 200 ==> r.body == TokenIssued(Claims(None, AdminRole, email), AdminRole)
    ensures r.status != 200 ==> r == Json(401, Msg(InvalidAdminCredentials))
  {
    if config.email.None? || config.password.None? then Json(401, Msg(InvalidAdminCredentials))
    else AdminLoginAsWritten(config, email, password)
  }

  /** Only the configured pair signs in, and an unconfigured server admits
      nobody; when configured, it agrees with the code as written. */
  lemma AdminLoginNeedsConfiguredPair(config: AdminConfig, email: Option<string>, password: Option<string>)
    ensures AdminLogin(config, email, password).status == 200 <==>
      config.email.Some? && config.password.Some? && email == config.email && password == config.password
    ensures config.email.Some? && config.password.Some? ==>
      AdminLogin(config, email, password) == AdminLoginAsWritten(config, email, password)
  {
  }
}

=== FILE: member_ids.dfy ===
/** Member ids: `getNextMemberId` bumps the shared `"member"` sequence and
    renders `MBR-<year>-<seq>` with the sequence padded to at least five
    digits. Both controllers draw from the same counter. */
module MemberIds {
  import opened Base
  import opened Text

  const Prefix: string := "MBR-"
  const SeqWidth: nat := 5

  /** The rendered id for a year and a sequence number. */
  function FormatMemberId(year: nat, n: nat): (id: string)
    ensures |id| >= |Prefix| + |NatText(year)| + 1 + SeqWidth
    ensures StartsWith(id, Prefix)
  {
    Prefix + NatText(year) + "-" + PadStart(NatText(n), SeqWidth, '0')
  }

  /** Reads an id of the form `MBR-<digits>-<at least five digits>` back into
      its year and sequence number. */
  function ParseMemberId(id: string): (r: Option<(nat, nat)>)
  {
    if !StartsWith(id, Prefix) then None else ParseParts(id[|Prefix|..])
  }

  /** Reads `<digits>-<at least five digits>`, the part after the prefix. */
  function ParseParts(rest: string): (r: Option<(nat, nat)>)
  {
    var i := IndexOf(rest, '-');
    if i == 0 || i == |rest| then None
    else
      var yearText := rest[..i];
      var seqText := rest[i + 1..];
      if AllDigits(yearText) && AllDigits(seqText) && |seqText| >= SeqWidth then
        Some((DigitsValue(yearText), DigitsValue(seqText)))
      else None
  }

  /** Rendering then reading gives back the year and the sequence number:
      the padding never truncates and adds only leading zeros. */
  lemma MemberIdRoundTrip(year: nat, n: nat)
    ensures ParseMemberId(FormatMemberId(year, n)) == Some((year, n))
  {
    PaddedValue(n);
    NatTextRoundTrip(year);
    ReadParts(NatText(year), PadStart(NatText(n), SeqWidth, '0'));
  }

  /** The padded sequence text is a digit string of the same value. */
  lemma PaddedValue(n: nat)
    ensures var padded := PadStart(NatText(n), SeqWidth, '0');
      AllDigits(padded) && |padded| >= SeqWidth && DigitsValue(padded) == n
  {
    var padded := PadStart(NatText(n), SeqWidth, '0');
    var zeros := padded[..|padded| - |NatText(n)|];
    assert padded == zeros + NatText(n);
    LeadingZeros(zeros, NatText(n));
    NatTextRoundTrip(n);
  }

  /** Reading an id assembled from a year part and a sequence part. */
  lemma ReadParts(yearText: string, seqText: string)
    requires yearText != [] && AllDigits(yearText)
    requires AllDigits(seqText) && |seqText| >= SeqWidth
    ensures ParseMemberId(Prefix + yearText + "-" + seqText)
      == Some((DigitsValue(yearText), DigitsValue(seqText)))
  {
    var rest := yearText + ("-" + seqText);
    var id := Prefix + rest;
    assert Prefix + yearText + "-" + seqText == id;
    assert id[..|Prefix|] == Prefix && id[|Prefix|..] == rest;
    ReadRest(yearText, seqText);
  }

  lemma ReadRest(yearText: string, seqText: string)
    requires yearText != [] && AllDigits(yearText)
    requires AllDigits(seqText) && |seqText| >= SeqWidth
    ensures ParseParts(yearText + ("-" + seqText)) == Some((DigitsValue(yearText), DigitsValue(seqText)))
  {
    var rest := yearText + ("-" + seqText);
    SplitAtDash(yearText, seqText);
    var i := IndexOf(rest, '-');
    assert rest[..i] == yearText && rest[i + 1..] == seqText;
  }

  /** The year part holds no dash, so the first dash after the prefix is the
      separator. */
  lemma SplitAtDash(yearText: string, seqText: string)
    requires AllDigits(yearText)
    ensures var rest := yearText + ("-" + seqText);
      && IndexOf(rest, '-') == |yearText|
      && rest[..|yearText|] == yearText
      && rest[|yearText| + 1..] == seqText
  {
    var rest := yearText + ("-" + seqText);
    assert forall k :: 0 <= k < |yearText| ==> rest[k] == yearText[k] && rest[k] != '-';
    assert rest[|yearText|] == '-';
    assert rest[..|yearText|] == yearText;
    assert rest[|yearText| + 1..] == seqText;
  }

  /** Distinct (year, sequence) pairs never render to the same id. */
  lemma MemberIdInjective(y1: nat, n1: nat, y2: nat, n2: nat)
    requires FormatMemberId(y1, n1) == FormatMemberId(y2, n2)
    ensures y1 == y2 && n1 == n2
  {
    MemberIdRoundTrip(y1, n1);
    MemberIdRoundTrip(y2, n2);
  }

  /** The counter after the `$inc` and the id rendered from it. */
  datatype Allocation = Allocation(counter: nat, memberId: string)

  /** `getNextMemberId`: the counter (0 when it does not exist yet) goes up by
      exactly one and the id is rendered from the new value. */
  function Allocate(counter: nat, year: nat): (a: Allocation)
    ensures a.counter == counter + 1
    ensures StartsWith(a.memberId, Prefix)
  {
    Allocation(counter + 1, FormatMemberId(year, counter + 1))
  }

  /** The allocated id reads back as the year and the new counter value. */
  lemma AllocatedIdReadsBack(counter: nat, year: nat)
    ensures ParseMemberId(Allocate(counter, year).memberId) == Some((year, counter + 1))
  {
    MemberIdRoundTrip(year, counter + 1);
  }

  /** Allocations from different counter values never collide, whatever the
      years: the counter is never reset. */
  lemma AllocationsDistinct(c1: nat, y1: nat, c2: nat, y2: nat)
    requires c1 != c2
    ensures Allocate(c1, y1).memberId != Allocate(c2, y2).memberId
  {
    AllocatedIdReadsBack(c1, y1);
    AllocatedIdReadsBack(c2, y2);
  }

  /** A run of successive requests (one year per request) against one
      counter: the counter ends |years| higher, the i-th id is the one
      allocated from counter value `counter + i` (so it reads back as that
      value plus one), and every id is distinct. */
  method AllocateRun(counter: nat, years: seq<nat>) returns (final: nat, ids: seq<string>)
    ensures final == counter + |years|
    ensures |ids| == |years|
    ensures forall i :: 0 <= i < |ids| ==> ids[i] == Allocate(counter + i, years[i]).memberId
    ensures forall i, j :: 0 <= i < j < |ids| ==> ids[i] != ids[j]
  {
    final := counter;
    ids := [];
    var k := 0;
    while k < |years|
      invariant 0 <= k <= |years|
      invariant final == counter + k
      invariant |ids| == k
      invariant forall i :: 0 <= i < k ==> ids[i] == Allocate(counter + i, years[i]).memberId
      invariant forall i, j :: 0 <= i < j < k ==> ids[i] != ids[j]
    {
      var a := Allocate(final, years[k]);
      forall i | 0 <= i < k
        ensures ids[i] != a.memberId
      {
        AllocationsDistinct(counter + i, years[i], final, years[k]);
      }
      ids := ids + [a.memberId];
      final := a.counter;
      k := k + 1;
    }
  }
}

=== FILE: members.dfy ===
/** What the two member controllers share: the search filters, paging of a
    newest-first listing, the field-by-field update of a member record, the
    account mirror of a member, and the counters. */
module Members {
  import opened Base
  import opened Text
  import opened Models
  import opened Http
  import Order

  // ---------------------------------------------------------------------------
  // Requests
  // ---------------------------------------------------------------------------

  /** The member fields of an application (or of an administrator's create
      request); `None` is a field the body does not carry. */
  datatype Application = Application(
    fullName: Option<string>,
    fatherName: Option<string>,
    mobile: Option<string>,
    email: Option<string>,
    address: Option<string>,
    occupation: Option<string>,
    annualIncome: Option<int>,
    membershipPriceId: IdRef)

  /** `email?.toLowerCase()`. */
  function LowerOpt(s: Option<string>): (r: Option<string>)
    ensures r.None? <==> s.None?
    ensures r.Some? ==> r.value == Lower(s.value) && |r.value| == |s.value|
  {
    match s
    case None => None
    case Some(v) => Some(Lower(v))
  }

  /** `User.findOne({ email: email?.toLowerCase() })`. Without an email the
      filter keeps the key with an undefined value, which the driver sends as
      `null`; since every account has a (required) email, nothing matches. */
  function FindAccount(accounts: map<Key, Account>, email: Option<string>): (r: Option<Key>)
    ensures r.Some? ==> r.value in accounts
    ensures email.None? ==> r.None?
    ensures email.Some? ==> (r.None? <==> forall k :: k in accounts ==> accounts[k].email != Lower(email.value))
    ensures email.Some? && r.Some? ==> accounts[r.value].email == Lower(email.value)
  {
    match email
    case None => None
    case Some(e) => AccountByEmail(accounts, Lower(e))
  }

  // ---------------------------------------------------------------------------
  // Search filters
  // ---------------------------------------------------------------------------

  /** `new RegExp(q, "i").test(text)` for a literal search term: a
      case-insensitive substring test. */
  predicate Mentions(text: string, q: string) {
    Contains(Lower(text), Lower(q))
  }

  /** The search ignores case on both sides, and the empty term (a regular
      expression matching the empty string) finds every text. */
  lemma SearchIgnoresCase(text: string, q: string)
    ensures Mentions(text, q) <==> Mentions(Lower(text), q)
    ensures Mentions(text, q) <==> Mentions(text, Lower(q))
    ensures Mentions(text, "")
  {
    LowerIdempotent(text);
    LowerIdempotent(q);
    assert Lower("") == [];
    ContainsAt(Lower(text), [], 0);
  }

  /** A term that occurs literally in the text is found. */
  lemma SearchFindsLiteral(text: string, q: string, i: nat)
    requires i + |q| <= |text| && text[i..i + |q|] == q
    ensures Mentions(text, q)
  {
    var lt := Lower(text);
    assert lt[i..i + |q|] == Lower(q);
    ContainsAt(lt, Lower(q), i);
  }

  /** The admin type filter: "onetime" matches both spellings, any other
      value matches exactly. */
  predicate TypeMatches(stored: string, requested: string) {
    if requested == AccountOneTime then stored == OneTime || stored == AccountOneTime
    else stored == requested
  }

  /** The four-field search of the admin listings. */
  predicate MentionsAny(m: Member, q: string) {
    Mentions(m.fullName, q) || Mentions(m.email, q) || Mentions(m.mobile, q) || Mentions(m.memberId, q)
  }

  /** `listAdminMembers`: exact status, type (with both one-time spellings),
      and the search; an empty or missing parameter is no filter. */
  predicate AdminMatch(m: Member, q: Option<string>, status: Option<string>, memberType: Option<string>) {
    && (Truthy(status) ==> m.status == status.value)
    && (Truthy(memberType) ==> TypeMatches(m.membershipType, memberType.value))
    && (Truthy(q) ==> MentionsAny(m, q.value))
  }

  /** `listMembers`: exact status and the four-field search. */
  predicate ListMatch(m: Member, q: Option<string>, status: Option<string>) {
    && (Truthy(status) ==> m.status == status.value)
    && (Truthy(q) ==> MentionsAny(m, q.value))
  }

  /** `listPublicMembers`: approved members only, searched by name and member
      id only. */
  predicate PublicMatch(m: Member, q: Option<string>) {
    && m.status == Approved
    && (Truthy(q) ==> Mentions(m.fullName, q.value) || Mentions(m.memberId, q.value))
  }

  /** The listing filters agree where they overlap: without a type the admin
      filter is the member-controller filter, and a public match is an admin
      match on status "approved" when the search term finds the name or id. */
  lemma FiltersAgree(m: Member, q: Option<string>, status: Option<string>)
    ensures AdminMatch(m, q, status, None) <==> ListMatch(m, q, status)
    ensures PublicMatch(m, q) ==> ListMatch(m, q, Some(Approved))
  {
  }

  /** The type filter "onetime" finds both spellings; "one-time" only the
      member spelling. */
  lemma OneTimeFilterCoversBothSpellings(m: Member)
    ensures AdminMatch(m, None, None, Some(AccountOneTime)) <==> m.membershipType in {OneTime, AccountOneTime}
    ensures AdminMatch(m, None, None, Some(OneTime)) <==> m.membershipType == OneTime
  {
  }

  // ---------------------------------------------------------------------------
  // Paging
  // ---------------------------------------------------------------------------

  const DefaultPage: int := 1
  const DefaultLimit: nat := 10

  /** The database's refusal of a negative `skip`. Only its kind matters to
      the model (it matches none of the error handler's named cases); the
      message text is a stand-in, not the driver's exact wording. */
  const NegativeSkip: Error := Error("MongoServerError", "skip must be non-negative", None, None, [], None, "", "MongoServerError")

  /** `(Number(page) - 1) * Number(limit)` with the defaults 1 and 10. */
  function SkipOf(page: Option<int>, limit: Option<nat>): (skip: int)
    ensures skip < 0 <==> page.GetOr(DefaultPage) < 1 && limit.GetOr(DefaultLimit) > 0
    ensures page.GetOr(DefaultPage) == 1 ==> skip == 0
  {
    (page.GetOr(DefaultPage) - 1) * limit.GetOr(DefaultLimit)
  }

  /** The matching members, newest first. */
  function Sorted(members: map<Key, Member>, matching: set<Key>): (es: seq<Entry<Member>>)
    requires matching <= members.Keys
    ensures |es| == |matching|
    ensures forall i :: 0 <= i < |es| ==> es[i].id in matching && es[i].doc == members[es[i].id]
    ensures forall k :: k in matching ==> k in Order.Ids(es)
    ensures forall i, j :: 0 <= i < j < |es| ==>
      es[i].id != es[j].id && Order.Newer(MemberStamps(members), es[i].id, es[j].id)
  {
    Order.SortedEntries(members, MemberStamps(members), matching)
  }

  /** `find(query).sort({ createdAt: -1 }).skip(skip).limit(limit)` together
      with `countDocuments(query)`: the page, the total, and the page and
      limit echoed back. A negative skip is refused by the database. */
  function ListPage(members: map<Key, Member>, matching: set<Key>, page: Option<int>, limit: Option<nat>): (r: Reply)
    requires matching <= members.Keys
    ensures SkipOf(page, limit) < 0 <==> r == Thrown(NegativeSkip)
    ensures SkipOf(page, limit) >= 0 ==> r == Json(200, MemberPage(
      Order.Page(Sorted(members, matching), SkipOf(page, limit), limit.GetOr(DefaultLimit)),
      |matching|, page.GetOr(DefaultPage), limit.GetOr(DefaultLimit)))
  {
    var skip := SkipOf(page, limit);
    if skip < 0 then Thrown(NegativeSkip)
    else
      var l := limit.GetOr(DefaultLimit);
      Json(200, MemberPage(Order.Page(Sorted(members, matching), skip, l), |matching|, page.GetOr(DefaultPage), l))
  }

  /** What a listing reply promises: a negative skip is refused; otherwise
      the total counts every match, the page holds at most `limit` members
      (when the limit is not 0), each of them a match with its stored
      content, distinct and newest first. */
  predicate IsPageOf(r: Reply, members: map<Key, Member>, matching: set<Key>, page: Option<int>, limit: Option<nat>)
    requires matching <= members.Keys
  {
    if SkipOf(page, limit) < 0 then r == Thrown(NegativeSkip)
    else
      && r.Json? && r.status == 200 && r.body.MemberPage?
      && r.body.total == |matching|
      && r.body.page == page.GetOr(DefaultPage) && r.body.limit == limit.GetOr(DefaultLimit)
      && (limit.GetOr(DefaultLimit) > 0 ==> |r.body.items| <= limit.GetOr(DefaultLimit))
      && (forall i :: 0 <= i < |r.body.items| ==>
            r.body.items[i].id in matching && r.body.items[i].doc == members[r.body.items[i].id])
      && (forall i, j :: 0 <= i < j < |r.body.items| ==>
            r.body.items[i].id != r.body.items[j].id
            && Order.Newer(MemberStamps(members), r.body.items[i].id, r.body.items[j].id))
  }

  /** Every listing reply is a page of its matches. */
  lemma PageContents(members: map<Key, Member>, matching: set<Key>, page: Option<int>, limit: Option<nat>)
    requires matching <= members.Keys
    ensures IsPageOf(ListPage(members, matching, page, limit), members, matching, page, limit)
  {
    if SkipOf(page, limit) >= 0 {
      Order.SortedPage(members, MemberStamps(members), matching, SkipOf(page, limit), limit.GetOr(DefaultLimit));
    }
  }

  /** When every match fits on the first page, the page is all of them. */
  lemma FirstPageHoldsAll(members: map<Key, Member>, matching: set<Key>, limit: nat)
    requires matching <= members.Keys && |matching| <= limit
    ensures var r := ListPage(members, matching, None, Some(limit));
      forall k :: k in matching ==> k in Order.Ids(r.body.items)
  {
    var es := Sorted(members, matching);
    assert Order.Page(es, 0, limit) == es;
  }

  // ---------------------------------------------------------------------------
  // Updating a member record
  // ---------------------------------------------------------------------------

  /** The schema fields of an update body; `None` is a field the body does
      not carry (or carries as `undefined`), which the update leaves alone. */
  datatype MemberPatch = MemberPatch(
    memberId: Option<string>,
    fullName: Option<string>,
    fatherName: Option<string>,
    mobile: Option<string>,
    email: Option<string>,
    address: Option<string>,
    occupation: Option<string>,
    annualIncome: Option<int>,
    membershipType: Option<string>,
    membershipPlanId: Option<Key>,
    membershipPlanName: Option<string>,
    membershipFee: Option<int>,
    profileImage: Option<string>,
    status: Option<string>)

  const EmptyPatch: MemberPatch := MemberPatch(None, None, None, None, None, None, None, None, None, None, None, None, None, None)

  /** `findByIdAndUpdate(id, patch, { new: true })`: each present field is
      written (the email through the schema's lowercasing), without
      validators; `updatedAt` becomes `now`. */
  function ApplyPatch(m: Member, p: MemberPatch, now: int): (m': Member)
    ensures m'.email == (if p.email.Some? then Lower(p.email.value) else m.email)
    ensures m'.status == p.status.GetOr(m.status) && m'.memberId == p.memberId.GetOr(m.memberId)
    ensures m'.membershipType == p.membershipType.GetOr(m.membershipType)
    ensures m'.membershipFee == p.membershipFee.GetOr(m.membershipFee)
    ensures m'.membershipPlanName == p.membershipPlanName.GetOr(m.membershipPlanName)
    ensures m'.membershipPlanId == (if p.membershipPlanId.Some? then p.membershipPlanId else m.membershipPlanId)
    ensures m'.createdAt == m.createdAt && m'.updatedAt == now
    ensures (p.fullName.Some? ==> m'.fullName == p.fullName.value) && (p.fullName.None? ==> m'.fullName == m.fullName)
    ensures (p.fatherName.Some? ==> m'.fatherName == p.fatherName.value) && (p.fatherName.None? ==> m'.fatherName == m.fatherName)
    ensures (p.mobile.Some? ==> m'.mobile == p.mobile.value) && (p.mobile.None? ==> m'.mobile == m.mobile)
    ensures (p.address.Some? ==> m'.address == p.address.value) && (p.address.None? ==> m'.address == m.address)
    ensures (p.occupation.Some? ==> m'.occupation == p.occupation.value) && (p.occupation.None? ==> m'.occupation == m.occupation)
    ensures (p.annualIncome.Some? ==> m'.annualIncome == p.annualIncome.value)
         && (p.annualIncome.None? ==> m'.annualIncome == m.annualIncome)
    ensures (p.profileImage.Some? ==> m'.profileImage == p.profileImage) && (p.profileImage.None? ==> m'.profileImage == m.profileImage)
  {
    Member(
      p.memberId.GetOr(m.memberId),
      p.fullName.GetOr(m.fullName),
      p.fatherName.GetOr(m.fatherName),
      p.mobile.GetOr(m.mobile),
      if p.email.Some? then Lower(p.email.value) else m.email,
      p.address.GetOr(m.address),
      p.occupation.GetOr(m.occupation),
      p.annualIncome.GetOr(m.annualIncome),
      p.membershipType.GetOr(m.membershipType),
      if p.membershipPlanId.Some? then p.membershipPlanId else m.membershipPlanId,
      p.membershipPlanName.GetOr(m.membershipPlanName),
      p.membershipFee.GetOr(m.membershipFee),
      if p.profileImage.Some? then p.profileImage else m.profileImage,
      p.status.GetOr(m.status),
      m.createdAt,
      now)
  }

  /** An empty update changes nothing but the update time. */
  lemma EmptyPatchTouchesOnlyTime(m: Member, now: int)
    ensures ApplyPatch(m, EmptyPatch, now) == m.(updatedAt := now)
  {
  }

  /** Applying the same update twice is the same as applying it once. */
  lemma PatchIdempotent(m: Member, p: MemberPatch, now: int)
    ensures ApplyPatch(ApplyPatch(m, p, now), p, now) == ApplyPatch(m, p, now)
  {
    if p.email.Some? {
      LowerIdempotent(p.email.value);
    }
  }

  /** Another member already holds this member id (the unique index). */
  predicate MemberIdClash(members: map<Key, Member>, k: Key, memberId: string) {
    exists j :: j in members && j != k && members[j].memberId == memberId
  }

  /** `findByIdAndUpdate` on a member: the stored record with the patch
      applied, or the unique-index failure when the patch moves the member id
      onto another member's. */
  function PatchMember(st: State, k: Key, p: MemberPatch, now: int): (r: Result<Member, Error>)
    requires k in st.members
    ensures p.memberId.Some? && MemberIdClash(st.members, k, p.memberId.value) <==> r.Err?
    ensures r.Err? ==> r.error == DuplicateKey("memberId")
    ensures r.Ok? ==> r.value == ApplyPatch(st.members[k], p, now)
  {
    if p.memberId.Some? && MemberIdClash(st.members, k, p.memberId.value) then Err(DuplicateKey("memberId"))
    else Ok(ApplyPatch(st.members[k], p, now))
  }

  // ---------------------------------------------------------------------------
  // Accounts mirroring members
  // ---------------------------------------------------------------------------

  /** The account spelling of a member type ("one-time" becomes "onetime"). */
  function AccountType(memberType: string): (t: string)
    ensures memberType == OneTime ==> t == AccountOneTime
    ensures memberType != OneTime ==> t == memberType
  {
    if memberType == OneTime then AccountOneTime else memberType
  }

  /** `normalizeType`: the member spelling of an account type. */
  function NormalizeType(accountType: string): (t: string)
    ensures accountType == AccountOneTime ==> t == OneTime
    ensures accountType != AccountOneTime ==> t == accountType
  {
    if accountType == AccountOneTime then OneTime else accountType
  }

  /** The two spellings translate into each other on the enumerations. */
  lemma SpellingsRoundTrip(t: string)
    ensures t in MemberTypes ==> AccountType(t) in AccountTypes && NormalizeType(AccountType(t)) == t
    ensures t in AccountTypes ==> NormalizeType(t) in MemberTypes && AccountType(NormalizeType(t)) == t
  {
  }

  /** The account fields `updateAdminMember` copies from the member. */
  function Mirror(a: Account, m: Member): (a': Account)
    ensures a'.name == m.fullName && a'.phone == m.mobile && a'.address == m.address
    ensures a'.membershipType == AccountType(m.membershipType) && a'.membershipStatus == m.status
    ensures a'.email == a.email && a'.password == a.password && a'.role == a.role && a'.createdAt == a.createdAt
  {
    a.(name := m.fullName, phone := m.mobile, address := m.address,
       membershipType := AccountType(m.membershipType), membershipStatus := m.status)
  }

  /** `User.findOneAndUpdate({ email: m.email }, ...)` in `updateAdminMember`:
      the account with the member's email, if any, mirrors the member; no
      other account changes. */
  function MirrorInto(accounts: map<Key, Account>, m: Member): (r: map<Key, Account>)
    ensures r.Keys == accounts.Keys
    ensures AccountByEmail(accounts, m.email).None? ==> r == accounts
    ensures AccountByEmail(accounts, m.email).Some? ==>
      var k := AccountByEmail(accounts, m.email).value;
      r == accounts[k := Mirror(accounts[k], m)]
  {
    match AccountByEmail(accounts, m.email)
    case None => accounts
    case Some(k) => accounts[k := Mirror(accounts[k], m)]
  }

  /** `User.findOneAndUpdate({ email }, { membershipStatus: status })`: an
      undefined status is dropped from the update, which then changes nothing. */
  function StatusInto(accounts: map<Key, Account>, email: string, status: Option<string>): (r: map<Key, Account>)
    ensures r.Keys == accounts.Keys
    ensures status.None? || AccountByEmail(accounts, email).None? ==> r == accounts
    ensures status.Some? && AccountByEmail(accounts, email).Some? ==>
      var k := AccountByEmail(accounts, email).value;
      r == accounts[k := accounts[k].(membershipStatus := status.value)]
  {
    match AccountByEmail(accounts, email)
    case None => accounts
    case Some(k) =>
      if status.None? then accounts
      else accounts[k := accounts[k].(membershipStatus := status.value)]
  }

  /** `User.findOneAndDelete({ email })`. */
  function DeleteAccountByEmail(accounts: map<Key, Account>, email: string): (r: map<Key, Account>)
    ensures AccountByEmail(accounts, email).None? ==> r == accounts
    ensures AccountByEmail(accounts, email).Some? ==>
      r == accounts - {AccountByEmail(accounts, email).value}
  {
    match AccountByEmail(accounts, email)
    case None => accounts
    case Some(k) => accounts - {k}
  }

  // ---------------------------------------------------------------------------
  // Counting
  // ---------------------------------------------------------------------------

  predicate IsLifetime(m: Member) { m.membershipType == Lifetime }
  predicate IsOneTime(m: Member) { m.membershipType == OneTime }
  /** Either spelling of one-time, as the dashboard counts it. */
  predicate IsEitherOneTime(m: Member) { m.membershipType in {OneTime, AccountOneTime} }
  predicate IsPending(m: Member) { m.status == Pending }
  predicate IsApproved(m: Member) { m.status == Approved }

  /** The members a predicate keeps. */
  function Where(members: map<Key, Member>, keep: Member -> bool): (ks: set<Key>)
    ensures forall k :: k in ks <==> k in members && keep(members[k])
    ensures ks <= members.Keys
  {
    set k | k in members && keep(members[k])
  }

  function PaymentsWithStatus(payments: map<Key, Payment>, status: string): (ks: set<Key>)
    ensures forall k :: k in ks <==> k in payments && payments[k].status == status
  {
    set k | k in payments && payments[k].status == status
  }

  /** Two disjoint subsets of a set together are no larger than it. */
  lemma {:induction false} DisjointSubsets(a: set<Key>, b: set<Key>, c: set<Key>)
    requires a <= c && b <= c && a * b == {}
    ensures |a| + |b| <= |c|
  {
    assert |a + b| == |a| + |b|;
    SubsetSize(a + b, c);
  }

  lemma {:induction false} SubsetSize(a: set<Key>, c: set<Key>)
    requires a <= c
    ensures |a| <= |c|
    decreases c
  {
    if a != {} {
      var x :| x in a;
      SubsetSize(a - {x}, c - {x});
    }
  }
}

=== FILE: models.dfy ===
/** The four document schemas (Member, User account, MembershipPrice plan,
    Payment), the admin-settings record, and the whole persistent state.

    Enumerated fields are kept as text: Mongoose checks enums and `required`
    only when a document is created, while `findByIdAndUpdate` writes whatever
    it is given, so stored values may leave the enumeration. The `...Errors`
    functions below are the create-time validators. */
module Models {
  import opened Base
  import opened Text
  import Order

  // ---------------------------------------------------------------------------
  // Enumerations
  // ---------------------------------------------------------------------------

  const Pending: string := "pending"
  const Approved: string := "approved"
  const Rejected: string := "rejected"
  const Statuses: set<string> := {"pending", "approved", "rejected"}

  /** Member records spell the one-time type with a hyphen ... */
  const OneTime: string := "one-time"
  const Lifetime: string := "lifetime"
  const MemberTypes: set<string> := {"lifetime", "one-time"}

  /** ... and accounts without it. */
  const AccountOneTime: string := "onetime"
  const AccountTypes: set<string> := {"lifetime", "onetime"}

  const AdminRole: string := "admin"
  const MemberRole: string := "member"
  const Roles: set<string> := {"admin", "member"}

  const DefaultCategory: string := "blindDonation"
  const Categories: set<string> := {"imdad", "zakat", "fitra", "blindDonation"}

  // ---------------------------------------------------------------------------
  // Documents
  // ---------------------------------------------------------------------------

  /** A membership record. `membershipPlanName` and `membershipFee` are a
      snapshot of the plan at application or edit time, not a live join. */
  datatype Member = Member(
    memberId: string,
    fullName: string,
    fatherName: string,
    mobile: string,
    email: string,
    address: string,
    occupation: string,
    annualIncome: int,
    membershipType: string,
    membershipPlanId: Option<Key>,
    membershipPlanName: string,
    membershipFee: int,
    profileImage: Option<string>,
    status: string,
    createdAt: int,
    updatedAt: int)

  /** A stored password. Hashing is modelled symbolically: `Digest(p)` stands
      for the bcrypt hash of `p`; a new document starts `Unset`. */
  datatype Secret = Unset | Digest(plain: string)

  /** The pre-save hook: the password is replaced by its hash only when the
      field was assigned (modified) since the last save. */
  function PreSave(stored: Secret, newValue: Option<string>): (r: Secret)
    ensures newValue.None? ==> r == stored
    ensures newValue.Some? ==> Compare(newValue.value, r)
  {
    match newValue
    case None => stored
    case Some(p) => Digest(p)
  }

  /** `bcrypt.compare(p, stored)`. */
  predicate Compare(p: string, stored: Secret) {
    stored == Digest(p)
  }

  /** A freshly hashed password accepts exactly the password it was made from. */
  lemma CompareAfterSave(stored: Secret, p: string, q: string)
    ensures Compare(q, PreSave(stored, Some(p))) <==> q == p
  {
  }

  /** A login account. `email` is the join key to member records. */
  datatype Account = Account(
    name: string,
    email: string,
    phone: string,
    password: Secret,
    address: string,
    membershipType: string,
    membershipStatus: string,
    role: string,
    createdAt: int)

  /** A pricing plan. No uniqueness constraint on name or price. */
  datatype Plan = Plan(name: string, price: int, createdAt: int, updatedAt: int)

  /** A donation payment with its screenshot path; created-at only. */
  datatype Payment = Payment(
    userId: Key,
    category: string,
    amount: int,
    screenshot: string,
    status: string,
    createdAt: int)

  /** Bank and UPI details shown to payers; every field defaults to "". */
  datatype AdminSettings = AdminSettings(
    qrCodeImage: string,
    bankName: string,
    accountHolderName: string,
    accountNumber: string,
    ifscCode: string,
    upiId: string)

  const BlankSettings: AdminSettings := AdminSettings("", "", "", "", "", "")

  /** The claims a verified bearer token carries. Member tokens hold
      `{ id, role }`; the configured administrator's token `{ role, email }`. */
  datatype Claims = Claims(id: Option<Key>, role: string, email: Option<string>)

  /** The persistent state: one map per collection keyed by store id, the
      single settings record, the `"member"` sequence counter (a missing
      counter reads as 0) and the store's id generator. */
  datatype State = State(
    members: map<Key, Member>,
    accounts: map<Key, Account>,
    plans: map<Key, Plan>,
    payments: map<Key, Payment>,
    settings: Option<AdminSettings>,
    memberSeq: nat,
    nextKey: nat)

  /** Creation times of a collection, the key `sort({ createdAt: -1 })` uses. */
  function MemberStamps(members: map<Key, Member>): (m: map<Key, int>)
    ensures m.Keys == members.Keys
    ensures forall k :: k in m ==> m[k] == members[k].createdAt
  {
    map k | k in members :: members[k].createdAt
  }

  function PlanStamps(plans: map<Key, Plan>): (m: map<Key, int>)
    ensures m.Keys == plans.Keys
    ensures forall k :: k in m ==> m[k] == plans[k].createdAt
  {
    map k | k in plans :: plans[k].createdAt
  }

  function PaymentStamps(payments: map<Key, Payment>): (m: map<Key, int>)
    ensures m.Keys == payments.Keys
    ensures forall k :: k in m ==> m[k] == payments[k].createdAt
  {
    map k | k in payments :: payments[k].createdAt
  }

  // ---------------------------------------------------------------------------
  // Store-level invariants
  // ---------------------------------------------------------------------------

  /** The unique index on account `email`. */
  predicate EmailsUnique(accounts: map<Key, Account>) {
    forall k1, k2 :: k1 in accounts && k2 in accounts && accounts[k1].email == accounts[k2].email ==> k1 == k2
  }

  /** The unique index on `memberId`. */
  predicate MemberIdsUnique(members: map<Key, Member>) {
    forall k1, k2 :: k1 in members && k2 in members && members[k1].memberId == members[k2].memberId ==> k1 == k2
  }

  predicate MemberIdTaken(members: map<Key, Member>, memberId: string) {
    exists k :: k in members && members[k].memberId == memberId
  }

  /** Every stored id was issued by the generator. */
  predicate KeysIssued(st: State) {
    && (forall k :: k in st.members ==> k < st.nextKey)
    && (forall k :: k in st.accounts ==> k < st.nextKey)
    && (forall k :: k in st.plans ==> k < st.nextKey)
    && (forall k :: k in st.payments ==> k < st.nextKey)
  }

  /** What the database guarantees between requests: stored ids were issued
      by the generator, account emails are lowercase and unique, and member
      ids are unique. */
  predicate Consistent(st: State) {
    && KeysIssued(st)
    && (forall k :: k in st.accounts ==> Lower(st.accounts[k].email) == st.accounts[k].email)
    && EmailsUnique(st.accounts)
    && MemberIdsUnique(st.members)
  }

  /** The ids of the accounts with a given email. */
  function AccountsWithEmail(accounts: map<Key, Account>, email: string): (ks: set<Key>)
    ensures forall k :: k in ks <==> k in accounts && accounts[k].email == email
  {
    set k | k in accounts && accounts[k].email == email
  }

  /** `User.findOne({ email })`: the first account in natural order with that
      email (with the unique index, the only one). */
  function AccountByEmail(accounts: map<Key, Account>, email: string): (r: Option<Key>)
    ensures r.None? <==> forall k :: k in accounts ==> accounts[k].email != email
    ensures r.Some? ==> r.value in accounts && accounts[r.value].email == email
    ensures r.Some? ==> forall k :: k in accounts && accounts[k].email == email ==> r.value <= k
  {
    var ks := AccountsWithEmail(accounts, email);
    if ks == {} then None else Some(Order.FirstOf(ks))
  }

  /** The ids of the members with a given (stored, lowercase) email. */
  function MembersWithEmail(members: map<Key, Member>, email: string): (ks: set<Key>)
    ensures forall k :: k in ks <==> k in members && members[k].email == email
  {
    set k | k in members && members[k].email == email
  }

  // ---------------------------------------------------------------------------
  // Create-time validation (Mongoose `required`, `enum`, `min`)
  // ---------------------------------------------------------------------------

  function RequiredMessage(path: string): string {
    "Path `" + path + "` is required."
  }

  function EnumMessage(value: string, path: string): string {
    "`" + value + "` is not a valid enum value for path `" + path + "`."
  }

  /** A required string path: `undefined` and "" both fail. */
  function RequireText(path: string, v: Option<string>): (errs: seq<string>)
    ensures errs == [] <==> Truthy(v)
  {
    if Truthy(v) then [] else [RequiredMessage(path)]
  }

  function RequireNumber(path: string, v: Option<int>): (errs: seq<string>)
    ensures errs == [] <==> v.Some?
  {
    if v.Some? then [] else [RequiredMessage(path)]
  }

  /** An enumerated path; the required check runs first when `required`. */
  function CheckEnum(path: string, v: string, allowed: set<string>, required: bool): (errs: seq<string>)
    ensures errs == [] <==> (v in allowed || (!required && v == ""))
  {
    if v in allowed then []
    else if v == "" then (if required then [RequiredMessage(path)] else [])
    else [EnumMessage(v, path)]
  }

  /** The fields `Member.create` is given. */
  datatype MemberDraft = MemberDraft(
    memberId: string,
    fullName: Option<string>,
    fatherName: Option<string>,
    mobile: Option<string>,
    email: Option<string>,
    address: Option<string>,
    occupation: Option<string>,
    annualIncome: Option<int>,
    membershipType: string,
    membershipPlanId: Option<Key>,
    membershipPlanName: string,
    membershipFee: int,
    profileImage: Option<string>,
    status: string)

  /** Validation messages for a new member record, in schema path order. */
  function MemberErrors(d: MemberDraft): (errs: seq<string>)
    ensures errs == [] <==> MemberDraftValid(d)
  {
    RequireText("fullName", d.fullName)
    + RequireText("fatherName", d.fatherName)
    + RequireText("mobile", d.mobile)
    + RequireText("email", d.email)
    + RequireText("address", d.address)
    + RequireText("occupation", d.occupation)
    + RequireNumber("annualIncome", d.annualIncome)
    + CheckEnum("membershipType", d.membershipType, MemberTypes, true)
    + CheckEnum("status", d.status, Statuses, false)
  }

  predicate MemberDraftValid(d: MemberDraft) {
    && Truthy(d.fullName) && Truthy(d.fatherName) && Truthy(d.mobile) && Truthy(d.email)
    && Truthy(d.address) && Truthy(d.occupation) && d.annualIncome.Some?
    && d.membershipType in MemberTypes
    && (d.status in Statuses || d.status == "")
  }

  /** The stored record: the schema lowercases `email` and defaults `status`. */
  function BuildMember(d: MemberDraft, now: int): (m: Member)
    requires MemberDraftValid(d)
    ensures m.email == Lower(d.email.value)
    ensures m.status == (if d.status == "" then Pending else d.status)
    ensures MemberSchemaValid(m)
    ensures m.memberId == d.memberId && m.membershipType == d.membershipType
    ensures Some(m.fullName) == d.fullName && Some(m.fatherName) == d.fatherName && Some(m.mobile) == d.mobile
    ensures Some(m.address) == d.address && Some(m.occupation) == d.occupation
    ensures Some(m.annualIncome) == d.annualIncome && m.profileImage == d.profileImage
    ensures m.membershipFee == d.membershipFee && m.membershipPlanName == d.membershipPlanName
    ensures m.membershipPlanId == d.membershipPlanId
    ensures m.createdAt == now && m.updatedAt == now
  {
    Member(d.memberId, d.fullName.value, d.fatherName.value, d.mobile.value, Lower(d.email.value),
           d.address.value, d.occupation.value, d.annualIncome.value, d.membershipType,
           d.membershipPlanId, d.membershipPlanName, d.membershipFee, d.profileImage,
           if d.status == "" then Pending else d.status, now, now)
  }

  /** A member record as the schema describes it. */
  predicate MemberSchemaValid(m: Member) {
    && m.fullName != "" && m.fatherName != "" && m.mobile != "" && m.email != ""
    && m.address != "" && m.occupation != ""
    && m.email == Lower(m.email)
    && m.membershipType in MemberTypes
    && m.status in Statuses
  }

  /** The fields `User.create` is given (password still in clear). */
  datatype AccountDraft = AccountDraft(
    name: Option<string>,
    email: Option<string>,
    phone: Option<string>,
    password: Option<string>,
    address: Option<string>,
    membershipType: string,
    membershipStatus: string,
    role: string)

  function AccountErrors(d: AccountDraft): (errs: seq<string>)
    ensures errs == [] <==> AccountDraftValid(d)
  {
    RequireText("name", d.name)
    + RequireText("email", d.email)
    + RequireText("phone", d.phone)
    + RequireText("password", d.password)
    + RequireText("address", d.address)
    + CheckEnum("membershipType", d.membershipType, AccountTypes, true)
    + CheckEnum("membershipStatus", d.membershipStatus, Statuses, false)
    + CheckEnum("role", d.role, Roles, false)
  }

  predicate AccountDraftValid(d: AccountDraft) {
    && Truthy(d.name) && Truthy(d.email) && Truthy(d.phone) && Truthy(d.password) && Truthy(d.address)
    && d.membershipType in AccountTypes
    && (d.membershipStatus in Statuses || d.membershipStatus == "")
    && (d.role in Roles || d.role == "")
  }

  /** The stored account: email lowercased, password hashed by the pre-save
      hook, status and role defaulted. */
  function BuildAccount(d: AccountDraft, now: int): (a: Account)
    requires AccountDraftValid(d)
    ensures a.email == Lower(d.email.value)
    ensures Compare(d.password.value, a.password)
    ensures AccountSchemaValid(a)
    ensures a.role == (if d.role == "" then MemberRole else d.role)
    ensures a.membershipStatus == (if d.membershipStatus == "" then Pending else d.membershipStatus)
    ensures Some(a.name) == d.name && Some(a.phone) == d.phone && Some(a.address) == d.address
    ensures a.membershipType == d.membershipType && a.createdAt == now
  {
    Account(d.name.value, Lower(d.email.value), d.phone.value, PreSave(Unset, d.password),
            d.address.value, d.membershipType,
            if d.membershipStatus == "" then Pending else d.membershipStatus,
            if d.role == "" then MemberRole else d.role, now)
  }

  predicate AccountSchemaValid(a: Account) {
    && a.name != "" && a.email != "" && a.phone != "" && a.address != ""
    && a.email == Lower(a.email)
    && a.password.Digest?
    && a.membershipType in AccountTypes
    && a.membershipStatus in Statuses
    && a.role in Roles
  }
}

=== FILE: order.dfy ===
/** Orderings the store applies to query results: natural order (ascending
    store id), `sort({ createdAt: -1 })` (newest first) and `skip`/`limit`. */
module Order {
  import opened Base

  /** `a` sorts before `b` in `sort({ createdAt: -1 })`. MongoDB leaves the
      order of equal creation times open; the model breaks ties by the larger
      (later issued) store id. */
  predicate Newer(stamp: map<Key, int>, a: Key, b: Key)
    requires a in stamp && b in stamp
  {
    stamp[a] > stamp[b] || (stamp[a] == stamp[b] && a > b)
  }

  predicate IsNewestIn(stamp: map<Key, int>, ks: set<Key>, k: Key)
    requires ks <= stamp.Keys
  {
    k in ks && forall j :: j in ks && j != k ==> Newer(stamp, k, j)
  }

  lemma {:induction false} NewestExists(stamp: map<Key, int>, ks: set<Key>)
    requires ks != {} && ks <= stamp.Keys
    ensures exists k :: IsNewestIn(stamp, ks, k)
    decreases ks
  {
    var x :| x in ks;
    var rest := ks - {x};
    if rest == {} {
      assert ks == {x};
      assert IsNewestIn(stamp, ks, x);
    } else {
      NewestExists(stamp, rest);
      var m :| IsNewestIn(stamp, rest, m);
      if Newer(stamp, x, m) {
        forall j | j in ks && j != x
          ensures Newer(stamp, x, j)
        {
          if j != m {
            assert j in rest;
          }
        }
        assert IsNewestIn(stamp, ks, x);
      } else {
        forall j | j in ks && j != m
          ensures Newer(stamp, m, j)
        {
          if j != x {
            assert j in rest;
          }
        }
        assert IsNewestIn(stamp, ks, m);
      }
    }
  }

  /** The first document of `find(...).sort({ createdAt: -1 })`. */
  function NewestOf(stamp: map<Key, int>, ks: set<Key>): (k: Key)
    requires ks != {} && ks <= stamp.Keys
    ensures IsNewestIn(stamp, ks, k)
  {
    NewestExists(stamp, ks);
    var k :| IsNewestIn(stamp, ks, k);
    k
  }

  predicate SortedNewestFirst(stamp: map<Key, int>, s: seq<Key>)
    requires forall i :: 0 <= i < |s| ==> s[i] in stamp
  {
    forall i, j :: 0 <= i < j < |s| ==> Newer(stamp, s[i], s[j])
  }

  /** `find(query).sort({ createdAt: -1 })`: every matching id exactly once,
      newest first. */
  function NewestFirst(stamp: map<Key, int>, ks: set<Key>): (s: seq<Key>)
    requires ks <= stamp.Keys
    ensures |s| == |ks|
    ensures forall i :: 0 <= i < |s| ==> s[i] in ks
    ensures forall k :: k in ks ==> k in s
    ensures SortedNewestFirst(stamp, s)
    decreases ks
  {
    if ks == {} then []
    else
      var k := NewestOf(stamp, ks);
      [k] + NewestFirst(stamp, ks - {k})
  }

  /** Sorting keeps each id once: no two positions hold the same id. */
  lemma NewestFirstDistinct(stamp: map<Key, int>, ks: set<Key>)
    requires ks <= stamp.Keys
    ensures var s := NewestFirst(stamp, ks);
      forall i, j :: 0 <= i < j < |s| ==> s[i] != s[j]
  {
  }

  predicate IsFirstIn(ks: set<Key>, k: Key) {
    k in ks && forall j :: j in ks ==> k <= j
  }

  lemma {:induction false} FirstExists(ks: set<Key>)
    requires ks != {}
    ensures exists k :: IsFirstIn(ks, k)
    decreases ks
  {
    var x :| x in ks;
    var rest := ks - {x};
    if rest == {} {
      assert ks == {x};
      assert IsFirstIn(ks, x);
    } else {
      FirstExists(rest);
      var m :| IsFirstIn(rest, m);
      if x <= m {
        forall j | j in ks
          ensures x <= j
        {
          if j != x {
            assert j in rest;
          }
        }
        assert IsFirstIn(ks, x);
      } else {
        forall j | j in ks
          ensures m <= j
        {
          if j != x {
            assert j in rest;
          }
        }
        assert IsFirstIn(ks, m);
      }
    }
  }

  /** The document `findOne(query)` returns without a sort: the first match in
      natural (insertion) order. */
  function FirstOf(ks: set<Key>): (k: Key)
    requires ks != {}
    ensures IsFirstIn(ks, k)
  {
    FirstExists(ks);
    var k :| IsFirstIn(ks, k);
    k
  }

  /** `.skip(skip).limit(limit)`; a limit of 0 means "no limit" in MongoDB. */
  function Page<T>(items: seq<T>, skip: nat, limit: nat): (r: seq<T>)
    ensures skip >= |items| ==> r == []
    ensures skip < |items| ==> |r| <= |items| - skip && r == items[skip..][..|r|]
    ensures limit == 0 ==> |r| == if skip >= |items| then 0 else |items| - skip
    ensures limit > 0 ==> |r| == if skip >= |items| then 0
                                 else if |items| - skip < limit then |items| - skip else limit
  {
    var rest := if skip >= |items| then [] else items[skip..];
    if limit == 0 || |rest| <= limit then rest else rest[..limit]
  }

  /** Consecutive pages neither overlap nor leave a gap: the page after a
      full page starts where that page ends. */
  lemma PagesAreConsecutive<T>(items: seq<T>, skip: nat, limit: nat)
    requires limit > 0 && skip + limit <= |items|
    ensures var end := if |items| < skip + 2 * limit then |items| else skip + 2 * limit;
      Page(items, skip, limit) + Page(items, skip + limit, limit) == items[skip..end]
  {
    var end := if |items| < skip + 2 * limit then |items| else skip + 2 * limit;
    assert Page(items, skip, limit) == items[skip..skip + limit];
    if skip + limit < |items| {
      assert Page(items, skip + limit, limit) == items[skip + limit..end];
    }
  }

  /** A page of a newest-first listing is itself one: at most `limit`
      entries (when the limit is not 0), each a stored document under one of
      the listed ids, each once, newest first. */
  lemma SortedPage<T>(docs: map<Key, T>, stamp: map<Key, int>, ks: set<Key>, skip: nat, limit: nat)
    requires ks <= docs.Keys && ks <= stamp.Keys
    ensures var p := Page(SortedEntries(docs, stamp, ks), skip, limit);
      && (limit > 0 ==> |p| <= limit)
      && (forall i :: 0 <= i < |p| ==> p[i].id in ks && p[i].doc == docs[p[i].id])
      && (forall i, j :: 0 <= i < j < |p| ==> p[i].id != p[j].id && Newer(stamp, p[i].id, p[j].id))
  {
    var es := SortedEntries(docs, stamp, ks);
    var p := Page(es, skip, limit);
    if skip < |es| {
      forall i | 0 <= i < |p|
        ensures p[i] == es[skip + i]
      {
      }
    }
  }

  /** The store ids of a result list. */
  function Ids<T>(es: seq<Entry<T>>): (ids: seq<Key>)
    ensures |ids| == |es|
    ensures forall i :: 0 <= i < |es| ==> ids[i] == es[i].id
  {
    seq(|es|, i requires 0 <= i < |es| => es[i].id)
  }

  /** The documents under the given ids, in that order. */
  function EntriesOf<T>(docs: map<Key, T>, ks: seq<Key>): (es: seq<Entry<T>>)
    requires forall i :: 0 <= i < |ks| ==> ks[i] in docs
    ensures |es| == |ks| && Ids(es) == ks
    ensures forall i :: 0 <= i < |es| ==> es[i] == Entry(ks[i], docs[ks[i]])
  {
    var es := seq(|ks|, i requires 0 <= i < |ks| => Entry(ks[i], docs[ks[i]]));
    assert Ids(es) == ks;
    es
  }

  /** `find(query).sort({ createdAt: -1 })` over the documents whose ids are
      `ks`: each of them exactly once, with its stored content, newest first. */
  function SortedEntries<T>(docs: map<Key, T>, stamp: map<Key, int>, ks: set<Key>): (es: seq<Entry<T>>)
    requires ks <= docs.Keys && ks <= stamp.Keys
    ensures |es| == |ks|
    ensures forall i :: 0 <= i < |es| ==> es[i].id in ks && es[i].doc == docs[es[i].id]
    ensures forall k :: k in ks ==> k in Ids(es)
    ensures forall i, j :: 0 <= i < j < |es| ==> es[i].id != es[j].id && Newer(stamp, es[i].id, es[j].id)
  {
    var s := NewestFirst(stamp, ks);
    NewestFirstDistinct(stamp, ks);
    EntriesOf(docs, s)
  }
}

=== FILE: payments.dfy ===
/** Donation payments: a member submits a payment with a screenshot, sees
    their own payments, and an administrator lists, filters, pages and
    settles them. */
module Payments {
  import opened Base
  import opened Models
  import opened Http
  import Members
  import Order

  const MemberOnly: string := "Member only"
  const ScreenshotRequired: string := "Payment screenshot is required"
  const SubmittedMessage: string := "Payment submitted successfully"
  const PaymentNotFound: string := "Payment not found"
  const PaymentsDir: string := "/uploads/payments/"

  /** The form fields of a submission; the screenshot arrives separately. */
  datatype PaymentForm = PaymentForm(amount: Option<int>, category: Option<string>)

  /** `Number(amount || 0)`: a missing amount is stored as 0. */
  function AmountOf(amount: Option<int>): (a: int)
    ensures amount.None? ==> a == 0
    ensures amount.Some? ==> a == amount.value
  {
    amount.GetOr(0)
  }

  /** The category a submission names, `blindDonation` when it names none. */
  function CategoryOf(category: Option<string>): (c: string)
    ensures c in Categories <==> category.None? || category.value in Categories
  {
    category.GetOr(DefaultCategory)
  }

  /** `Payment.create`'s validation, in schema order: the owner is required
      and the category must be one of the four funds. */
  function PaymentErrors(owner: Option<Key>, category: string): (errs: seq<string>)
    ensures errs == [] <==> owner.Some? && category in Categories
  {
    (if owner.Some? then [] else [RequiredMessage("userId")]) + CheckEnum("category", category, Categories, true)
  }

  /** `submitPayment`. Only a member may submit, a screenshot is required,
      and the stored payment starts out pending under the next store id. */
  function SubmitPayment(st: State, user: Claims, form: PaymentForm, filename: Option<string>, now: int): (r: Step)
    ensures user.role != MemberRole ==> r == Step(st, Json(403, Msg(MemberOnly)))
    ensures user.role == MemberRole && filename.None? ==> r == Step(st, Json(400, Msg(ScreenshotRequired)))
    ensures r.reply.Json? && r.reply.status == 201 <==>
      user.role == MemberRole && filename.Some? && user.id.Some? && CategoryOf(form.category) in Categories
    ensures r.reply.Thrown? ==> r.st == st && r.reply.err.name == "ValidationError"
    ensures r.reply.Json? && r.reply.status == 201 ==>
      var p := Payment(user.id.value, CategoryOf(form.category), AmountOf(form.amount),
                       PaymentsDir + filename.value, Pending, now);
      && r.st == st.(payments := st.payments[st.nextKey := p], nextKey := st.nextKey + 1)
      && r.reply.body == PaymentSubmitted(SubmittedMessage, Entry(st.nextKey, p))
  {
    if user.role != MemberRole then Step(st, Json(403, Msg(MemberOnly)))
    else if filename.None? then Step(st, Json(400, Msg(ScreenshotRequired)))
    else
      var category := CategoryOf(form.category);
      var errs := PaymentErrors(user.id, category);
      if errs != [] then Step(st, Thrown(ValidationError(errs)))
      else
        var p := Payment(user.id.value, category, AmountOf(form.amount), PaymentsDir + filename.value, Pending, now);
        Step(st.(payments := st.payments[st.nextKey := p], nextKey := st.nextKey + 1),
             Json(201, PaymentSubmitted(SubmittedMessage, Entry(st.nextKey, p))))
  }

  /** The payments `find({ userId })` returns: those of the owner, or every
      payment when the token carries no id (an undefined filter value is
      dropped from the query). */
  function OwnedBy(payments: map<Key, Payment>, owner: Option<Key>): (ks: set<Key>)
    ensures ks <= payments.Keys
    ensures forall k :: k in ks <==> k in payments && (owner.None? || payments[k].userId == owner.value)
  {
    set k | k in payments && (owner.None? || payments[k].userId == owner.value)
  }

  /** Payments, newest first. */
  function Sorted(payments: map<Key, Payment>, ks: set<Key>): (es: seq<Entry<Payment>>)
    requires ks <= payments.Keys
    ensures |es| == |ks|
    ensures forall i :: 0 <= i < |es| ==> es[i].id in ks && es[i].doc == payments[es[i].id]
    ensures forall k :: k in ks ==> k in Order.Ids(es)
    ensures forall i, j :: 0 <= i < j < |es| ==>
      es[i].id != es[j].id && Order.Newer(PaymentStamps(payments), es[i].id, es[j].id)
  {
    Order.SortedEntries(payments, PaymentStamps(payments), ks)
  }

  /** `listMyPayments`: a member sees exactly their own payments, each once,
      newest first. */
  function ListMyPayments(st: State, user: Claims): (r: Step)
    ensures r.st == st
    ensures user.role != MemberRole <==> r.reply == Json(403, Msg(MemberOnly))
    ensures user.role == MemberRole && user.id.Some? ==>
      && r.reply.Json? && r.reply.status == 200 && r.reply.body.PaymentList?
      && (forall i :: 0 <= i < |r.reply.body.payments| ==>
            var e := r.reply.body.payments[i];
            e.id in st.payments && e.doc == st.payments[e.id] && e.doc.userId == user.id.value)
      && (forall k :: k in st.payments && st.payments[k].userId == user.id.value ==>
            k in Order.Ids(r.reply.body.payments))
      && |r.reply.body.payments| == |OwnedBy(st.payments, user.id)|
    ensures user.role == MemberRole ==>
      && r.reply.Json? && r.reply.status == 200 && r.reply.body.PaymentList?
      && (forall k :: k in OwnedBy(st.payments, user.id) <==> k in Order.Ids(r.reply.body.payments))
      && (forall i, j :: 0 <= i < j < |r.reply.body.payments| ==>
            r.reply.body.payments[i].id != r.reply.body.payments[j].id
            && Order.Newer(PaymentStamps(st.payments), r.reply.body.payments[i].id, r.reply.body.payments[j].id))
  {
    if user.role != MemberRole then Step(st, Json(403, Msg(MemberOnly)))
    else Step(st, Json(200, PaymentList(Sorted(st.payments, OwnedBy(st.payments, user.id)))))
  }

  /** `listAllPayments`: every payment once, newest first. */
  function ListAllPayments(st: State): (r: Step)
    ensures r.st == st && r.reply.Json? && r.reply.status == 200 && r.reply.body.PaymentList?
    ensures |r.reply.body.payments| == |st.payments|
    ensures forall k :: k in st.payments <==> k in Order.Ids(r.reply.body.payments)
    ensures forall i, j :: 0 <= i < j < |r.reply.body.payments| ==>
      Order.Newer(PaymentStamps(st.payments), r.reply.body.payments[i].id, r.reply.body.payments[j].id)
  {
    var es := Sorted(st.payments, st.payments.Keys);
    assert forall k :: k in Order.Ids(es) ==> k in st.payments by {
      forall k | k in Order.Ids(es) ensures k in st.payments {
        var i :| 0 <= i < |es| && Order.Ids(es)[i] == k;
      }
    }
    Step(st, Json(200, PaymentList(es)))
  }

  /** The payments `listAdminPayments` counts: those with the requested
      status, or all of them when none is requested. */
  function AdminMatching(payments: map<Key, Payment>, status: Option<string>): (ks: set<Key>)
    ensures ks <= payments.Keys
    ensures forall k :: k in ks <==> k in payments && (!Truthy(status) || payments[k].status == status.value)
  {
    if Truthy(status) then Members.PaymentsWithStatus(payments, status.value) else payments.Keys
  }

  /** `listAdminPayments`: the status filter, then the newest-first page. */
  function ListAdminPayments(st: State, status: Option<string>, page: Option<int>, limit: Option<nat>): (r: Step)
    ensures r.st == st
    ensures Members.SkipOf(page, limit) < 0 <==> r.reply == Thrown(Members.NegativeSkip)
    ensures Members.SkipOf(page, limit) >= 0 ==> r.reply == Json(200, PaymentPage(
      Order.Page(Sorted(st.payments, AdminMatching(st.payments, status)), Members.SkipOf(page, limit),
                 limit.GetOr(Members.DefaultLimit)),
      |AdminMatching(st.payments, status)|, page.GetOr(Members.DefaultPage), limit.GetOr(Members.DefaultLimit)))
  {
    var matching := AdminMatching(st.payments, status);
    var skip := Members.SkipOf(page, limit);
    if skip < 0 then Step(st, Thrown(Members.NegativeSkip))
    else
      var l := limit.GetOr(Members.DefaultLimit);
      Step(st, Json(200, PaymentPage(Order.Page(Sorted(st.payments, matching), skip, l),
                                     |matching|, page.GetOr(Members.DefaultPage), l)))
  }

  /** What the administrator's payment page promises: the total counts every
      payment with the requested status, and the page holds at most `limit`
      of them (when the limit is not 0), with their stored content, each
      once, newest first. */
  lemma AdminPageContents(st: State, status: Option<string>, page: Option<int>, limit: Option<nat>)
    requires Members.SkipOf(page, limit) >= 0
    ensures var r := ListAdminPayments(st, status, page, limit).reply;
      var items := r.body.paymentItems;
      var l := limit.GetOr(Members.DefaultLimit);
      && r.Json? && r.body.PaymentPage?
      && r.body.paymentTotal == |AdminMatching(st.payments, status)|
      && (l > 0 ==> |items| <= l)
      && (forall i :: 0 <= i < |items| ==>
            items[i].id in st.payments && items[i].doc == st.payments[items[i].id]
            && (Truthy(status) ==> items[i].doc.status == status.value))
      && (forall i, j :: 0 <= i < j < |items| ==>
            items[i].id != items[j].id && Order.Newer(PaymentStamps(st.payments), items[i].id, items[j].id))
  {
    Order.SortedPage(st.payments, PaymentStamps(st.payments), AdminMatching(st.payments, status),
                     Members.SkipOf(page, limit), limit.GetOr(Members.DefaultLimit));
  }

  /** `updatePaymentStatus`: `findByIdAndUpdate` without validators, so any
      status string is stored; a missing status leaves the payment as it
      was. */
  function UpdatePaymentStatus(st: State, id: IdRef, status: Option<string>): (r: Step)
    ensures id.Malformed? ==> r == Step(st, Thrown(CastError("_id")))
    ensures !id.Malformed? && !(id.Id? && id.key in st.payments) ==> r == Step(st, Json(404, Msg(PaymentNotFound)))
    ensures id.Id? && id.key in st.payments ==>
      && r.reply.Json? && r.reply.status == 200 && r.reply.body.PaymentDoc?
      && r.reply.body.payment.id == id.key
      && r.st.payments.Keys == st.payments.Keys
      && r.st.payments[id.key] == r.reply.body.payment.doc
      && r.st.payments[id.key].status == status.GetOr(st.payments[id.key].status)
  {
    match id
    case Malformed(_) => Step(st, Thrown(CastError("_id")))
    case Absent => Step(st, Json(404, Msg(PaymentNotFound)))
    case Id(k) =>
      if k !in st.payments then Step(st, Json(404, Msg(PaymentNotFound)))
      else
        var p := st.payments[k];
        var p' := p.(status := status.GetOr(p.status));
        Step(st.(payments := st.payments[k := p']), Json(200, PaymentDoc(Entry(k, p'))))
  }

  /** Settling a payment changes its status and nothing else: not its owner,
      amount, category, screenshot or time, and no other payment or
      collection. */
  lemma SettlingTouchesOnlyStatus(st: State, k: Key, status: string)
    requires k in st.payments
    ensures var r := UpdatePaymentStatus(st, Id(k), Some(status));
      && r.st == st.(payments := st.payments[k := st.payments[k].(status := status)])
      && (forall j :: j in st.payments && j != k ==> r.st.payments[j] == st.payments[j])
  {
  }

  /** A submitted payment shows up in the submitter's own list and, while
      pending, among the administrator's pending payments. */
  lemma SubmittedPaymentIsListed(st: State, user: Claims, form: PaymentForm, filename: Option<string>, now: int)
    requires KeysIssued(st)
    ensures var r := SubmitPayment(st, user, form, filename, now);
      r.reply.Json? && r.reply.status == 201 ==>
        && st.nextKey in Order.Ids(ListMyPayments(r.st, user).reply.body.payments)
        && st.nextKey in AdminMatching(r.st.payments, Some(Pending))
        && st.nextKey !in st.payments
  {
  }
}

=== FILE: plans.dfy ===
/** Membership plans: resolving the plan a member is charged for, and the
    administrator's plan create, update, delete and list handlers. */
module Plans {
  import opened Base
  import opened Text
  import opened Models
  import opened Http
  import Order

  // ---------------------------------------------------------------------------
  // Plan resolution
  // ---------------------------------------------------------------------------

  /** The plan snapshot copied into a member record. */
  datatype Selection = Selection(fee: int, planName: string, planId: Option<Key>)

  const FallbackPlanName: string := "Membership Plan"

  /** No plan at all: fee 0, the fallback name, no plan id. */
  const NoPlan: Selection := Selection(0, FallbackPlanName, None)

  /** The newest plan (`findOne().sort({ createdAt: -1 })`), if any. */
  function NewestPlan(plans: map<Key, Plan>): (k: Option<Key>)
    ensures k.None? <==> plans == map[]
    ensures k.Some? ==> Order.IsNewestIn(PlanStamps(plans), plans.Keys, k.value)
  {
    if plans == map[] then None
    else
      assert plans.Keys != {} by {
        var k0 :| k0 in plans;
        assert k0 in plans.Keys;
      }
      Some(Order.NewestOf(PlanStamps(plans), plans.Keys))
  }

  /** The snapshot of one stored plan: its price, its name (the fallback
      when the name is empty) and its id. */
  function SelectionOf(plans: map<Key, Plan>, k: Key): (s: Selection)
    requires k in plans
    ensures s.planId == Some(k) && s.fee == plans[k].price
    ensures s.planName != ""
    ensures plans[k].name != "" ==> s.planName == plans[k].name
  {
    Selection(plans[k].price, if plans[k].name != "" then plans[k].name else FallbackPlanName, Some(k))
  }

  /** `getMembershipPlan`: the plan with the given id when it exists, else the
      newest plan, else no plan. A present id that is not a well-formed
      ObjectId makes the lookup throw. */
  function ResolvePlan(plans: map<Key, Plan>, ref: IdRef): (r: Result<Selection, Error>)
    ensures r.Err? <==> ref.Malformed?
    ensures r.Err? ==> r.error == CastError("_id")
    ensures ref.Id? && ref.key in plans ==> r == Ok(SelectionOf(plans, ref.key))
    ensures !ref.Malformed? && !(ref.Id? && ref.key in plans) && plans == map[] ==> r == Ok(NoPlan)
    ensures !ref.Malformed? && !(ref.Id? && ref.key in plans) && plans != map[] ==>
      && r.Ok? && r.value.planId.Some? && r.value.planId.value in plans
      && Order.IsNewestIn(PlanStamps(plans), plans.Keys, r.value.planId.value)
      && r.value == SelectionOf(plans, r.value.planId.value)
  {
    match ref
    case Malformed(_) => Err(CastError("_id"))
    case Absent => Ok(DefaultSelection(plans))
    case Id(k) => if k in plans then Ok(SelectionOf(plans, k)) else Ok(DefaultSelection(plans))
  }

  /** The selection when no id names a plan: the newest plan, else none. */
  function DefaultSelection(plans: map<Key, Plan>): (s: Selection)
    ensures plans == map[] ==> s == NoPlan
    ensures plans != map[] ==>
      && s.planId.Some? && s.planId.value in plans
      && Order.IsNewestIn(PlanStamps(plans), plans.Keys, s.planId.value)
      && s == SelectionOf(plans, s.planId.value)
  {
    match NewestPlan(plans)
    case None => NoPlan
    case Some(k) => SelectionOf(plans, k)
  }

  /** A resolved plan id always names a stored plan, and the fee is its price. */
  lemma ResolvedPlanIsStored(plans: map<Key, Plan>, ref: IdRef)
    ensures var r := ResolvePlan(plans, ref);
      r.Ok? && r.value.planId.Some? ==>
        r.value.planId.value in plans && r.value.fee == plans[r.value.planId.value].price
    ensures var r := ResolvePlan(plans, ref);
      r.Ok? && r.value.planId.None? ==> r.value == NoPlan && plans == map[]
  {
  }

  /** An id that names no plan behaves exactly like no id at all. */
  lemma UnknownIdFallsBack(plans: map<Key, Plan>, k: Key)
    requires k !in plans
    ensures ResolvePlan(plans, Id(k)) == ResolvePlan(plans, Absent)
  {
  }

  /** Without an id the newest plan wins: a plan created after every other
      one is the one selected. */
  lemma NewestPlanWins(plans: map<Key, Plan>, k: Key, p: Plan)
    requires k !in plans
    requires forall j :: j in plans ==> plans[j].createdAt < p.createdAt
    ensures ResolvePlan(plans[k := p], Absent) == Ok(SelectionOf(plans[k := p], k))
  {
    var plans' := plans[k := p];
    var s := DefaultSelection(plans');
    assert k in plans';
    var chosen := s.planId.value;
    if chosen != k {
      assert false;
    }
  }

  // ---------------------------------------------------------------------------
  // Plan administration
  // ---------------------------------------------------------------------------

  /** The name a plan is listed under: its trimmed name, or "Plan <price>". */
  function DisplayName(p: Plan): (name: string)
    ensures name != ""
    ensures Trim(p.name) != "" ==> name == Trim(p.name)
    ensures Trim(p.name) == "" ==> name == "Plan " + IntText(p.price)
  {
    if Trim(p.name) != "" then Trim(p.name) else "Plan " + IntText(p.price)
  }

  /** The message of the cast failure `Number(undefined)` (NaN) produces. */
  const PriceCastMessage: string := "Cast to Number failed for value \"NaN\" (type number) at path \"price\""

  /** The `min: 0` validator's message. */
  function PriceMinMessage(price: int): string {
    "Path `price` (" + IntText(price) + ") is less than minimum allowed value (0)."
  }

  /** `createMembershipPrice`. `price` is the request value after `Number()`;
      `None` stands for NaN (missing or non-numeric). */
  function CreatePlan(st: State, name: Option<string>, price: Option<int>, now: int): (r: Step)
    ensures var n := Trim(OrText(name, ""));
      n == "" ==> r == Step(st, Json(400, Msg("Plan name is required")))
    ensures Trim(OrText(name, "")) != "" && price.None? ==>
      r == Step(st, Thrown(ValidationError([PriceCastMessage])))
    ensures Trim(OrText(name, "")) != "" && price.Some? && price.value < 0 ==>
      r == Step(st, Thrown(ValidationError([PriceMinMessage(price.value)])))
    ensures r.reply.Json? && r.reply.status == 201 <==>
      Trim(OrText(name, "")) != "" && price.Some? && price.value >= 0
    ensures r.reply.Json? && r.reply.status == 201 ==>
      && r.reply.body == PlanDoc(Entry(st.nextKey, Plan(Trim(OrText(name, "")), price.value, now, now)))
      && r.st == st.(plans := st.plans[st.nextKey := r.reply.body.plan.doc], nextKey := st.nextKey + 1)
  {
    var n := Trim(OrText(name, ""));
    if n == "" then Step(st, Json(400, Msg("Plan name is required")))
    else if price.None? then Step(st, Thrown(ValidationError([PriceCastMessage])))
    else if price.value < 0 then Step(st, Thrown(ValidationError([PriceMinMessage(price.value)])))
    else
      var k := st.nextKey;
      var p := Plan(n, price.value, now, now);
      Step(st.(plans := st.plans[k := p], nextKey := k + 1), Json(201, PlanDoc(Entry(k, p))))
  }

  /** A plan created later than all others becomes the default selection. */
  lemma CreatedPlanBecomesDefault(st: State, name: Option<string>, price: Option<int>, now: int)
    requires Consistent(st)
    requires forall j :: j in st.plans ==> st.plans[j].createdAt < now
    ensures var r := CreatePlan(st, name, price, now);
      r.reply.Json? && r.reply.status == 201 ==>
        ResolvePlan(r.st.plans, Absent) == Ok(Selection(price.value, Trim(OrText(name, "")), Some(st.nextKey)))
  {
    var r := CreatePlan(st, name, price, now);
    if r.reply.Json? && r.reply.status == 201 {
      NewestPlanWins(st.plans, st.nextKey, r.reply.body.plan.doc);
    }
  }

  /** `updateMembershipPrice`: a present name is trimmed and written, a
      present price is written; no validators run, so an empty name or a
      negative price is stored as given. */
  function UpdatePlan(st: State, id: IdRef, name: Option<string>, price: Option<int>, now: int): (r: Step)
    ensures id.Malformed? ==> r == Step(st, Thrown(CastError("_id")))
    ensures !id.Malformed? && !(id.Id? && id.key in st.plans) ==>
      r == Step(st, Json(404, Msg("Price not found")))
    ensures id.Id? && id.key in st.plans ==>
      id.key in r.st.plans &&
      var old_ := st.plans[id.key];
      var new_ := r.st.plans[id.key];
      && r.st == st.(plans := st.plans[id.key := new_])
      && new_.name == (if name.Some? then Trim(name.value) else old_.name)
      && new_.price == (if price.Some? then price.value else old_.price)
      && new_.createdAt == old_.createdAt && new_.updatedAt == now
      && r.reply == Json(200, PlanDoc(Entry(id.key, new_)))
  {
    match id
    case Malformed(_) => Step(st, Thrown(CastError("_id")))
    case Absent => Step(st, Json(404, Msg("Price not found")))
    case Id(k) =>
      if k !in st.plans then Step(st, Json(404, Msg("Price not found")))
      else
        var p := st.plans[k];
        var p' := p.(name := if name.Some? then Trim(name.value) else p.name,
                     price := if price.Some? then price.value else p.price,
                     updatedAt := now);
        Step(st.(plans := st.plans[k := p']), Json(200, PlanDoc(Entry(k, p'))))
  }

  /** `deleteMembershipPrice`: removes the plan; members keep their snapshot. */
  function DeletePlan(st: State, id: IdRef): (r: Step)
    ensures id.Malformed? ==> r == Step(st, Thrown(CastError("_id")))
    ensures !id.Malformed? && !(id.Id? && id.key in st.plans) ==>
      r == Step(st, Json(404, Msg("Price not found")))
    ensures id.Id? && id.key in st.plans ==>
      && r.reply == Json(200, Message("Price deleted"))
      && r.st.plans.Keys == st.plans.Keys - {id.key}
      && (forall k :: k in r.st.plans ==> r.st.plans[k] == st.plans[k])
      && r.st.members == st.members && r.st.accounts == st.accounts && r.st.payments == st.payments
      && r.st.settings == st.settings && r.st.memberSeq == st.memberSeq && r.st.nextKey == st.nextKey
  {
    match id
    case Malformed(_) => Step(st, Thrown(CastError("_id")))
    case Absent => Step(st, Json(404, Msg("Price not found")))
    case Id(k) =>
      if k !in st.plans then Step(st, Json(404, Msg("Price not found")))
      else Step(st.(plans := st.plans - {k}), Json(200, Message("Price deleted")))
  }

  /** Every plan once, newest first, each under its display name. */
  function Listed(plans: map<Key, Plan>): (ps: seq<Entry<Plan>>)
    ensures |ps| == |plans.Keys|
    ensures forall i :: 0 <= i < |ps| ==>
      ps[i].id in plans && ps[i].doc == plans[ps[i].id].(name := DisplayName(plans[ps[i].id]))
    ensures forall k :: k in plans ==> k in Order.Ids(ps)
    ensures forall i, j :: 0 <= i < j < |ps| ==>
      ps[i].id != ps[j].id && Order.Newer(PlanStamps(plans), ps[i].id, ps[j].id)
  {
    var es := Order.SortedEntries(plans, PlanStamps(plans), plans.Keys);
    Renamed(es)
  }

  /** The same entries, each plan under its display name. */
  function Renamed(es: seq<Entry<Plan>>): (ps: seq<Entry<Plan>>)
    ensures |ps| == |es| && Order.Ids(ps) == Order.Ids(es)
    ensures forall i :: 0 <= i < |es| ==> ps[i] == Entry(es[i].id, es[i].doc.(name := DisplayName(es[i].doc)))
  {
    var ps := seq(|es|, i requires 0 <= i < |es| => Entry(es[i].id, es[i].doc.(name := DisplayName(es[i].doc))));
    assert Order.Ids(ps) == Order.Ids(es);
    ps
  }

  /** `listMembershipPrices`. */
  function ListPlans(st: State): (r: Step)
    ensures r == Step(st, Json(200, PlanList(Listed(st.plans))))
    ensures |r.reply.body.plans| == |st.plans.Keys|
    ensures forall k :: k in st.plans <==> k in Order.Ids(r.reply.body.plans)
    ensures forall i :: 0 <= i < |r.reply.body.plans| ==>
      var e := r.reply.body.plans[i];
      e.id in st.plans && e.doc.price == st.plans[e.id].price && e.doc.name == DisplayName(st.plans[e.id])
    ensures forall i, j :: 0 <= i < j < |r.reply.body.plans| ==>
      var ps := r.reply.body.plans;
      ps[i].id != ps[j].id && Order.Newer(PlanStamps(st.plans), ps[i].id, ps[j].id)
  {
    ListingFacts(st.plans);
    Step(st, Json(200, PlanList(Listed(st.plans))))
  }

  /** The listing holds every plan exactly once, at its price and under its
      display name. */
  lemma ListingFacts(plans: map<Key, Plan>)
    ensures forall k :: k in plans <==> k in Order.Ids(Listed(plans))
    ensures forall i :: 0 <= i < |Listed(plans)| ==>
      var e := Listed(plans)[i];
      e.id in plans && e.doc.price == plans[e.id].price && e.doc.name == DisplayName(plans[e.id])
  {
    var ps := Listed(plans);
    forall k | k in Order.Ids(ps) ensures k in plans {
      var i :| 0 <= i < |ps| && Order.Ids(ps)[i] == k;
    }
  }
}

=== FILE: public_members.dfy ===
/** The member controller: the public application form, the member listings,
    the plain update, status and delete handlers (which, unlike the
    administrator's, leave the login account alone), the public counters and
    a member's own profile. */
module PublicMembers {
  import opened Base
  import opened Text
  import opened Models
  import opened Http
  import opened Members
  import MemberIds
  import Plans
  import Order

  const SubmittedMessage: string := "Membership submitted. Status is pending."
  const MemberNotFound: string := "Member not found"
  const ProfilesDir: string := "/uploads/profiles/"

  // ---------------------------------------------------------------------------
  // Application
  // ---------------------------------------------------------------------------

  /** The member record an application asks for: one-time, pending, the plan
      snapshot, and the uploaded photo's public path when a file came. */
  function ApplicationDraft(app: Application, memberId: string, sel: Plans.Selection, photo: Option<string>): (d: MemberDraft)
    ensures d.memberId == memberId && d.email == app.email && d.fullName == app.fullName && d.mobile == app.mobile
    ensures d.membershipType == OneTime && d.status == Pending
    ensures d.membershipFee == sel.fee && d.membershipPlanName == sel.planName && d.membershipPlanId == sel.planId
    ensures photo.None? <==> d.profileImage.None?
    ensures photo.Some? ==> d.profileImage == Some(ProfilesDir + photo.value)
  {
    MemberDraft(memberId, app.fullName, app.fatherName, app.mobile, app.email, app.address, app.occupation,
                app.annualIncome, OneTime, sel.planId, sel.planName, sel.fee,
                if photo.Some? then Some(ProfilesDir + photo.value) else None, Pending)
  }

  /** The login account an application opens: the mobile number is the
      initial password, the account is pending. */
  function LoginDraft(app: Application): (d: AccountDraft)
    ensures d.email == LowerOpt(app.email) && d.password == app.mobile && d.phone == app.mobile
    ensures d.membershipType == AccountOneTime && d.membershipStatus == Pending && d.role == MemberRole
  {
    AccountDraft(app.fullName, LowerOpt(app.email), app.mobile, app.mobile, app.address,
                 AccountOneTime, Pending, MemberRole)
  }

  /** Whatever passes the member validators also passes the account's: the
      account needs a subset of the member's fields. */
  lemma LoginDraftValid(app: Application, memberId: string, sel: Plans.Selection, photo: Option<string>)
    requires MemberDraftValid(ApplicationDraft(app, memberId, sel, photo))
    ensures AccountDraftValid(LoginDraft(app))
  {
  }

  /** The account step after the member was stored: an account is created
      only when none has the lowercased email. */
  function OpenLogin(st: State, app: Application, now: int): (r: State)
    requires Truthy(app.email) && Truthy(app.fullName) && Truthy(app.mobile) && Truthy(app.address)
    ensures AccountByEmail(st.accounts, Lower(app.email.value)).Some? ==> r == st
    ensures AccountByEmail(st.accounts, Lower(app.email.value)).None? ==>
      && AccountDraftValid(LoginDraft(app))
      && r == st.(accounts := st.accounts[st.nextKey := BuildAccount(LoginDraft(app), now)], nextKey := st.nextKey + 1)
  {
    if AccountByEmail(st.accounts, Lower(app.email.value)).Some? then st
    else
      var a := BuildAccount(LoginDraft(app), now);
      st.(accounts := st.accounts[st.nextKey := a], nextKey := st.nextKey + 1)
  }

  /** `Member.create`: the record stored under the next id. */
  function WithMember(st: State, m: Member): (r: State)
    ensures r.members == st.members[st.nextKey := m] && r.nextKey == st.nextKey + 1
    ensures r.accounts == st.accounts && r.memberSeq == st.memberSeq
  {
    st.(members := st.members[st.nextKey := m], nextKey := st.nextKey + 1)
  }

  /** `applyMembership`. The plan id is looked up before the counter moves (a
      malformed one throws with nothing changed); from the allocation on the
      counter stays moved whatever follows. `photo` is the stored file name of
      the upload, if any. */
  function Apply(st: State, app: Application, photo: Option<string>, now: int, year: nat): (r: Step)
    ensures app.membershipPriceId.Malformed? ==> r == Step(st, Thrown(CastError("_id")))
    ensures !app.membershipPriceId.Malformed? ==> r.st.memberSeq == st.memberSeq + 1
    ensures r.reply.Thrown? && !app.membershipPriceId.Malformed? ==> r.st == st.(memberSeq := st.memberSeq + 1)
    ensures r.reply.Json? ==> r.reply.status == 201 && r.reply.body.Submitted?
  {
    match Plans.ResolvePlan(st.plans, app.membershipPriceId)
    case Err(e) => Step(st, Thrown(e))
    case Ok(sel) =>
      var alloc := MemberIds.Allocate(st.memberSeq, year);
      var st1 := st.(memberSeq := alloc.counter);
      var md := ApplicationDraft(app, alloc.memberId, sel, photo);
      if MemberErrors(md) != [] then Step(st1, Thrown(ValidationError(MemberErrors(md))))
      else if MemberIdTaken(st.members, md.memberId) then Step(st1, Thrown(DuplicateKey("memberId")))
      else
        var m := BuildMember(md, now);
        Step(OpenLogin(WithMember(st1, m), app, now), Json(201, Submitted(SubmittedMessage, Entry(st.nextKey, m))))
  }

  /** An application succeeds exactly when the plan id is well formed, the
      form passes the member validators and the allocated id is free. */
  lemma ApplySucceedsIff(st: State, app: Application, photo: Option<string>, now: int, year: nat)
    ensures var r := Apply(st, app, photo, now, year);
      r.reply.Json? <==>
        && !app.membershipPriceId.Malformed?
        && var sel := Plans.ResolvePlan(st.plans, app.membershipPriceId).value;
        var md := ApplicationDraft(app, MemberIds.Allocate(st.memberSeq, year).memberId, sel, photo);
        MemberDraftValid(md) && !MemberIdTaken(st.members, md.memberId)
  {
  }

  /** What a successful application stores: a pending one-time member under
      the next id, with the lowercased email, the resolved plan's fee, name
      and id, and the freshly allocated member id. */
  lemma AppliedMember(st: State, app: Application, photo: Option<string>, now: int, year: nat)
    requires KeysIssued(st)
    ensures var r := Apply(st, app, photo, now, year);
      r.reply.Json? ==>
        var e := r.reply.body.member;
        && e.id == st.nextKey && e.id in r.st.members && r.st.members[e.id] == e.doc
        && e.doc.status == Pending && e.doc.membershipType == OneTime
        && app.email.Some? && e.doc.email == Lower(app.email.value)
        && e.doc.membershipFee == Plans.ResolvePlan(st.plans, app.membershipPriceId).value.fee
        && e.doc.membershipPlanName == Plans.ResolvePlan(st.plans, app.membershipPriceId).value.planName
        && e.doc.membershipPlanId == Plans.ResolvePlan(st.plans, app.membershipPriceId).value.planId
        && e.doc.memberId == MemberIds.Allocate(st.memberSeq, year).memberId
        && (forall k :: k in st.members ==> k in r.st.members && r.st.members[k] == st.members[k])
  {
    var r := Apply(st, app, photo, now, year);
    if r.reply.Json? {
      var sel := Plans.ResolvePlan(st.plans, app.membershipPriceId).value;
      var md := ApplicationDraft(app, MemberIds.Allocate(st.memberSeq, year).memberId, sel, photo);
      StoredApplication(st, app, photo, now, year, sel, md);
    }
  }

  /** The writes of a successful application, outside the handler. */
  lemma StoredApplication(st: State, app: Application, photo: Option<string>, now: int, year: nat,
                          sel: Plans.Selection, md: MemberDraft)
    requires Plans.ResolvePlan(st.plans, app.membershipPriceId) == Ok(sel)
    requires md == ApplicationDraft(app, MemberIds.Allocate(st.memberSeq, year).memberId, sel, photo)
    requires MemberDraftValid(md) && !MemberIdTaken(st.members, md.memberId)
    ensures var r := Apply(st, app, photo, now, year);
      var m := BuildMember(md, now);
      && r.reply == Json(201, Submitted(SubmittedMessage, Entry(st.nextKey, m)))
      && r.st.members == st.members[st.nextKey := m]
      && r.st == OpenLogin(WithMember(st.(memberSeq := st.memberSeq + 1), m), app, now)
  {
  }

  /** After a successful application an account logs in with the
      application's email; when the email was new, it is a pending member
      account whose password is the mobile number. */
  lemma ApplicationOpensLogin(st: State, app: Application, photo: Option<string>, now: int, year: nat)
    requires KeysIssued(st)
    ensures var r := Apply(st, app, photo, now, year);
      r.reply.Json? ==>
        && app.email.Some?
        && AccountByEmail(r.st.accounts, Lower(app.email.value)).Some?
        && (AccountByEmail(st.accounts, Lower(app.email.value)).None? ==>
              var a := r.st.accounts[AccountByEmail(r.st.accounts, Lower(app.email.value)).value];
              a.role == MemberRole && a.membershipStatus == Pending && Compare(app.mobile.value, a.password))
  {
    var r := Apply(st, app, photo, now, year);
    if r.reply.Json? {
      var sel := Plans.ResolvePlan(st.plans, app.membershipPriceId).value;
      var md := ApplicationDraft(app, MemberIds.Allocate(st.memberSeq, year).memberId, sel, photo);
      StoredApplication(st, app, photo, now, year, sel, md);
      LoginAfterOpen(WithMember(st.(memberSeq := st.memberSeq + 1), BuildMember(md, now)), app, now);
    }
  }

  /** `OpenLogin` leaves exactly one way in: the account with the email. */
  lemma LoginAfterOpen(st: State, app: Application, now: int)
    requires Truthy(app.email) && Truthy(app.fullName) && Truthy(app.mobile) && Truthy(app.address)
    requires forall k :: k in st.accounts ==> k < st.nextKey
    ensures var e := Lower(app.email.value);
      var r := OpenLogin(st, app, now);
      && AccountByEmail(r.accounts, e).Some?
      && (AccountByEmail(st.accounts, e).None? ==>
            AccountByEmail(r.accounts, e) == Some(st.nextKey)
            && var a := r.accounts[st.nextKey];
            a.role == MemberRole && a.membershipStatus == Pending && Compare(app.mobile.value, a.password))
  {
    var e := Lower(app.email.value);
    if AccountByEmail(st.accounts, e).None? {
      var a := BuildAccount(LoginDraft(app), now);
      assert a.email == e;
      var r := OpenLogin(st, app, now);
      assert r.accounts == st.accounts[st.nextKey := a];
      assert st.nextKey in r.accounts && r.accounts[st.nextKey].email == e;
      forall k | k in r.accounts && r.accounts[k].email == e
        ensures k == st.nextKey
      {
      }
    }
  }

  /** Applying twice with the same email stores two members but keeps one
      account: the second application finds the first one's account. */
  lemma SecondApplicationReusesLogin(st: State, app: Application, again: Application, photo: Option<string>,
                                     now: int, year: nat)
    requires KeysIssued(st)
    requires again.email == app.email
    ensures var r1 := Apply(st, app, photo, now, year);
      var r2 := Apply(r1.st, again, photo, now, year);
      r1.reply.Json? && r2.reply.Json? ==> r2.st.accounts == r1.st.accounts
  {
    var r1 := Apply(st, app, photo, now, year);
    if r1.reply.Json? {
      ApplicationOpensLogin(st, app, photo, now, year);
      var r2 := Apply(r1.st, again, photo, now, year);
      if r2.reply.Json? {
        var sel := Plans.ResolvePlan(r1.st.plans, again.membershipPriceId).value;
        var md := ApplicationDraft(again, MemberIds.Allocate(r1.st.memberSeq, year).memberId, sel, photo);
        assert MemberDraftValid(md);
      }
    }
  }

  // ---------------------------------------------------------------------------
  // Listings and counters
  // ---------------------------------------------------------------------------

  function ListMatching(members: map<Key, Member>, q: Option<string>, status: Option<string>): (ks: set<Key>)
    ensures forall k :: k in ks <==> k in members && ListMatch(members[k], q, status)
    ensures ks <= members.Keys
  {
    set k | k in members && ListMatch(members[k], q, status)
  }

  function PublicMatching(members: map<Key, Member>, q: Option<string>): (ks: set<Key>)
    ensures forall k :: k in ks <==> k in members && PublicMatch(members[k], q)
    ensures ks <= members.Keys
  {
    set k | k in members && PublicMatch(members[k], q)
  }

  /** `listMembers`: a page of the members matching the status and search
      filters, newest first, with the number of matches. */
  function ListMembers(st: State, q: Option<string>, status: Option<string>, page: Option<int>, limit: Option<nat>): (r: Step)
    ensures r.st == st
    ensures IsPageOf(r.reply, st.members, ListMatching(st.members, q, status), page, limit)
    ensures r.reply == ListPage(st.members, ListMatching(st.members, q, status), page, limit)
  {
    var matching := ListMatching(st.members, q, status);
    PageContents(st.members, matching, page, limit);
    Step(st, ListPage(st.members, matching, page, limit))
  }

  /** `listPublicMembers`: the same over approved members only, searched by
      name and member id. */
  function ListPublicMembers(st: State, q: Option<string>, page: Option<int>, limit: Option<nat>): (r: Step)
    ensures r.st == st
    ensures IsPageOf(r.reply, st.members, PublicMatching(st.members, q), page, limit)
    ensures r.reply == ListPage(st.members, PublicMatching(st.members, q), page, limit)
  {
    var matching := PublicMatching(st.members, q);
    PageContents(st.members, matching, page, limit);
    Step(st, ListPage(st.members, matching, page, limit))
  }

  /** The public listing never shows a member that is not approved. */
  lemma PublicListingShowsApprovedOnly(st: State, q: Option<string>, page: Option<int>, limit: Option<nat>)
    ensures var r := ListPublicMembers(st, q, page, limit);
      r.reply.Json? ==>
        forall i :: 0 <= i < |r.reply.body.items| ==> r.reply.body.items[i].doc.status == Approved
  {
  }

  predicate IsApprovedLifetime(m: Member) { m.status == Approved && m.membershipType == Lifetime }
  predicate IsApprovedOneTime(m: Member) { m.status == Approved && m.membershipType == OneTime }

  /** `stats`: approved members, and among them lifetime and (member
      spelling) one-time members. */
  function Stats(st: State): (r: Step)
    ensures r.st == st && r.reply.Json? && r.reply.status == 200 && r.reply.body.MemberCounts?
    ensures r.reply.body.totalMembers == |Where(st.members, IsApproved)|
    ensures r.reply.body.lifetimeMembers == |Where(st.members, IsApprovedLifetime)|
    ensures r.reply.body.oneTimeMembers == |Where(st.members, IsApprovedOneTime)|
  {
    Step(st, Json(200, MemberCounts(|Where(st.members, IsApproved)|, |Where(st.members, IsApprovedLifetime)|,
                                    |Where(st.members, IsApprovedOneTime)|)))
  }

  /** The public counters fit inside each other: lifetime and one-time
      members together are at most all approved members. */
  lemma StatsAreBounded(st: State)
    ensures var b := Stats(st).reply.body;
      b.lifetimeMembers + b.oneTimeMembers <= b.totalMembers
  {
    var l := Where(st.members, IsApprovedLifetime);
    var o := Where(st.members, IsApprovedOneTime);
    assert forall k :: k in l ==> k !in o;
    DisjointSubsets(l, o, Where(st.members, IsApproved));
  }

  // ---------------------------------------------------------------------------
  // Update, status, delete, own profile
  // ---------------------------------------------------------------------------

  /** `updateMember`: the patch is written as given (no plan logic) and no
      account changes. */
  function UpdateMember(st: State, id: IdRef, p: MemberPatch, now: int): (r: Step)
    ensures id.Malformed? ==> r == Step(st, Thrown(CastError("_id")))
    ensures !id.Malformed? && !(id.Id? && id.key in st.members) ==> r == Step(st, Json(404, Msg(MemberNotFound)))
    ensures id.Id? && id.key in st.members ==>
      var pr := PatchMember(st, id.key, p, now);
      && (pr.Err? ==> r == Step(st, Thrown(pr.error)))
      && (pr.Ok? ==> r == Step(st.(members := st.members[id.key := pr.value]), Json(200, MemberDoc(Entry(id.key, pr.value)))))
  {
    match id
    case Malformed(_) => Step(st, Thrown(CastError("_id")))
    case Absent => Step(st, Json(404, Msg(MemberNotFound)))
    case Id(k) =>
      if k !in st.members then Step(st, Json(404, Msg(MemberNotFound)))
      else match PatchMember(st, k, p, now)
        case Err(e) => Step(st, Thrown(e))
        case Ok(m') => Step(st.(members := st.members[k := m']), Json(200, MemberDoc(Entry(k, m'))))
  }

  /** `updateStatus`: only the member's status (and update time) changes. */
  function UpdateStatus(st: State, id: IdRef, status: Option<string>, now: int): (r: Step)
    ensures id.Malformed? ==> r == Step(st, Thrown(CastError("_id")))
    ensures !id.Malformed? && !(id.Id? && id.key in st.members) ==> r == Step(st, Json(404, Msg(MemberNotFound)))
    ensures id.Id? && id.key in st.members ==>
      var m := st.members[id.key];
      var m' := m.(status := status.GetOr(m.status), updatedAt := now);
      r == Step(st.(members := st.members[id.key := m']), Json(200, MemberDoc(Entry(id.key, m'))))
  {
    match id
    case Malformed(_) => Step(st, Thrown(CastError("_id")))
    case Absent => Step(st, Json(404, Msg(MemberNotFound)))
    case Id(k) =>
      if k !in st.members then Step(st, Json(404, Msg(MemberNotFound)))
      else
        var m' := ApplyPatch(st.members[k], EmptyPatch.(status := status), now);
        Step(st.(members := st.members[k := m']), Json(200, MemberDoc(Entry(k, m'))))
  }

  /** `deleteMember`: only the member goes; its account stays. */
  function DeleteMember(st: State, id: IdRef): (r: Step)
    ensures id.Malformed? ==> r == Step(st, Thrown(CastError("_id")))
    ensures !id.Malformed? && !(id.Id? && id.key in st.members) ==> r == Step(st, Json(404, Msg(MemberNotFound)))
    ensures id.Id? && id.key in st.members ==>
      r == Step(st.(members := st.members - {id.key}), Json(200, Message("Member deleted")))
  {
    match id
    case Malformed(_) => Step(st, Thrown(CastError("_id")))
    case Absent => Step(st, Json(404, Msg(MemberNotFound)))
    case Id(k) =>
      if k !in st.members then Step(st, Json(404, Msg(MemberNotFound)))
      else Step(st.(members := st.members - {k}), Json(200, Message("Member deleted")))
  }

  /** `getMyMemberProfile`: the caller's account by token id, then the first
      member (natural order) with that account's email. A token without an id
      (the administrator's) finds no account. */
  function MyProfile(st: State, user: Claims): (r: Step)
    ensures r.st == st
    ensures user.id.None? || user.id.value !in st.accounts ==> r.reply == Json(404, Msg("User not found"))
    ensures user.id.Some? && user.id.value in st.accounts ==>
      var e := Lower(st.accounts[user.id.value].email);
      && (MembersWithEmail(st.members, e) == {} ==> r.reply == Json(404, Msg("Member profile not found")))
      && (MembersWithEmail(st.members, e) != {} ==>
            && r.reply.Json? && r.reply.status == 200 && r.reply.body.MemberDoc?
            && r.reply.body.member.id in st.members
            && r.reply.body.member.doc == st.members[r.reply.body.member.id]
            && r.reply.body.member.doc.email == e
            && forall k :: k in MembersWithEmail(st.members, e) ==> r.reply.body.member.id <= k)
  {
    if user.id.None? || user.id.value !in st.accounts then Step(st, Json(404, Msg("User not found")))
    else
      var ks := MembersWithEmail(st.members, Lower(st.accounts[user.id.value].email));
      if ks == {} then Step(st, Json(404, Msg("Member profile not found")))
      else
        var k := Order.FirstOf(ks);
        Step(st, Json(200, MemberDoc(Entry(k, st.members[k]))))
  }

  /** Once an application succeeds, the account that logs in with its email
      finds a member profile with that email, and it is the new member when
      no member had that email before. */
  lemma AppliedMemberHasProfile(st: State, app: Application, photo: Option<string>, now: int, year: nat)
    requires KeysIssued(st)
    ensures var r := Apply(st, app, photo, now, year);
      r.reply.Json? ==>
        && app.email.Some?
        && var e := Lower(app.email.value);
        && AccountByEmail(r.st.accounts, e).Some?
        && var p := MyProfile(r.st, Claims(AccountByEmail(r.st.accounts, e), MemberRole, None)).reply;
        && p.Json? && p.status == 200 && p.body.MemberDoc? && p.body.member.doc.email == e
        && (MembersWithEmail(st.members, e) == {} ==> p.body.member == r.reply.body.member)
  {
    var r := Apply(st, app, photo, now, year);
    if r.reply.Json? {
      ApplicationOpensLogin(st, app, photo, now, year);
      var sel := Plans.ResolvePlan(st.plans, app.membershipPriceId).value;
      var md := ApplicationDraft(app, MemberIds.Allocate(st.memberSeq, year).memberId, sel, photo);
      StoredApplication(st, app, photo, now, year, sel, md);
      var e := Lower(app.email.value);
      LowerIdempotent(app.email.value);
      var a := AccountByEmail(r.st.accounts, e).value;
      assert Lower(r.st.accounts[a].email) == e;
      assert st.nextKey in MembersWithEmail(r.st.members, e);
      var p := MyProfile(r.st, Claims(Some(a), MemberRole, None)).reply;
      if MembersWithEmail(st.members, e) == {} {
        var k := p.body.member.id;
        assert k in MembersWithEmail(r.st.members, e);
        assert k == st.nextKey;
      }
    }
  }
}

=== FILE: route_guard.dfy ===
/** The client-side route guard: the token-expiry check and the decision
    between a spinner, a redirect and the protected page. Base64 and JSON
    decoding of the token payload is a parameter (`None` when either throws);
    the clock is the parameter `nowMs`. */
module RouteGuard {
  import opened Base
  import opened Text

  /** The decoded JWT payload; only `exp` (seconds since the epoch) is read. */
  datatype Payload = Payload(exp: Option<int>)

  /** `token.split(".")[1]`: the text between the first and the second dot (or
      the end); `None` when the token has no dot at all. */
  function PayloadSegment(token: string): (r: Option<string>)
    ensures r.None? <==> '.' !in token
    ensures r.Some? ==> '.' !in r.value
  {
    var i := IndexOf(token, '.');
    if i == |token| then
      assert forall c :: c in token ==> c != '.';
      None
    else
      var rest := token[i + 1..];
      var j := IndexOf(rest, '.');
      assert token[i] == '.';
      Some(rest[..j])
  }

  /** A three-part `header.payload.signature` token yields its middle part. */
  lemma PayloadSegmentOfJwt(header: string, payload: string, signature: string)
    requires '.' !in header && '.' !in payload
    ensures PayloadSegment(header + "." + payload + "." + signature) == Some(payload)
  {
    var token := header + "." + payload + "." + signature;
    var tail := payload + "." + signature;
    assert token == header + ("." + tail);
    IndexOfAbsentPrefix(header, "." + tail, '.');
    assert IndexOf(token, '.') == |header|;
    assert token[|header| + 1..] == tail;
    assert tail == payload + ("." + signature);
    IndexOfAbsentPrefix(payload, "." + signature, '.');
    assert tail[..|payload|] == payload;
  }

  /** The first `c` of `a + b` is the first of `b` when `a` has none. */
  lemma IndexOfAbsentPrefix(a: string, b: string, c: char)
    requires c !in a && |b| > 0 && b[0] == c
    ensures IndexOf(a + b, c) == |a|
  {
    assert (a + b)[|a|] == c;
    assert forall i :: 0 <= i < |a| ==> (a + b)[i] == a[i];
  }

  /** `isTokenExpired`: an absent or empty token, one without a payload part,
      or one whose payload does not decode counts as expired; a payload
      without a (truthy) `exp` never expires; otherwise the token is expired
      once `exp * 1000 <= now`. */
  function IsTokenExpired(token: Option<string>, decode: string -> Option<Payload>, nowMs: int): (expired: bool)
    ensures !Truthy(token) ==> expired
    ensures Truthy(token) && PayloadSegment(token.value).None? ==> expired
    ensures Truthy(token) && PayloadSegment(token.value).Some? ==>
      var p := decode(PayloadSegment(token.value).value);
      && (p.None? ==> expired)
      && (p.Some? && (p.value.exp.None? || p.value.exp == Some(0)) ==> !expired)
      && (p.Some? && p.value.exp.Some? && p.value.exp.value != 0 ==> (expired <==> p.value.exp.value * 1000 <= nowMs))
  {
    if !Truthy(token) then true
    else match PayloadSegment(token.value)
      case None => true
      case Some(segment) =>
        match decode(segment)
        case None => true
        case Some(payload) =>
          if payload.exp.None? || payload.exp.value == 0 then false
          else payload.exp.value * 1000 <= nowMs
  }

  /** Expiry is monotone in time: a token expired now stays expired. */
  lemma ExpiryIsMonotone(token: Option<string>, decode: string -> Option<Payload>, now1: int, now2: int)
    requires now1 <= now2
    ensures IsTokenExpired(token, decode, now1) ==> IsTokenExpired(token, decode, now2)
  {
  }

  /** The expiry instant itself already counts as expired; a millisecond
      earlier does not. */
  lemma ExpiryBoundary(token: string, decode: string -> Option<Payload>, exp: int)
    requires PayloadSegment(token).Some? && token != ""
    requires decode(PayloadSegment(token).value) == Some(Payload(Some(exp))) && exp != 0
    ensures IsTokenExpired(Some(token), decode, exp * 1000)
    ensures !IsTokenExpired(Some(token), decode, exp * 1000 - 1)
  {
  }

  /** What the guard renders. */
  datatype View = Spinner | Redirect(to: string) | Children

  /** The login page for a required role. */
  function LoginPath(role: Option<string>): (path: string)
    ensures role == Some("admin") <==> path == "/admin/login"
    ensures role != Some("admin") <==> path == "/login"
  {
    if role == Some("admin") then "/admin/login" else "/login"
  }

  /** `ProtectedRoute`: given the auth context (`loading`, `token`, the stored
      `authRole`) and the route's required `role`. */
  function Guard(loading: bool, token: Option<string>, authRole: Option<string>, role: Option<string>,
                 decode: string -> Option<Payload>, nowMs: int): (v: View)
    ensures loading <==> v == Spinner
    ensures !loading && (!Truthy(token) || IsTokenExpired(token, decode, nowMs))
      <==> v == Redirect(LoginPath(role))
    ensures v == Redirect("/") <==>
      !loading && Truthy(token) && !IsTokenExpired(token, decode, nowMs) && Truthy(role) && authRole != role
    ensures v == Children <==>
      !loading && Truthy(token) && !IsTokenExpired(token, decode, nowMs) && (!Truthy(role) || authRole == role)
  {
    var expired := Truthy(token) && IsTokenExpired(token, decode, nowMs);
    if loading then Spinner
    else if !Truthy(token) || expired then Redirect(LoginPath(role))
    else if Truthy(role) && authRole != role then Redirect("/")
    else Children
  }

  /** The effect that logs out: once loading is over and a present token
      has expired. */
  function ShouldLogout(loading: bool, token: Option<string>, decode: string -> Option<Payload>, nowMs: int): (out: bool)
    ensures out <==> !loading && Truthy(token) && IsTokenExpired(token, decode, nowMs)
  {
    !loading && Truthy(token) && IsTokenExpired(token, decode, nowMs)
  }

  /** Whenever the guard logs the user out it also sends them to a login
      page, never to the protected page. */
  lemma LogoutRedirectsToLogin(loading: bool, token: Option<string>, authRole: Option<string>, role: Option<string>,
                               decode: string -> Option<Payload>, nowMs: int)
    ensures ShouldLogout(loading, token, decode, nowMs) ==>
      Guard(loading, token, authRole, role, decode, nowMs) == Redirect(LoginPath(role))
  {
  }

  /** An admin page never renders for a member session, and vice versa. */
  lemma RoleMismatchNeverRenders(loading: bool, token: Option<string>, decode: string -> Option<Payload>, nowMs: int)
    ensures Guard(loading, token, Some("member"), Some("admin"), decode, nowMs) != Children
    ensures Guard(loading, token, Some("admin"), Some("member"), decode, nowMs) != Children
  {
  }
}

=== FILE: settings.dfy ===
/** Application settings: the public settings projection (plan options,
    default price, payment details) and the handlers that change the
    default plan's price, the QR image and the bank/UPI details, in both the
    settings controller and the admin controller. */
module Settings {
  import opened Base
  import opened Text
  import opened Models
  import opened Http
  import Order
  import Plans

  // ---------------------------------------------------------------------------
  // Projection
  // ---------------------------------------------------------------------------

  /** One option per plan, in the order and under the names the admin plan
      list uses: newest first, trimmed name or "Plan <price>". */
  function PlanOptions(plans: map<Key, Plan>): (os: seq<PlanOption>)
    ensures var ps := Plans.Listed(plans);
      |os| == |ps| && forall i :: 0 <= i < |os| ==> os[i] == PlanOption(ps[i].id, ps[i].doc.name, ps[i].doc.price)
  {
    OptionsOf(Plans.Listed(plans))
  }

  function OptionsOf(ps: seq<Entry<Plan>>): (os: seq<PlanOption>)
    ensures |os| == |ps| && forall i :: 0 <= i < |os| ==> os[i] == PlanOption(ps[i].id, ps[i].doc.name, ps[i].doc.price)
  {
    seq(|ps|, i requires 0 <= i < |ps| => PlanOption(ps[i].id, ps[i].doc.name, ps[i].doc.price))
  }

  /** The plan ids an option list offers, in order. */
  function OfferedIds(os: seq<PlanOption>): (ids: seq<Key>)
    ensures |ids| == |os| && forall i :: 0 <= i < |os| ==> ids[i] == os[i].id
  {
    seq(|os|, i requires 0 <= i < |os| => os[i].id)
  }

  /** Every plan is offered exactly once, at its own price and display name,
      newest first. */
  lemma OptionsCoverPlans(plans: map<Key, Plan>)
    ensures var os := PlanOptions(plans);
      && |os| == |plans.Keys|
      && (forall i :: 0 <= i < |os| ==>
            os[i].id in plans && os[i].price == plans[os[i].id].price && os[i].name == Plans.DisplayName(plans[os[i].id]))
      && (forall k :: k in plans ==> k in OfferedIds(os))
      && (forall i, j :: 0 <= i < j < |os| ==> os[i].id != os[j].id && Order.Newer(PlanStamps(plans), os[i].id, os[j].id))
  {
    OfferedAreListed(plans);
    OptionsKeepOrder(plans);
    OptionsShowPlans(plans);
  }

  lemma OfferedAreListed(plans: map<Key, Plan>)
    ensures OfferedIds(PlanOptions(plans)) == Order.Ids(Plans.Listed(plans))
  {
  }

  lemma OptionsKeepOrder(plans: map<Key, Plan>)
    ensures var os := PlanOptions(plans);
      forall i, j :: 0 <= i < j < |os| ==> os[i].id != os[j].id && Order.Newer(PlanStamps(plans), os[i].id, os[j].id)
  {
  }

  lemma OptionsShowPlans(plans: map<Key, Plan>)
    ensures var os := PlanOptions(plans);
      forall i :: 0 <= i < |os| ==>
        os[i].id in plans && os[i].price == plans[os[i].id].price && os[i].name == Plans.DisplayName(plans[os[i].id])
  {
  }

  /** The settings record as the client sees it: the stored one, or every
      field empty when none has been saved. */
  function StoredOrBlank(settings: Option<AdminSettings>): (s: AdminSettings)
    ensures settings.None? ==> s == BlankSettings
    ensures settings.Some? ==> s == settings.value
  {
    settings.GetOr(BlankSettings)
  }

  /** `getSettings`: the plan options, the default price (the first option's
      price, 0 without plans) for both price fields, and the payment details. */
  function View(st: State): (v: SettingsView)
    ensures v.membershipOptions == PlanOptions(st.plans)
    ensures v.lifetimePrice == v.oneTimePrice
    ensures v.membershipOptions == [] ==> v.lifetimePrice == 0
    ensures v.membershipOptions != [] ==> v.lifetimePrice == v.membershipOptions[0].price
    ensures var s := StoredOrBlank(st.settings);
      && v.paymentQrImage == s.qrCodeImage && v.bankName == s.bankName
      && v.accountHolderName == s.accountHolderName && v.accountNumber == s.accountNumber
      && v.ifscCode == s.ifscCode && v.upiId == s.upiId
  {
    var options := PlanOptions(st.plans);
    var defaultPrice := if options == [] then 0 else options[0].price;
    var s := StoredOrBlank(st.settings);
    SettingsView(defaultPrice, defaultPrice, options, s.qrCodeImage, s.bankName,
                 s.accountHolderName, s.accountNumber, s.ifscCode, s.upiId)
  }

  /** `getSettings` as a handler: it changes nothing and advertises, for both
      price fields, the fee an application without a plan id is charged. */
  function GetSettings(st: State): (r: Step)
    ensures r == Step(st, Json(200, SettingsDoc(View(st))))
    ensures Plans.ResolvePlan(st.plans, Absent).Ok?
    ensures r.reply.body.view.lifetimePrice == Plans.ResolvePlan(st.plans, Absent).value.fee
    ensures r.reply.body.view.oneTimePrice == Plans.ResolvePlan(st.plans, Absent).value.fee
  {
    DefaultPriceIsDefaultFee(st);
    Step(st, Json(200, SettingsDoc(View(st))))
  }

  /** With no settings record every payment field reads as "". */
  lemma NoRecordMeansBlankDetails(st: State)
    requires st.settings.None?
    ensures var v := View(st);
      v.paymentQrImage == "" && v.bankName == "" && v.accountHolderName == ""
      && v.accountNumber == "" && v.ifscCode == "" && v.upiId == ""
  {
  }

  /** The default price the settings advertise is the fee an application
      without a plan id is charged: both come from the newest plan. */
  lemma DefaultPriceIsDefaultFee(st: State)
    ensures Plans.ResolvePlan(st.plans, Absent).Ok?
    ensures View(st).lifetimePrice == Plans.ResolvePlan(st.plans, Absent).value.fee
  {
    var options := PlanOptions(st.plans);
    var sel := Plans.DefaultSelection(st.plans);
    OptionsCoverPlans(st.plans);
    if st.plans != map[] {
      var k := sel.planId.value;
      var i :| 0 <= i < |options| && options[i].id == k;
    } else {
      assert st.plans.Keys == {};
    }
  }

  // ---------------------------------------------------------------------------
  // updatePrices
  // ---------------------------------------------------------------------------

  const DefaultPlanName: string := "Default Plan"

  /** `lifetimePrice ?? oneTimePrice ?? 0`. */
  function FallbackPrice(lifetimePrice: Option<int>, oneTimePrice: Option<int>): (p: int)
    ensures lifetimePrice.Some? ==> p == lifetimePrice.value
    ensures lifetimePrice.None? && oneTimePrice.Some? ==> p == oneTimePrice.value
    ensures lifetimePrice.None? && oneTimePrice.None? ==> p == 0
  {
    lifetimePrice.GetOr(oneTimePrice.GetOr(0))
  }

  /** The ids of plans named exactly "Default Plan". */
  function DefaultPlanIds(plans: map<Key, Plan>): (ks: set<Key>)
    ensures forall k :: k in ks <==> k in plans && plans[k].name == DefaultPlanName
  {
    set k | k in plans && plans[k].name == DefaultPlanName
  }

  /** The upsert of `updatePrices`: the first plan named "Default Plan" (in
      natural order) gets the price; without one a new plan is inserted. No
      validators run on this path. */
  function SetDefaultPlanPrice(st: State, price: int, now: int): (st': State)
    ensures DefaultPlanIds(st.plans) != {} ==>
      var k := Order.FirstOf(DefaultPlanIds(st.plans));
      && st' == st.(plans := st.plans[k := st.plans[k].(price := price, updatedAt := now)])
    ensures DefaultPlanIds(st.plans) == {} ==>
      st' == st.(plans := st.plans[st.nextKey := Plan(DefaultPlanName, price, now, now)], nextKey := st.nextKey + 1)
    ensures exists k :: k in st'.plans && st'.plans[k].name == DefaultPlanName && st'.plans[k].price == price
    ensures st.nextKey !in st.plans ==>
      forall k :: k in st.plans && st.plans[k].name != DefaultPlanName ==> k in st'.plans && st'.plans[k] == st.plans[k]
  {
    var ids := DefaultPlanIds(st.plans);
    if ids != {} then
      var k := Order.FirstOf(ids);
      var st' := st.(plans := st.plans[k := st.plans[k].(price := price, updatedAt := now)]);
      assert k in st'.plans && st'.plans[k].name == DefaultPlanName;
      st'
    else
      var st' := st.(plans := st.plans[st.nextKey := Plan(DefaultPlanName, price, now, now)], nextKey := st.nextKey + 1);
      assert st.nextKey in st'.plans;
      st'
  }

  /** `updatePrices`: writes the fallback price into the default plan and
      answers with the new settings. */
  function UpdatePrices(st: State, lifetimePrice: Option<int>, oneTimePrice: Option<int>, now: int): (r: Step)
    ensures r.st == SetDefaultPlanPrice(st, FallbackPrice(lifetimePrice, oneTimePrice), now)
    ensures r.reply == Json(200, SettingsDoc(View(r.st)))
    ensures r.st == st.(plans := r.st.plans, nextKey := r.st.nextKey)
    ensures exists k :: k in r.st.plans && r.st.plans[k].name == DefaultPlanName
                        && r.st.plans[k].price == FallbackPrice(lifetimePrice, oneTimePrice)
  {
    var st' := SetDefaultPlanPrice(st, FallbackPrice(lifetimePrice, oneTimePrice), now);
    Step(st', Json(200, SettingsDoc(View(st'))))
  }

  /** On a store without a "Default Plan", updating the prices creates one
      newer than every plan, so the advertised price becomes the new price. */
  lemma UpdatePricesShowsNewPrice(st: State, lifetimePrice: Option<int>, oneTimePrice: Option<int>, now: int)
    requires DefaultPlanIds(st.plans) == {}
    requires st.nextKey !in st.plans
    requires forall k :: k in st.plans ==> st.plans[k].createdAt < now
    ensures View(UpdatePrices(st, lifetimePrice, oneTimePrice, now).st).lifetimePrice
      == FallbackPrice(lifetimePrice, oneTimePrice)
  {
    var st' := UpdatePrices(st, lifetimePrice, oneTimePrice, now).st;
    var p := Plan(DefaultPlanName, FallbackPrice(lifetimePrice, oneTimePrice), now, now);
    assert st'.plans == st.plans[st.nextKey := p];
    Plans.NewestPlanWins(st.plans, st.nextKey, p);
    DefaultPriceIsDefaultFee(st');
  }

  /** When the existing "Default Plan" is not the newest plan, updating the
      prices does not change the advertised price: the update keeps the
      plan's creation time and the projection shows the newest plan. */
  lemma UpdatePricesMayNotShow(st: State, lifetimePrice: Option<int>, oneTimePrice: Option<int>, now: int, newer: Key)
    requires DefaultPlanIds(st.plans) != {}
    requires newer in st.plans && newer !in DefaultPlanIds(st.plans)
    requires forall k :: k in st.plans && k != newer ==> st.plans[k].createdAt < st.plans[newer].createdAt
    ensures View(UpdatePrices(st, lifetimePrice, oneTimePrice, now).st).lifetimePrice == View(st).lifetimePrice
  {
    var st' := UpdatePrices(st, lifetimePrice, oneTimePrice, now).st;
    var k := Order.FirstOf(DefaultPlanIds(st.plans));
    var p := st.plans[k].(price := FallbackPrice(lifetimePrice, oneTimePrice), updatedAt := now);
    assert st'.plans == st.plans[k := p];
    NewestAfterReprice(st.plans, k, p, newer);
    PriceOfNewest(st, newer);
    PriceOfNewest(st', newer);
  }

  /** Changing a plan other than the strictly newest one, keeping its
      creation time, leaves the newest one newest and unchanged. */
  lemma NewestAfterReprice(plans: map<Key, Plan>, k: Key, p: Plan, newer: Key)
    requires k in plans && k != newer && p.createdAt == plans[k].createdAt
    requires newer in plans
    requires forall j :: j in plans && j != newer ==> plans[j].createdAt < plans[newer].createdAt
    ensures var plans' := plans[k := p];
      newer in plans' && plans'[newer] == plans[newer]
      && forall j :: j in plans' && j != newer ==> plans'[j].createdAt < plans'[newer].createdAt
  {
  }

  /** The advertised price is the price of the strictly newest plan. */
  lemma PriceOfNewest(st: State, newer: Key)
    requires newer in st.plans
    requires forall k :: k in st.plans && k != newer ==> st.plans[k].createdAt < st.plans[newer].createdAt
    ensures View(st).lifetimePrice == st.plans[newer].price
  {
    NewestIs(st.plans, newer);
    DefaultPriceIsDefaultFee(st);
  }

  /** A plan strictly newer than all others is the default selection. */
  lemma NewestIs(plans: map<Key, Plan>, newer: Key)
    requires newer in plans
    requires forall k :: k in plans && k != newer ==> plans[k].createdAt < plans[newer].createdAt
    ensures Plans.DefaultSelection(plans).planId == Some(newer)
  {
    var sel := Plans.DefaultSelection(plans);
    if sel.planId != Some(newer) {
      assert false;
    }
  }

  // ---------------------------------------------------------------------------
  // QR image and payment details
  // ---------------------------------------------------------------------------

  /** The upsert `findOneAndUpdate({}, { qrCodeImage })`: creates the record
      (other fields "") when missing. */
  function WithQr(st: State, filename: string): (st': State)
    ensures st'.settings.Some? && st'.settings.value.qrCodeImage == "/uploads/qr/" + filename
    ensures var before := StoredOrBlank(st.settings);
      st' == st.(settings := Some(before.(qrCodeImage := "/uploads/qr/" + filename)))
  {
    st.(settings := Some(StoredOrBlank(st.settings).(qrCodeImage := "/uploads/qr/" + filename)))
  }

  /** The five bank/UPI fields of a request; a field left out reads as "". */
  datatype PaymentDetails = PaymentDetails(
    bankName: Option<string>,
    accountHolderName: Option<string>,
    accountNumber: Option<string>,
    ifscCode: Option<string>,
    upiId: Option<string>)

  /** The upsert of the five fields: every one is overwritten and the QR
      image is kept. */
  function WithPaymentDetails(st: State, d: PaymentDetails): (st': State)
    ensures st'.settings.Some?
    ensures var s := st'.settings.value;
      && s.qrCodeImage == StoredOrBlank(st.settings).qrCodeImage
      && s.bankName == d.bankName.GetOr("") && s.accountHolderName == d.accountHolderName.GetOr("")
      && s.accountNumber == d.accountNumber.GetOr("") && s.ifscCode == d.ifscCode.GetOr("")
      && s.upiId == d.upiId.GetOr("")
    ensures st' == st.(settings := st'.settings)
  {
    var s := StoredOrBlank(st.settings);
    st.(settings := Some(AdminSettings(s.qrCodeImage, d.bankName.GetOr(""), d.accountHolderName.GetOr(""),
                                       d.accountNumber.GetOr(""), d.ifscCode.GetOr(""), d.upiId.GetOr(""))))
  }

  /** `uploadQr` (settings controller): without a file 400 and no change;
      otherwise the settings payload after the write. */
  function UploadQr(st: State, file: Option<string>): (r: Step)
    ensures file.None? ==> r == Step(st, Json(400, Msg("QR image required")))
    ensures file.Some? ==> r.st == WithQr(st, file.value) && r.reply == Json(200, SettingsDoc(View(r.st)))
  {
    match file
    case None => Step(st, Json(400, Msg("QR image required")))
    case Some(filename) =>
      var st' := WithQr(st, filename);
      Step(st', Json(200, SettingsDoc(View(st'))))
  }

  /** `updatePaymentDetails` (settings controller). */
  function UpdatePaymentDetails(st: State, d: PaymentDetails): (r: Step)
    ensures r.st == WithPaymentDetails(st, d)
    ensures r.reply == Json(200, SettingsDoc(View(r.st)))
    ensures var v := r.reply.body.view;
      && v.bankName == d.bankName.GetOr("") && v.accountHolderName == d.accountHolderName.GetOr("")
      && v.accountNumber == d.accountNumber.GetOr("") && v.ifscCode == d.ifscCode.GetOr("")
      && v.upiId == d.upiId.GetOr("") && v.paymentQrImage == View(st).paymentQrImage
  {
    var st' := WithPaymentDetails(st, d);
    Step(st', Json(200, SettingsDoc(View(st'))))
  }

  /** `getAdminSettings`: the stored record, or the all-empty one. */
  function GetAdminSettings(st: State): (r: Step)
    ensures r.st == st && r.reply.Json? && r.reply.status == 200 && r.reply.body.AdminSettingsDoc?
    ensures st.settings.None? ==> r.reply.body.settings == BlankSettings
    ensures st.settings.Some? ==> r.reply.body.settings == st.settings.value
    ensures r.reply.body.settings.qrCodeImage == View(st).paymentQrImage
    ensures r.reply.body.settings.upiId == View(st).upiId && r.reply.body.settings.bankName == View(st).bankName
  {
    Step(st, Json(200, AdminSettingsDoc(StoredOrBlank(st.settings))))
  }

  /** `uploadQrCode` (admin controller): the same write, answered with the
      stored record itself. */
  function AdminUploadQrCode(st: State, file: Option<string>): (r: Step)
    ensures file.None? ==> r == Step(st, Json(400, Msg("QR image required")))
    ensures file.Some? ==> r.st == WithQr(st, file.value) && r.reply == Json(200, AdminSettingsDoc(r.st.settings.value))
  {
    match file
    case None => Step(st, Json(400, Msg("QR image required")))
    case Some(filename) =>
      var st' := WithQr(st, filename);
      Step(st', Json(200, AdminSettingsDoc(st'.settings.value)))
  }

  /** `updatePaymentDetails` (admin controller). */
  function AdminUpdatePaymentDetails(st: State, d: PaymentDetails): (r: Step)
    ensures r.st == WithPaymentDetails(st, d)
    ensures r.reply == Json(200, AdminSettingsDoc(r.st.settings.value))
    ensures var s := r.reply.body.settings;
      && s.bankName == d.bankName.GetOr("") && s.accountHolderName == d.accountHolderName.GetOr("")
      && s.accountNumber == d.accountNumber.GetOr("") && s.ifscCode == d.ifscCode.GetOr("")
      && s.upiId == d.upiId.GetOr("") && s.qrCodeImage == StoredOrBlank(st.settings).qrCodeImage
  {
    var st' := WithPaymentDetails(st, d);
    Step(st', Json(200, AdminSettingsDoc(st'.settings.value)))
  }

  /** What is written is what is then read: after saving payment details the
      public projection shows them, the QR image is as before, and the plans
      and default price are untouched. */
  lemma PaymentDetailsRoundTrip(st: State, d: PaymentDetails)
    ensures var v := View(UpdatePaymentDetails(st, d).st);
      && v.bankName == d.bankName.GetOr("") && v.accountHolderName == d.accountHolderName.GetOr("")
      && v.accountNumber == d.accountNumber.GetOr("") && v.ifscCode == d.ifscCode.GetOr("")
      && v.upiId == d.upiId.GetOr("")
      && v.paymentQrImage == View(st).paymentQrImage
      && v.membershipOptions == View(st).membershipOptions
      && v.lifetimePrice == View(st).lifetimePrice
  {
  }

  /** After uploading a QR image the projection shows its path and keeps the
      bank details. */
  lemma QrRoundTrip(st: State, filename: string)
    ensures var v := View(UploadQr(st, Some(filename)).st);
      && v.paymentQrImage == "/uploads/qr/" + filename
      && v.bankName == View(st).bankName && v.upiId == View(st).upiId
      && v.accountHolderName == View(st).accountHolderName
      && v.accountNumber == View(st).accountNumber && v.ifscCode == View(st).ifscCode
  {
  }

  /** The two controllers' handlers make the same write. */
  lemma ControllersAgree(st: State, file: Option<string>, d: PaymentDetails)
    ensures UploadQr(st, file).st == AdminUploadQrCode(st, file).st
    ensures UpdatePaymentDetails(st, d).st == AdminUpdatePaymentDetails(st, d).st
  {
  }
}

=== FILE: text.dfy ===
/** String helpers the handlers rely on: ASCII case mapping, substring search,
    whitespace trimming, decimal rendering of numbers and left padding. */
module Text {

  // ---------------------------------------------------------------------------
  // Case mapping (ASCII letters only)
  // ---------------------------------------------------------------------------

  predicate IsUpper(c: char) {
    'A' <= c <= 'Z'
  }

  function LowerChar(c: char): (r: char)
    ensures !IsUpper(r)
    ensures !IsUpper(c) ==> r == c
  {
    if IsUpper(c) then (c as int + 32) as char else c
  }

  /** `String.prototype.toLowerCase`, restricted to ASCII letters. */
  function Lower(s: string): (r: string)
    ensures |r| == |s|
    ensures forall i :: 0 <= i < |s| ==> r[i] == LowerChar(s[i])
  {
    seq(|s|, i requires 0 <= i < |s| => LowerChar(s[i]))
  }

  lemma LowerIdempotent(s: string)
    ensures Lower(Lower(s)) == Lower(s)
  {
  }

  // ---------------------------------------------------------------------------
  // Prefixes and substrings
  // ---------------------------------------------------------------------------

  predicate StartsWith(s: string, prefix: string) {
    |prefix| <= |s| && s[..|prefix|] == prefix
  }

  /** Index of the first `c` in `s`, or `|s|` when there is none. */
  function IndexOf(s: string, c: char): (r: nat)
    ensures r <= |s|
    ensures forall i :: 0 <= i < r ==> s[i] != c
    ensures r < |s| ==> s[r] == c
  {
    if s == [] then 0 else if s[0] == c then 0 else 1 + IndexOf(s[1..], c)
  }

  /** Index of the last `c` in `s`, or `|s|` when there is none. */
  function LastIndexOf(s: string, c: char): (r: nat)
    ensures r <= |s|
    ensures r < |s| ==> s[r] == c && forall i :: r < i < |s| ==> s[i] != c
    ensures r == |s| ==> forall i :: 0 <= i < |s| ==> s[i] != c
  {
    if s == [] then 0
    else if s[|s| - 1] == c then |s| - 1
    else
      var r := LastIndexOf(s[..|s| - 1], c);
      if r == |s| - 1 then |s| else r
  }

  /** An unanchored search: `sub` occurs somewhere in `s`. */
  predicate Contains(s: string, sub: string)
    decreases |s|
  {
    StartsWith(s, sub) || (|s| > 0 && Contains(s[1..], sub))
  }

  /** An occurrence at any offset is found by the search. */
  lemma {:induction false} ContainsAt(s: string, sub: string, i: nat)
    requires i + |sub| <= |s| && s[i..i + |sub|] == sub
    ensures Contains(s, sub)
    decreases i
  {
    if i > 0 {
      assert s[1..][i - 1..i - 1 + |sub|] == sub;
      ContainsAt(s[1..], sub, i - 1);
    }
  }

  lemma LastIndexOfAt(s: string, c: char, i: nat)
    requires i < |s| && s[i] == c
    requires forall j :: i < j < |s| ==> s[j] != c
    ensures LastIndexOf(s, c) == i
  {
  }

  // ---------------------------------------------------------------------------
  // Whitespace trimming
  // ---------------------------------------------------------------------------

  /** The white-space and line-terminator characters `trim` removes (the
      ASCII ones plus no-break space and the byte-order mark). */
  predicate IsSpace(c: char) {
    c == ' ' || c == '\t' || c == '\n' || c == '\r' || c == '\U{000B}' || c == '\U{000C}'
    || c == '\U{00A0}' || c == '\U{FEFF}'
  }

  predicate AllSpace(s: string) {
    forall i :: 0 <= i < |s| ==> IsSpace(s[i])
  }

  function TrimStart(s: string): (r: string)
    ensures |r| <= |s| && r == s[|s| - |r|..]
    ensures AllSpace(s[..|s| - |r|])
    ensures r == [] || !IsSpace(r[0])
    decreases |s|
  {
    if |s| > 0 && IsSpace(s[0]) then TrimStart(s[1..]) else s
  }

  function TrimEnd(s: string): (r: string)
    ensures |r| <= |s| && r == s[..|r|]
    ensures AllSpace(s[|r|..])
    ensures r == [] || !IsSpace(r[|r| - 1])
    decreases |s|
  {
    if |s| > 0 && IsSpace(s[|s| - 1]) then TrimEnd(s[..|s| - 1]) else s
  }

  /** `String.prototype.trim`: the result neither starts nor ends with white
      space (and `TrimOnlyRemovesSpace` says it is `s` without its edges). */
  function Trim(s: string): (r: string)
    ensures |r| <= |s|
    ensures r == [] || (!IsSpace(r[0]) && !IsSpace(r[|r| - 1]))
  {
    TrimEnd(TrimStart(s))
  }

  /** `s` is the trimmed text wrapped in white space. */
  lemma TrimOnlyRemovesSpace(s: string)
    ensures exists a, b :: s == a + Trim(s) + b && AllSpace(a) && AllSpace(b)
  {
    var t := TrimStart(s);
    var r := TrimEnd(t);
    assert s == s[..|s| - |t|] + r + t[|r|..];
  }

  lemma TrimOfCleanText(s: string)
    requires s == [] || (!IsSpace(s[0]) && !IsSpace(s[|s| - 1]))
    ensures Trim(s) == s
  {
  }

  // ---------------------------------------------------------------------------
  // Decimal numbers
  // ---------------------------------------------------------------------------

  predicate IsDigit(c: char) {
    '0' <= c <= '9'
  }

  predicate AllDigits(s: string) {
    forall i :: 0 <= i < |s| ==> IsDigit(s[i])
  }

  function DigitChar(d: nat): (c: char)
    requires d < 10
    ensures IsDigit(c)
  {
    ('0' as int + d) as char
  }

  /** Value of a string of decimal digits. */
  function DigitsValue(s: string): nat
    requires AllDigits(s)
  {
    if s == [] then 0 else DigitsValue(s[..|s| - 1]) * 10 + (s[|s| - 1] as int - '0' as int)
  }

  /** `String(n)` for a non-negative integer: shortest decimal form. */
  function NatText(n: nat): (r: string)
    ensures |r| >= 1 && AllDigits(r)
    ensures |r| > 1 ==> r[0] != '0'
    decreases n
  {
    if n < 10 then [DigitChar(n)] else NatText(n / 10) + [DigitChar(n % 10)]
  }

  /** `String(i)` for any integer. */
  function IntText(i: int): (r: string)
    ensures i < 0 <==> (|r| > 0 && r[0] == '-')
  {
    if i < 0 then "-" + NatText(-i) else NatText(i)
  }

  /** Reading back a rendered number gives the number: the decimal form is a
      faithful encoding. */
  lemma {:induction false} NatTextRoundTrip(n: nat)
    ensures DigitsValue(NatText(n)) == n
    decreases n
  {
    if n >= 10 {
      NatTextRoundTrip(n / 10);
      var s := NatText(n);
      assert s[..|s| - 1] == NatText(n / 10);
    }
  }

  lemma NatTextInjective(m: nat, n: nat)
    requires NatText(m) == NatText(n)
    ensures m == n
  {
    NatTextRoundTrip(m);
    NatTextRoundTrip(n);
  }

  /** Leading zeros do not change the value of a digit string. */
  lemma {:induction false} LeadingZeros(z: string, s: string)
    requires forall i :: 0 <= i < |z| ==> z[i] == '0'
    requires AllDigits(s)
    ensures AllDigits(z + s)
    ensures DigitsValue(z + s) == DigitsValue(s)
    decreases |s|
  {
    assert AllDigits(z + s) by {
      forall i | 0 <= i < |z + s|
        ensures IsDigit((z + s)[i])
      {
        if i < |z| {
          assert (z + s)[i] == z[i];
        } else {
          assert (z + s)[i] == s[i - |z|];
        }
      }
    }
    if s == [] {
      assert z + s == z;
      AllZeros(z);
    } else {
      var s' := s[..|s| - 1];
      assert (z + s)[..|z + s| - 1] == z + s';
      LeadingZeros(z, s');
    }
  }

  lemma {:induction false} AllZeros(z: string)
    requires forall i :: 0 <= i < |z| ==> z[i] == '0'
    ensures AllDigits(z) && DigitsValue(z) == 0
    decreases |z|
  {
    if z != [] {
      AllZeros(z[..|z| - 1]);
    }
  }

  // ---------------------------------------------------------------------------
  // Padding and joining
  // ---------------------------------------------------------------------------

  function Repeat(c: char, n: nat): (r: string)
    ensures |r| == n
    ensures forall i :: 0 <= i < n ==> r[i] == c
  {
    seq(n, _ => c)
  }

  /** `String.prototype.padStart(width, c)`: never truncates, and only adds
      copies of `c` in front. */
  function PadStart(s: string, width: nat, c: char): (r: string)
    ensures |r| == if |s| >= width then |s| else width
    ensures r[|r| - |s|..] == s
    ensures forall i :: 0 <= i < |r| - |s| ==> r[i] == c
  {
    if |s| >= width then s else Repeat(c, width - |s|) + s
  }

  /** `Array.prototype.join(sep)`. */
  function Join(parts: seq<string>, sep: string): (r: string)
    ensures parts == [] ==> r == ""
    ensures |parts| == 1 ==> r == parts[0]
  {
    if parts == [] then ""
    else if |parts| == 1 then parts[0]
    else parts[0] + sep + Join(parts[1..], sep)
  }
}

=== FILE: upload.dfy ===
/** Image uploads: the file filter, the stored file name and the size limit.
    The client-supplied `originalname` is taken as a base name (no '/'). */
module Upload {
  import opened Base
  import opened Text
  import opened Http

  /** `limits.fileSize`: 2 MiB. */
  const MaxFileSize: nat := 2 * 1024 * 1024

  /** The alternatives of `/jpeg|jpg|png|webp/`. */
  const ImagePatterns: seq<string> := ["jpeg", "jpg", "png", "webp"]

  const RejectMessage: string := "Only image files are allowed"

  /** `/jpeg|jpg|png|webp/.test(s)`: an unanchored, case-sensitive search. */
  predicate MatchesImagePattern(s: string) {
    Contains(s, "jpeg") || Contains(s, "jpg") || Contains(s, "png") || Contains(s, "webp")
  }

  /** `path.extname` of a base name: from the last '.' to the end, unless that
      dot is the first character or the name is "..", which have none. */
  function Extname(name: string): (ext: string)
    ensures ext == [] || (ext[0] == '.' && |ext| <= |name| && name[|name| - |ext|..] == ext)
    ensures ext != [] ==> forall i :: 0 < i < |ext| ==> ext[i] != '.'
  {
    var i := LastIndexOf(name, '.');
    if name == ".." || i == |name| || i == 0 then "" else name[i..]
  }

  /** `imageFileFilter`: accepted iff the lowercased extension and the
      (not lowercased) MIME type both match the pattern. */
  function ImageFileFilter(originalname: string, mimetype: string): (r: Option<Error>)
    ensures r.None? <==> MatchesImagePattern(Lower(Extname(originalname))) && MatchesImagePattern(mimetype)
    ensures r.Some? ==> r.value == PlainError(RejectMessage)
  {
    if MatchesImagePattern(Lower(Extname(originalname))) && MatchesImagePattern(mimetype) then None
    else Some(PlainError(RejectMessage))
  }

  /** The name multer stores the file under: `<now>-<random><ext>` with the
      original extension lowercased. */
  function StoredName(originalname: string, now: int, random: nat): (r: string)
    ensures var ext := Lower(Extname(originalname));
      |ext| <= |r| && r[|r| - |ext|..] == ext
  {
    IntText(now) + "-" + NatText(random) + Lower(Extname(originalname))
  }

  datatype UploadedFile = UploadedFile(originalname: string, mimetype: string, size: nat)

  /** One upload through `createUploader`: the filter runs first, then the
      size limit; on success the stored file name. */
  function Accept(file: UploadedFile, now: int, random: nat): (r: Result<string, Error>)
    ensures r.Ok? <==> ImageFileFilter(file.originalname, file.mimetype).None? && file.size <= MaxFileSize
    ensures r.Ok? ==> r.value == StoredName(file.originalname, now, random)
    ensures ImageFileFilter(file.originalname, file.mimetype).Some? ==> r == Err(PlainError(RejectMessage))
  {
    match ImageFileFilter(file.originalname, file.mimetype)
    case Some(e) => Err(e)
    case None =>
      if file.size > MaxFileSize then Err(MulterError("File too large"))
      else Ok(StoredName(file.originalname, now, random))
  }

  /** A rejected file type reaches the error middleware as a plain Error, so
      the client sees 500; an oversized file is a MulterError, so 400. */
  lemma RejectionStatuses(file: UploadedFile, now: int, random: nat)
    ensures ImageFileFilter(file.originalname, file.mimetype).Some?
      ==> StatusOf(Thrown(Accept(file, now, random).error)) == 500
    ensures ImageFileFilter(file.originalname, file.mimetype).None? && file.size > MaxFileSize
      ==> StatusOf(Thrown(Accept(file, now, random).error)) == 400
  {
    if ImageFileFilter(file.originalname, file.mimetype).Some? {
      PlainErrorIs500(RejectMessage);
    }
  }

  /** The extension is lowercased before matching. */
  lemma ExtensionCaseIgnored()
    ensures ImageFileFilter("photo.PNG", "image/png").None?
  {
    LastIndexOfAt("photo.PNG", '.', 5);
    assert Extname("photo.PNG") == ".PNG";
    assert Lower(".PNG") == ".png";
    ContainsAt(".png", "png", 1);
    ContainsAt("image/png", "png", 6);
  }

  /** The MIME type is matched case-sensitively, so an upper-case type is
      refused even with a good extension. */
  lemma MimeTypeCaseMatters()
    ensures ImageFileFilter("photo.png", "IMAGE/PNG").Some?
  {
    NoLowerLetters("IMAGE/PNG", "jpeg");
    NoLowerLetters("IMAGE/PNG", "jpg");
    NoLowerLetters("IMAGE/PNG", "png");
    NoLowerLetters("IMAGE/PNG", "webp");
  }

  /** A text whose first character is a lower-case letter cannot occur in a
      text without lower-case letters. */
  lemma {:induction false} NoLowerLetters(s: string, sub: string)
    requires |sub| > 0 && 'a' <= sub[0] <= 'z'
    requires forall i :: 0 <= i < |s| ==> !('a' <= s[i] <= 'z')
    ensures !Contains(s, sub)
    decreases |s|
  {
    if |s| > 0 {
      NoLowerLetters(s[1..], sub);
    }
  }

  /** The match is unanchored: a longer extension containing "png" passes. */
  lemma UnanchoredMatch()
    ensures ImageFileFilter("x.pngx", "image/png").None?
  {
    LastIndexOfAt("x.pngx", '.', 1);
    assert Lower(".pngx") == ".pngx";
    ContainsAt(".pngx", "png", 1);
    ContainsAt("image/png", "png", 6);
  }
}
